=== FILE: README.md ===
# LooPyMinty in Dafny

LooPyMinty is a set of Python scripts that mint NFTs on Loopring's layer 2 and transfer them.
`prepare.py` turns a folder of files into a list of IPFS CIDs. `minter.py` (and its
predecessor `LooPyMinty.py`) derives an NFT id from each CID, fetches a storage slot, the
counterfactual token address and the fee quote, asks once for approval of the estimated fee,
signs the NFT-data and mint orders with Poseidon/EdDSA and submits them. `transfer.py` filters a
list of recipients, resolves each one and signs and sends one NFT transfer per recipient, moving
its storage id on after each success. `cid2hex.py` prints the NFT id of a CID.

This project models those scripts as pure functions over immutable data and proves what they
promise:

- the NFT id and its two 128-bit halves come from the decoded CID;
- what is signed is what is submitted;
- the audit trail (`mint-info.json`) lists exactly the items handled, in order, each one
  recorded before its mint is attempted;
- the fee prompt is shown at most once, never with `--noprompt`, and an answer of no submits
  nothing;
- the transfer storage id advances by two after every successful transfer and only then;
- the recipient filter accepts exactly the texts `get_account_info` can route;
- `prepare.py` writes every file once, in `(ID, name)` order, with a unique positive ID.

Every exchange call is a parameter that gives the reply the call would receive. A reply is
`NoBody` when the request or its JSON decoding fails. Otherwise it is a status and an optional
body, where an absent body stands for JSON `null`. The service's getters (`Exchange.Receive`)
record the status and return the body exactly when the status is below 400. A `NoBody` reply
reaches `pprint(parsed)` with `parsed` unbound, so it raises `UnboundLocalError`. The
cryptography is also a parameter: base58 decoding, the Poseidon hash and the EdDSA signature.
So are the per-attempt fate of an account lookup (returned, timed out, raised), the `cid` tool's
output per path, `os.path.exists`, the first `os.walk` listing, the lines of the `--tofile`
file and of standard input, and the environment variables.

Modules follow the repository: `Minter` (`minter.py`), `LooPyMinty`, `Transfer`, `Prepare`,
`NftId` (with `cid2hex.py`), `SignHelpers` and `Exchange` (`LoopringMintService.py`), `Records`
(`DataClasses.py` and the shared constants), plus the parts of Python the scripts lean on:
`PyInt` (`int(s, 10)`, `int(s, 16)`, `hex`, `str`), `PyText`, `PosixPath`, `Ordering`
(`sorted` on `(int, str)` tuples), `Prompt` (`prompt_yes_no`), `Retry` (`retry_async`), `Fees`
and `Payloads` (the signed input lists).

## Model

| member | source | states |
|---|---|---|
| Exchange.Receive | LoopringMintService.py:44-66 | A getter raises exactly when there was no reply; otherwise it records the status, and hands back the body exactly when the status is below 400 and the body is not null |
| Exchange.ReceiveCases | LoopringMintService.py:50-66 | A getter call ends in exactly one of three ways: a delivered value, `None` (a refused status or null), or a raise |
| Exchange.AcceptedIff | minter.py:242-245 | The scripts' success test (a value came back and `last_status == 200`) holds exactly when the reply had status 200 and a body |
| Exchange.RejectedKeepsStatus | LoopringMintService.py:50-55 | A refused status yields `None` while `last_status` still carries the status |
| Records.TokenDecimalsTable | DataClasses.py:24 | The table has the five symbols ETH, LRC, USDT, DAI, USDC with 18 or 6 decimals, so the valid fee token ids are exactly 0 to 4 |
| Records.PyIndex | minter.py:150 | `fees[i]` succeeds exactly for `-len <= i < len`, a negative index counting from the end |
| SignHelpers.MaxInputs | LoopringMintService.py:11-33 | The NFT-data helper takes 6 inputs and the mint helper 9; the transfer helper's limit is unknown |
| SignHelpers.Params | LoopringMintService.py:14-30 | Each known helper's Poseidon width `t` is its `MAX_INPUTS + 1`, with 6 full rounds |
| SignHelpers.Serialize | LoopringMintService.py:20-21 | `serialize_data` keeps the first `MAX_INPUTS` inputs unchanged and drops the rest |
| SignHelpers.SerializeIgnoresExtra | LoopringMintService.py:20-21 | Inputs past `MAX_INPUTS` never influence what is hashed |
| SignHelpers.SerializeKeepsShort | LoopringMintService.py:32-33 | A list no longer than `MAX_INPUTS` is hashed whole |
| Payloads.NftDataRoundTrip | minter.py:167-174 | The NFT-data list has six fields, the low half of the id before the high half, and decodes back to the record |
| Payloads.NftDataDecodes | minter.py:167-174 | A list decodes as NFT data exactly when it has six fields, and re-encodes to itself |
| Payloads.NftMintRoundTrip | minter.py:183-193 | The mint order has nine fields, the NFT-data hash in slot 3 and the storage id last, the minter account twice, and decodes back |
| Payloads.NftMintDecodes | minter.py:183-193 | A list decodes as a mint order exactly when it has nine fields, and re-encodes to itself |
| Payloads.NftTransferRoundTrip | transfer.py:201-214 | The transfer order has twelve fields with zeros in slots 8 and 9 and the storage id last, and decodes back |
| Payloads.NftTransferDecodes | transfer.py:201-214 | A list decodes as a transfer order exactly when it has twelve fields with zeros in slots 8 and 9 |
| PyInt.IntOf | minter.py:37-42 | `int(s, base)` raises only `ValueError`; empty text raises; plain digits, `-` and plain digits, and in base 16 `0x` and plain digits read as their value; in base 10 the value prints back as the text exactly when the text is a canonical decimal |
| PyInt.EnvInt | minter.py:37-42 | `int(getenv(name))` raises `TypeError` for an unset variable and `ValueError` for text `int()` rejects, and otherwise gives the text's value |
| PyInt.ParseBytesHex | minter.py:165-166 | `int(b.hex(), 16)` is the big-endian value of the bytes, and raises for no bytes |
| PyInt.ParsePyHex | minter.py:56-57 | `int(hex(v), 16) == v` for every integer, negative ones included |
| PyInt.ParsePaddedHex | transfer.py:68-69 | `"0x{0:0{1}x}".format(v, 64)` reads back in base 16 as `v` |
| PyInt.ParsePyStr | minter.py:229 | `int(str(v)) == v`: the amount sent as text is the amount signed |
| PyInt.DecimalRoundTripIff | transfer.py:311-316 | `str(int(s, 10)) == s` holds exactly for an optional minus followed by digits without a leading zero |
| Retry.RetryAsync | transfer.py:38-43 | At most `retries` attempts; the result is the first attempt that returns or raises, every earlier one having timed out; `None` after `retries` timeouts |
| Retry.NoRetries | transfer.py:38-43 | With no retries allowed nothing is attempted and the result is `None` |
| Retry.FirstDecides | transfer.py:38-43 | The first attempt that does not time out decides the result, if it comes within the allowed attempts |
| Prompt.PromptYesNo | minter.py:107-128 | An invalid default raises; otherwise the answer is taken from the first deciding line (a `y`/`n` start, or an empty line when there is a default), and end of input is reached exactly when no line decides |
| Prompt.LowerFirst | minter.py:119-123 | After lower-casing, the first character is `y` (`n`) exactly when the line starts with `y`/`Y` (`n`/`N`) |
| Prompt.FirstLetterDecides | minter.py:120-123 | A line starting with `y` or `n` answers at once, whatever else it holds |
| Prompt.DefaultNoApproval | minter.py:287 | With default `no`, only a line starting with `y` or `Y` approves the fee |
| Fees.EstimateBatchFees | minter.py:98-104 | The estimate raises `ValueError` for a fee that is not decimal and `KeyError` for an unknown symbol; otherwise it is for `count` items in the quoted token |
| Fees.FeeGate | minter.py:284-290 | Once approved nothing is asked; otherwise the estimate counts the items and the user is asked once; the run goes on only on a yes, and ends with "Aborted by user" exactly when the estimate succeeded and the answer was no |
| NftId.NftIdOf | minter.py:159 | The id is `0x` followed by the hex of the decoded CID without its first two bytes |
| NftId.DeriveNftId | minter.py:159 | A CID that is not base58 raises `ValueError`; otherwise the id is `0x` and the hex of the decoded bytes after the first two |
| NftId.SplitPayloadId | minter.py:165-166 | The two halves read from the id are the big-endian values of payload bytes 0-15 and 16-31; reading fails exactly when the payload has at most 16 bytes |
| NftId.SplitDerivedId | minter.py:159-166 | For a decoded CID, the halves are the big-endian values of decoded bytes 2-17 and 18-33, and exist exactly when more than 18 bytes were decoded |
| NftId.HalvesRecombine | minter.py:165-172 | For a 32-byte payload each half is below 2^128 and `hi * 2^128 + lo` is the whole payload's value |
| NftId.Cid2HexAsWritten | cid2hex.py:5-28 | As written, the tool prints an id exactly for a non-empty `Qm` CID that decodes; every refused argument ends in `NameError`, and undecodable text in `ValueError` |
| NftId.Cid2HexAsWrittenMissingCid | cid2hex.py:19-24 | As written, a missing or non-`Qm` CID ends in `NameError` instead of the intended exit message |
| NftId.Cid2Hex | cid2hex.py:5-28 | With `sys` imported, the tool prints the derived NFT id exactly for a non-empty `Qm` CID that decodes; a missing CID exits with the "Missing --cid" message, and no failure is a `NameError` |
| NftId.Cid2HexAgrees | cid2hex.py:19-28 | The as-written and corrected tools print the same id whenever either succeeds |
| PosixPath.SplitShape | prepare.py:45 | `os.path.split` gives a tail with no slash that ends the path, and a path with no slash splits into an empty head and itself |
| PosixPath.JoinSplit | prepare.py:45 | Joining the split of a path without doubled slashes rebuilds it |
| PosixPath.DirOfTrims | prepare.py:47 | The `--idir` normalisation drops the trailing slashes and nothing else |
| PosixPath.SplitExtJoins | prepare.py:116 | `splitext` root and extension concatenate to the path; the extension is empty or a dot with no slash after it; no dot means no extension |
| PosixPath.SplitExtOfName | prepare.py:116 | A name `base + ext` with a single final dot splits into exactly `base` and `ext` |
| Ordering.LeTotal | prepare.py:101 | Python's `(int, str)` tuple order is total |
| Ordering.LeTrans | prepare.py:101 | The tuple order is transitive |
| Ordering.LeAntisym | prepare.py:101 | The tuple order is antisymmetric |
| Ordering.SortSorted | prepare.py:101 | The sort orders its input |
| Ordering.SortedUnique | prepare.py:101 | Two sorted arrangements of the same tuples are the same sequence, so any correct `sorted` gives the modelled result |
| Prepare.ExtractId | prepare.py:97 | A file's ID is zero exactly when every digit in its name is `0` |
| Prepare.ExtractIdOfChar | prepare.py:97 | A one-character name gets that digit's value as its ID, or 0 when the character is not a digit |
| Prepare.ExtractIdAppend | prepare.py:97 | The digits of a name concatenate: the ID of `a + b` is the ID of `a` times ten to the number of digits in `b`, plus the ID of `b` |
| Prepare.ExtractIdOfPadded | prepare.py:97 | Leading zeros do not count: any digit-free prefix, then `k` zeros, then the numeral of `n`, then a digit-free suffix gives ID `n` |
| Prepare.ExtractIdPaddedExample | prepare.py:97 | `001.png` gets ID 1 |
| Prepare.ZeroPrefixedValue | prepare.py:97 | `int('0' + str(n)) == n` |
| Prepare.ExtractIdOfNumbered | prepare.py:97 | A name whose only digits spell `n` gets ID `n` |
| Prepare.Renumber | prepare.py:98 | Non-zero IDs are kept; the zero ID at position `i` becomes `max(ids) + 1 + i`, so renumbered IDs rise with position, are larger than every original ID and distinct from every other ID handed out; a list without zeros is unchanged |
| Prepare.RenumberTwice | prepare.py:98 | Renumbering is idempotent |
| Prepare.RenumberDistinct | prepare.py:98 | When the numbered names carry distinct numbers, every file ends up with its own ID |
| Prepare.IdsOf | prepare.py:97-98 | One ID per file: a file whose name carries a number keeps it; a file without one gets a positive ID above every number carried, rising with its position; every ID is positive |
| Prepare.OrderIsSortedPermutation | prepare.py:101 | The output order is sorted, a permutation of the `(ID, file)` pairs, every entry a listed file with a positive ID, and the only sorted permutation |
| Prepare.OutputDirSplit | prepare.py:54-57 | `os.path.split('./output')` is `('.', 'output')` |
| Prepare.EmptyGuardAsWrittenNeverHolds | prepare.py:56-58 | As written, the `--empty` guard never holds, so the output directory is never emptied |
| Prepare.EmptyGuardHolds | prepare.py:56-58 | The corrected guard holds exactly when `--empty` is given and the output directory exists |
| Prepare.InputOfAsWritten | prepare.py:44-47 | `--file` splits into a directory and a slash-free last component, and a bare name gets the empty directory; `--idir` loses only its trailing slashes; an empty option leaves the directory unset |
| Prepare.ParseArgsAsWritten | prepare.py:44-48 | `parse_args` as written: the input directory and file come from the split of `--file` or the normalised `--idir`, and the run fails its assertion exactly when that directory does not exist |
| Prepare.BareFileAsWrittenFails | prepare.py:44-48 | As written, `--file name.png` with no directory part fails the existence assertion |
| Prepare.InputOf | prepare.py:44-47 | The corrected input reading agrees with the as-written one except that an empty directory becomes `.` |
| Prepare.ParseArgs | prepare.py:31-68 | The corrected `parse_args` succeeds exactly when the input directory exists, and keeps `--metadata` and `--empty` |
| Prepare.BareFileReadsCurrentDir | prepare.py:44-48 | Corrected, `--file name.png` reads `name.png` from the current directory |
| Prepare.ParseArgsAgree | prepare.py:44-48 | Where a directory is given, both readings of the arguments agree |
| Prepare.TokenOf | prepare.py:119-130 | A template's image and animation URL are `ipfs://` and the CID, its token id the file's ID; the name, description, artist and minter are the variable's value, or `COLLECTION_NAME`, `DESCRIPTION`, `ARTIST` and `MINTER` when it is unset or empty; the royalty is the text, or 0 when unset or empty |
| Prepare.JsonNameOf | prepare.py:116 | The template of `art.png` is `art.json`; a name without a dot gains `.json` |
| Prepare.Cids | prepare.py:71-83 | The CIDs are gathered exactly when the tool succeeds for every file, one per file in order; otherwise `RuntimeError` |
| Prepare.CidsJsonPath | prepare.py:108 | The CID list is written to `./output/cids.json` |
| Prepare.Main | prepare.py:85-135 | A refused `parse_args` ends the run with its error; the run raises only `TypeError`, `AssertionError`, `ValueError` or `RuntimeError`; on success it writes `./output/cids.json` exactly without `--metadata`, never empty, with positive IDs |
| Prepare.MainSucceeds | prepare.py:85-103 | Once `parse_args` as written accepts the options, no file raises `ValueError`; otherwise the run succeeds exactly when every file has a CID, keeping the files in sorted `(ID, name)` order |
| Prepare.MainCidsJson | prepare.py:106-111 | Once `parse_args` as written accepts the options, without `--metadata`, `cids.json` has one record per file in order, with its ID and CID |
| Prepare.MainMetadata | prepare.py:114-135 | Once `parse_args` as written accepts the options, with `--metadata`, one template per file in order, in `output/metadata/<root>.json`, carrying its ID and `ipfs://` image |
| Prepare.MainOutputs | prepare.py:85-135 | Once `parse_args` as written accepts the options, what the script writes: one record per file, in `(ID, name)` order, each with its ID and CID |
| Minter.NormalizeKey | minter.py:56-57 | A `0x` key is kept; a decimal key becomes `hex(int(key))`, which reads back as the same number, and raises `ValueError` when it is not decimal |
| Minter.Setup | minter.py:32-57 | `setup` succeeds exactly when the four numbers parse, the three strings are set, the NFT type is 0 or 1, the royalty is 0 to 10, the CID starts with `Qm` and the key is usable; a bad number raises before any assertion; the configuration carries the values read |
| Minter.ParseArgsAsWritten | minter.py:63-95 | As written, `parse_args` accepts exactly when `--cid` or `--json` is given, the JSON file exists, and an `--end` comes with a `--start` no larger; `--end` without `--start` raises `TypeError`; the range is kept even in single-CID mode |
| Minter.ParseArgsAsWrittenEndOnly | minter.py:82-90 | As written, `--end` without `--start` raises `TypeError` |
| Minter.ParseArgs | minter.py:63-95 | The corrected `parse_args` needs `--cid` or `--json`, an existing JSON file and `start <= end`, with `start` defaulting to 1 before the check and the range dropped in single-CID mode |
| Minter.ParseArgsAgree | minter.py:79-90 | Whatever the as-written `parse_args` accepts, the corrected one accepts too, identically for a JSON batch |
| Minter.GetOffchainParameters | minter.py:130-155 | The storage id, token address and fee are what the exchange delivered; a refused storage id or token address exits with its message, a missing fee raises `TypeError` at the log line before its check |
| Minter.GetHashesAndSign | minter.py:157-204 | Succeeds exactly when the CID decodes to more than 18 bytes and the addresses and fee parse; the NFT-data hash covers minter, type, token address, the id's low and high halves and royalty, and the signature covers the nine order inputs |
| Minter.SubmittedMatchesSigned | minter.py:219-238 | Reading the submitted request's fields back gives the signed order and NFT-data inputs |
| Minter.MintNft | minter.py:206-245 | An NFT the lookup finds is reported EXISTS and nothing is submitted; otherwise the signed request is submitted and reported SUCCESS exactly when the reply has status 200 and a body |
| Minter.Main | minter.py:247-262 | With `parse_args` as written, refused options, `--end` without `--start` among them, end the run with "Failed to initialize the minter" before anything is recorded; otherwise the trail lists in-range items of the batch in order, all of them when the run completes |
| Minter.RunTrail | minter.py:264-313 | From any point of the loop, the trail stays a prefix of the in-range items, and a run that completes records all of them |
| Minter.MintTrail | minter.py:264-313 | `mint-info.json` lists the in-range items in order, each recorded before its mint is attempted, and all of them when the run completes |
| Minter.RunKeepsGate | minter.py:284-290 | The loop keeps the approval facts: at most one prompt, none with `--noprompt`, each estimate for the whole list |
| Minter.MintGate | minter.py:284-290 | The fee prompt is shown at most once, never with `--noprompt`, its estimate counts every item, an answer of no submits nothing, and one request is submitted per reported non-existing NFT |
| Minter.CidModeAsWrittenMintsNothing | minter.py:87-90 | As written, `--cid` with `--start` above 1 announces the range is ignored, then filters out the only item and mints nothing |
| Minter.CidModeMintsItem | minter.py:253-277 | Corrected, single-CID mode records the CID as item 1 whatever the range said |
| LooPyMinty.ParseArgs | LooPyMinty.py:54-67 | The options pass exactly when the source is a CID or an existing JSON file |
| LooPyMinty.FetchParameters | LooPyMinty.py:124-140 | The three calls succeed exactly when the storage id has a reply and the token address and fee are delivered; a refused token address raises `TypeError`, and so does a refused fee; a refused storage id is carried on unchecked |
| LooPyMinty.SignItem | LooPyMinty.py:150-195 | Signing is the minter's `get_hashes_and_sign`; a missing storage id raises `TypeError` only once every parse before it has succeeded |
| LooPyMinty.Main | LooPyMinty.py:100-223 | A missing JSON file raises `AssertionError` before anything is recorded; otherwise the trail lists the CIDs in order, each recorded before its mint, with at most one request per entry, and all of them and one request per CID when the run completes |
| LooPyMinty.RunKept | LooPyMinty.py:117-220 | The loop's facts (trail, requests built from their CIDs, approval) hold at whatever point the loop stops |
| LooPyMinty.RunRecordsEveryCid | LooPyMinty.py:117-223 | Every CID is recorded before its mint; a completed run records every CID and submits one request per CID, in order, each with the NFT id of its CID |
| LooPyMinty.RunGate | LooPyMinty.py:142-148 | The fee prompt is shown at most once, never with `--noprompt`, its estimate counts the whole list, and an answer of no submits nothing |
| Transfer.NormalizeKey64 | transfer.py:68-69 | A decimal key becomes `0x` and at least 64 hex digits of the same value; a `0x` key is kept; a non-decimal key raises |
| Transfer.RouteOf | transfer.py:24-36 | `0x` text is looked up by address, `.eth` text is resolved first, decimal text is looked up by id, and anything else raises `ValueError` before any call |
| Transfer.GetAccount | transfer.py:62 | An unroutable account raises `ValueError`; a result is one some attempt returned; three timeouts give `None`, which raises `TypeError` when unpacked |
| Transfer.LoadConfig | transfer.py:49-71 | The configuration loads exactly when the fee token id parses, the sender resolves to a non-zero id and an address, the key is set and usable and the fee token id is 0 to 4 |
| Transfer.ParseArgs | transfer.py:74-107 | `--nft` must be non-empty; a missing or zero `--amount` falls back to `AMOUNT` or 1; the other options are kept |
| Transfer.AllTos | transfer.py:272-277 | The recipients are the stripped lines of `--tofile`, or the single `--to`; an empty option leaves the list unbound |
| Transfer.ValidToMeans | transfer.py:298-316 | The filter's three tests accept exactly a `0x` address that parses in base 16, an ENS name, or a canonical decimal account id |
| Transfer.RecipientRoutes | transfer.py:298-316 | A recipient the filter accepts never makes `get_account_info` raise `ValueError` |
| Transfer.FilterTos | transfer.py:293-326 | The filter loop keeps the recipients in order and records one entry per line, marked skipped exactly when the line is not a recipient |
| Transfer.RecipientsSelect | transfer.py:293-330 | The filtered list holds only lines that pass, misses none of them, and is empty exactly when no line passes |
| Transfer.GetUserApiKey | transfer.py:142-150 | No reply raises; a refused reply exits with "Failed to obtain user api key"; otherwise the key delivered |
| Transfer.FindNft | transfer.py:192-195 | The holding found is the first whose id equals the requested one ignoring case, and there is none exactly when no id matches |
| Transfer.FindNftIgnoresCase | transfer.py:192 | The lookup does not depend on the case of the id asked for |
| Transfer.GetNftInfo | transfer.py:183-195 | No reply raises; a refused balance exits with its message; otherwise the lookup in the delivered balance |
| Transfer.GetTransferParameters | transfer.py:152-181 | The parameters are what the exchange delivered; a refused storage id exits with "Failed to obtain storage id"; a refused token address exits with "Failed to obtain token address"; a refused fee raises `TypeError` at the log line |
| Transfer.SignTransfer | transfer.py:198-225 | Signing succeeds exactly when the exchange address, fee and recipient address parse, and signs the twelve transfer inputs with the current storage id |
| Transfer.RequestMatchesOrder | transfer.py:232-249 | The request sent carries the signed order's fields |
| Transfer.TransferNft | transfer.py:227-256 | Test mode sends nothing; otherwise SUCCESS exactly when the reply has status 200 and a body |
| Transfer.RunKept | transfer.py:359-392 | The loop keeps the storage-id ledger, reports on the recipients in order, sends nothing in test mode, and otherwise sends one request per report, plus at most one for a transfer cut short |
| Transfer.RunStops | transfer.py:359-392 | The transfer loop only ever stops by an exception |
| Transfer.TransferLedger | transfer.py:384-386 | The storage id advances by 2 after each successful transfer and only then; each request carries the id current when it was signed; test mode sends nothing and keeps the id; a completed run reports on every recipient in order |
| Transfer.GatedGate | transfer.py:349-356 | At most one prompt, none with `--noprompt`, its estimate counts the recipients, and an answer of no sends nothing |
| Transfer.AfterFilterGate | transfer.py:332-356 | Past the filter the API key is always asked for, and the gate's facts hold |
| Transfer.Main | transfer.py:258-395 | A missing `--nft` exits with "Failed to initialize the transfers" before anything else; a `--tofile` that cannot be opened raises `FileNotFoundError` before the configuration is read; once the file opens, a configuration error raises it; the API key is asked for only once the configuration loads and some recipient passes the filter |
| Transfer.MainFilterAndGate | transfer.py:258-356 | Once the `--tofile` (if any) has opened, the filter runs over every line; with no recipient the script exits with status 0 before asking for the API key; otherwise the one fee prompt counts the recipients and an answer of no sends nothing |

## Left out

- Network I/O, sessions, timeouts and `asyncio` scheduling: replies, lookup outcomes and the `cid` tool's output are parameters.
- Poseidon hashing, EdDSA signing and base58 decoding are parameters; only what is fed to them is modelled.
- Printing, logging (`log`, `plog`, `pprint`), `VERBOSE`, and the contents of `info` beyond the audit entries.
- File writes (`mint-info.json`, `transfer-info.json`, `cids.json`, templates), `makedirs` and `shutil.rmtree`: the model returns what would be written, and for `--empty` only the guard.
- `json.load` of the CID file and of its `ID` field: the file's entries are a parameter, with the ID as a number or text read by `int()`.
- Fees.EstimateBatchFees: the floating-point amount `count * fee * discount / 10**decimals` is not computed; the estimate records the count and the token symbol.
- Minter.MintGate: states the counts each estimate used, not the floating-point fee shown.
- PyInt.IntOf: non-ASCII digits and whitespace that CPython also accepts (`'٣'`, `'\xa0'`) are left out; ASCII text is read as CPython reads it. The limit of 4300 digits that Python 3.11 and later put on base-10 `int()` is not modelled, so longer decimal text parses here where those versions raise `ValueError`. Lower-casing is ASCII only.
- Prepare.ExtractId: `str.isdigit` also keeps non-ASCII digits, and the model keeps only `0` to `9`. So `art٣.png` gets ID 3 in Python and 0 here, and a name with a digit `int()` cannot read, such as `art².png`, makes `main` raise `ValueError` in Python while the model gives ID 0.
- SignHelpers.MaxInputs: `NFTTransferEddsaSignHelper` is not part of this model, so its limit is unknown and the twelve transfer inputs are taken as hashed whole.
- The types `MintResult`, `TransferResult`, `NftInfo`, `NftData`, `MintResponseData` and `Struct` are not part of this model; they appear as plain datatypes.
- `transfer_nft` passes `cfg.memo`, which nothing assigns; what reading it gives depends on `Struct`, which is not part of this model, so the modelled request carries an empty memo.
- Exit messages that interpolate an exception (`{err}`) are modelled by the fixed prefix.
- `asyncio.gather` reports one failure; which one is not modelled, only that the run raises `RuntimeError`.
- `os.walk` ordering and `os.path.exists` are parameters; `--file dir/` with an empty tail walks the directory, as in the source. `next(os.walk(d))` on a path that exists but is not a directory (`--idir art.png`) raises `StopIteration`; the listing parameter cannot express that, so the model goes on with whatever listing the parameter gives, and an empty one ends in `ValueError` instead.
- Transfer.GetUserApiKey, Transfer.GetNftInfo, Transfer.TransferNft: the service methods `getUserApiKey`, `getUserNftBalance` and `transferNft` are not part of this model. They are assumed to follow the convention of the getters shown in `LoopringMintService.py`: record the status before `raise_for_status`, and raise `UnboundLocalError` when no body was parsed.
- `os.getenv('ROYALTY_PERCENTAGE') or 0` mixes text and the integer 0; the template carries either, as a two-case datatype.
- `LooPyMinty.py` does not read the mint response; the model records it without acting on it.
- `LoopMintPy.py` and `CIDGenerator.py` are not part of this model.

## Findings

| source | as written | input that shows it | evidently intended | confidence | as-written member | corrected member |
|---|---|---|---|---|---|---|
| minter.py:82-90 | `start <= end` is checked before `start` defaults to 1 | `--json cids.json --end 5` | `--end` alone selects IDs 1 to 5 | high, not executed | Minter.ParseArgsAsWrittenEndOnly | Minter.ParseArgsAgree |
| minter.py:87-90 | single-CID mode says it ignores `--start`/`--end` but the loop still filters item 1 by them | `--cid Qm… --start 2` | the CID is minted as item 1 | high, not executed | Minter.CidModeAsWrittenMintsNothing | Minter.CidModeMintsItem |
| prepare.py:56-58 | the `--empty` guard compares the head `.` of `./output` with `output` | `--empty` with `./output` present | the output directory is emptied | high, not executed | Prepare.EmptyGuardAsWrittenNeverHolds | Prepare.EmptyGuardHolds |
| prepare.py:44-48 | `--file name.png` gives the directory `''`, and `os.path.exists('')` is false | `--file art.png` | the file is read from the current directory | high, not executed | Prepare.BareFileAsWrittenFails | Prepare.BareFileReadsCurrentDir |
| cid2hex.py:19-24 | `sys` is never imported, so the handler's `sys.exit` raises `NameError` | no `--cid` | exit with "Failed to initialize the converter: …" | high, not executed | NftId.Cid2HexAsWrittenMissingCid | NftId.Cid2Hex |

=== FILE: exchange.dfy ===
/**
 * The conventions of the exchange client: how a getter turns an HTTP reply into a value and a
 * `last_status`, the success test the scripts apply afterwards, and the shapes of the request
 * and response bodies the model needs. The transport itself is left to the callers' oracles.
 */
module Exchange {
  import opened Wrappers
  import opened Failures
  import opened Records

  /** An exchange call as the handler meets it: `NoBody` when the request or the JSON decoding
      failed before a body was bound; otherwise the HTTP status and the decoded body, `None`
      for a JSON `null`. */
  datatype Reply<T> = NoBody | Reply(status: int, body: Option<T>)

  /** A getter's return value together with the `last_status` it recorded. */
  datatype Received<T> = Received(value: Option<T>, lastStatus: int)

  /** The getter convention: the status is recorded first, then `raise_for_status` turns any
      status of 400 or more into a `None` result. When no body was bound the handler's own
      `pprint(parsed)` raises, so the error escapes instead of becoming `None`. */
  function Receive<T>(r: Reply<T>): (g: Result<Received<T>, PyError>)
    ensures g.Err? <==> r.NoBody?
    ensures g.Err? ==> g.error == UnboundLocalError
    ensures g.Ok? ==> g.value.lastStatus == r.status
    ensures g.Ok? ==> (g.value.value.Some? <==> r.status < 400 && r.body.Some?)
    ensures g.Ok? && g.value.value.Some? ==> g.value.value == r.body
  {
    match r
    case NoBody => Err(UnboundLocalError)
    case Reply(status, body) => Ok(Received(if status < 400 then body else None, status))
  }

  /** The getter handed `v` back. */
  predicate Delivered<T(==)>(r: Reply<T>, v: T) {
    r.Reply? && r.status < 400 && r.body == Some(v)
  }

  /** The getter handed `None` back: a refused status or a JSON `null`. */
  predicate Rejected<T>(r: Reply<T>) {
    r.Reply? && (r.status >= 400 || r.body.None?)
  }

  /** The three ways a getter call ends. */
  lemma ReceiveCases<T>(r: Reply<T>)
    ensures (Receive(r).Ok? && Receive(r).value.value.Some?) <==> r.Reply? && r.body.Some? && Delivered(r, r.body.value)
    ensures (Receive(r).Ok? && Receive(r).value.value.None?) <==> Rejected(r)
  {
  }

  /** The scripts' success test after a submission: a value came back and the status was 200. */
  predicate Accepted<T>(g: Received<T>) {
    g.value.Some? && g.lastStatus == 200
  }

  /** The reply behind an accepted submission: status 200 and a body. */
  predicate AcceptedReply<T>(r: Reply<T>) {
    r.Reply? && r.status == 200 && r.body.Some?
  }

  /** A submission counts as accepted exactly when the reply had status 200 and a body. */
  lemma AcceptedIff<T>(r: Reply<T>)
    requires r.Reply?
    ensures Accepted(Receive(r).value) <==> AcceptedReply(r)
  {
  }

  /** A rejected status still reaches the caller through `last_status`. */
  lemma RejectedKeepsStatus<T>(r: Reply<T>)
    requires r.Reply? && r.status >= 400
    ensures Receive(r) == Ok(Received(None, r.status))
  {
  }

  /** `maxFee` is sent as a nested object. */
  datatype MaxFee = MaxFee(tokenId: int, amount: string)

  /** The body `mintNft` posts, field for field. */
  datatype MintRequest = MintRequest(
    exchange: string,
    minterId: int,
    minterAddress: string,
    toAccountId: int,
    toAddress: string,
    nftType: int,
    tokenAddress: string,
    nftId: string,
    amount: string,
    validUntil: int,
    royaltyPercentage: int,
    storageId: int,
    maxFee: MaxFee,
    forceToMint: bool,
    counterFactualNftInfo: CounterFactualNftInfo,
    eddsaSignature: string)

  /** The part of a submission response the scripts read. */
  datatype TxResponse = TxResponse(hash: Option<string>)

  /** One entry of a user's NFT balance. */
  datatype NftHolding = NftHolding(nftId: string, tokenId: int)

  /** Whether the NFT-data lookup found the NFT: status 200, a body, and a non-empty one. */
  predicate Found<T>(g: Received<seq<T>>) {
    g.lastStatus == 200 && g.value.Some? && |g.value.value| > 0
  }
}

=== FILE: failures.dfy ===
/** The ways a script run ends before its work is done. */
module Failures {
  import opened Wrappers

  /** The Python exceptions the scripts let escape, by class. */
  datatype PyError =
    | ValueError        // `int()` of bad text, `base58` of bad text, `max()` of an empty list
    | TypeError         // indexing or unpacking `None`, comparing `None` with an int
    | KeyError          // a missing dictionary key
    | IndexError        // a list index out of range
    | AssertionError    // a failed `assert`
    | UnboundLocalError // the service's error handler printing a response it never parsed
    | RuntimeError      // the `cid` tool exiting with an error
    | EOFError          // `input()` at the end of standard input
    | NameError         // a name the script never imported
    | FileNotFoundError // `open()` of a file that is not there

  /** `sys.exit(message)`, `sys.exit(0)`, or an exception reaching the top level. */
  datatype Stop = Exited(message: string) | ExitedCleanly | Crashed(error: PyError)

  /** An exception raised inside a step ends the run as a crash. */
  function Crash<T>(r: Result<T, PyError>): (s: Result<T, Stop>)
    ensures s.Ok? <==> r.Ok?
    ensures s.Ok? ==> s.value == r.value
    ensures s.Err? ==> s.error == Crashed(r.error)
  {
    match r
    case Ok(v) => Ok(v)
    case Err(e) => Err(Crashed(e))
  }
}

=== FILE: fees.dfy ===
/**
 * The fee-approval gate the three batch scripts share: before the first item is signed, the
 * batch fee is estimated from the quote and the user is asked once, with default "no".
 */
module Fees {
  import opened Wrappers
  import opened Failures
  import opened PyText
  import opened PyInt
  import opened Records
  import opened Prompt

  /** What the estimate is computed from: the item count and the fee token's symbol. */
  datatype Estimate = Estimate(count: nat, symbol: string)

  /** The checks `estimate_batch_fees` performs on its way: the quoted fee must be decimal
      integer text and the token symbol must be in the table. The floating-point product
      itself is not modelled. */
  function EstimateBatchFees(quote: Fee, count: nat): (r: Result<Estimate, PyError>)
    ensures r.Ok? <==> ParseInt(quote.fee, Base10).Some? && quote.token in TokenDecimals
    ensures r.Ok? ==> r.value == Estimate(count, quote.token)
    ensures ParseInt(quote.fee, Base10).None? ==> r == Err(ValueError)
    ensures ParseInt(quote.fee, Base10).Some? && quote.token !in TokenDecimals ==> r == Err(KeyError)
  {
    if ParseInt(quote.fee, Base10).None? then Err(ValueError)
    else if quote.token !in TokenDecimals then Err(KeyError)
    else Ok(Estimate(count, quote.token))
  }

  const AbortedByUser := "Aborted by user"

  /** How the gate went: whether the user was asked, the count the estimate used, and the
      stop it caused, if any. */
  datatype GateOutcome = GateOutcome(prompted: bool, estimated: Option<nat>, halt: Option<Stop>)

  /** `if not approved: estimate, prompt_yes_no(..., default="no"), exit on "no"`. */
  function FeeGate(approved: bool, quote: Fee, count: nat, stdin: seq<string>): (g: GateOutcome)
    ensures approved ==> g == GateOutcome(false, None, None)
    ensures g.prompted ==> !approved && g.estimated == Some(count)
    ensures g.estimated.Some? ==> g.prompted
    ensures var a := PromptYesNo(Some("no"), stdin);
      g.halt.None? && !approved ==> g.prompted && a.Answered? && a.yes
    ensures var a := PromptYesNo(Some("no"), stdin);
      g.halt == Some(Exited(AbortedByUser)) <==> !approved && EstimateBatchFees(quote, count).Ok? && a.Answered? && !a.yes
  {
    if approved then GateOutcome(false, None, None)
    else match EstimateBatchFees(quote, count)
      case Err(e) => GateOutcome(false, None, Some(Crashed(e)))
      case Ok(_) =>
        match PromptYesNo(Some("no"), stdin)
        case Answered(yes, _) => GateOutcome(true, Some(count), if yes then None else Some(Exited(AbortedByUser)))
        case EndOfInput => GateOutcome(true, Some(count), Some(Crashed(EOFError)))
        case InvalidDefault => GateOutcome(true, Some(count), Some(Crashed(ValueError)))
  }
}

=== FILE: loopyminty.dfy ===
/**
 * `LooPyMinty.py`, the first minting script. It shares `setup`, the fee gate, the NFT id
 * derivation, the two hashes and the request body with `minter.py`, but it records every
 * CID, has no ID range and no existence check, and does not test the exchange's answers
 * before using them: a missing token address or fee raises `TypeError` where it is first
 * indexed, and a missing storage id only when the order inputs are built.
 */
module LooPyMinty {
  import opened Wrappers
  import opened Failures
  import opened Records
  import opened Exchange
  import opened SignHelpers
  import opened NftId
  import opened Fees
  import opened Minter

  /** `--cid` and `--json` are a required, mutually exclusive group, so exactly one is given. */
  datatype Source = CidArg(cid: string) | JsonArg(path: string)

  /** The options: the source, `--count` and `--noprompt`. */
  datatype Args = Args(source: Source, count: int, noprompt: bool)

  /** `parse_args`: a JSON file that does not exist fails the assertion. */
  function ParseArgs(a: Args, pathExists: string -> bool): (r: Result<Args, PyError>)
    ensures r.Ok? <==> a.source.CidArg? || pathExists(a.source.path)
    ensures r.Ok? ==> r.value == a
    ensures r.Err? ==> r.error == AssertionError
  {
    if a.source.JsonArg? && !pathExists(a.source.path) then Err(AssertionError) else Ok(a)
  }

  /** The list the loop walks: the JSON file's list of CIDs, or the single `--cid`. */
  function Cids(a: Args, file: seq<string>): seq<string> {
    match a.source
    case CidArg(c) => [c]
    case JsonArg(_) => file
  }

  /** What the three exchange calls gave back; the storage id may be missing. */
  datatype Fetched = Fetched(storage: Option<StorageId>, info: CounterFactualNftInfo, token: CounterFactualNft, fee: OffchainFee, quote: Fee)

  /** The three calls inside the first `async with`. The storage id is not checked; a missing
      token address is indexed for the fee call and a missing fee by the log line, so both
      raise `TypeError`. */
  function FetchParameters(ex: MintExchange, pos: nat, cfg: MintConfig): (r: Result<Fetched, PyError>)
    ensures var info := CounterFactualNftInfo(cfg.minterAddress, NftFactory, "");
      r.Ok? <==> && ex.storageId(pos, cfg.accountId, cfg.maxFeeTokenId).Reply?
                 && (exists t :: Delivered(ex.tokenAddress(pos, info), t)
                       && (exists f :: Delivered(ex.offchainFee(pos, cfg.accountId, MintRequestType, t.tokenAddress), f)
                                       && FeeQuote(f, cfg.maxFeeTokenId).Ok?))
    ensures r.Ok? ==> r.value.info == CounterFactualNftInfo(cfg.minterAddress, NftFactory, "")
    ensures r.Ok? ==> (r.value.storage.None? <==> Rejected(ex.storageId(pos, cfg.accountId, cfg.maxFeeTokenId)))
    ensures r.Ok? && r.value.storage.Some? ==> Delivered(ex.storageId(pos, cfg.accountId, cfg.maxFeeTokenId), r.value.storage.value)
    ensures r.Ok? ==> Delivered(ex.tokenAddress(pos, r.value.info), r.value.token)
    ensures r.Ok? ==> Delivered(ex.offchainFee(pos, cfg.accountId, MintRequestType, r.value.token.tokenAddress), r.value.fee)
    ensures r.Ok? ==> FeeQuote(r.value.fee, cfg.maxFeeTokenId) == Ok(r.value.quote)
    ensures ex.storageId(pos, cfg.accountId, cfg.maxFeeTokenId).Reply?
            && Rejected(ex.tokenAddress(pos, CounterFactualNftInfo(cfg.minterAddress, NftFactory, "")))
            ==> r == Err(TypeError)
    ensures forall t | ex.storageId(pos, cfg.accountId, cfg.maxFeeTokenId).Reply?
                       && Delivered(ex.tokenAddress(pos, CounterFactualNftInfo(cfg.minterAddress, NftFactory, "")), t)
                       && Rejected(ex.offchainFee(pos, cfg.accountId, MintRequestType, t.tokenAddress))
      :: r == Err(TypeError)
  {
    var storage :- Receive(ex.storageId(pos, cfg.accountId, cfg.maxFeeTokenId));
    var info := CounterFactualNftInfo(cfg.minterAddress, NftFactory, "");
    var token :- Receive(ex.tokenAddress(pos, info));
    if token.value.None? then Err(TypeError)
    else
      var fee :- Receive(ex.offchainFee(pos, cfg.accountId, MintRequestType, token.value.value.tokenAddress));
      if fee.value.None? then Err(TypeError)
      else
        var quote :- FeeQuote(fee.value.value, cfg.maxFeeTokenId);
        Ok(Fetched(storage.value, info, token.value.value, fee.value.value, quote))
  }

  /** A stand-in storage id for the steps that run before the real one is read. */
  const NoStorage := StorageId(0, 0)

  /** The parameters signing sees, with the stand-in when the storage id is missing. */
  function ParamsOf(f: Fetched): OffchainParams {
    OffchainParams(if f.storage.Some? then f.storage.value else NoStorage, f.info, f.token, f.fee, f.quote)
  }

  /** Lines 150-196. The same steps as `get_hashes_and_sign`; every value they parse comes
      before `storage_id['offchainId']` in the order inputs, so a parse failure is reported
      first and a missing storage id then raises `TypeError`. */
  function SignItem(c: Crypto, cfg: MintConfig, f: Fetched): (r: Result<Signed, PyError>)
    ensures r.Ok? <==> f.storage.Some? && GetHashesAndSign(c, cfg, ParamsOf(f)).Ok?
    ensures r.Ok? ==> r.value == GetHashesAndSign(c, cfg, ParamsOf(f)).value
    ensures r.Ok? ==> r.value.order.storageId == f.storage.value.offchainId
    ensures r.Ok? ==> r.value.nftId == DeriveNftId(c.base58, cfg.cid).value
    ensures r.Err? ==> (r.error == TypeError <==> f.storage.None? && GetHashesAndSign(c, cfg, ParamsOf(f)).Ok?)
  {
    var s :- GetHashesAndSign(c, cfg, ParamsOf(f));
    if f.storage.None? then Err(TypeError) else Ok(s)
  }

  /** An entry of `mint-info.json` as first recorded. */
  datatype Entry = Entry(cid: string, count: int)

  /** Everything a run depends on. */
  datatype LoopContext = LoopContext(args: Args, env: MintEnv, cids: seq<string>, ex: MintExchange, crypto: Crypto, stdin: seq<string>)

  /** The loop's state: the audit trail, the requests submitted and the responses, the
      approval flag, the prompts shown with the counts their estimates used, and the stop. */
  datatype LoopRun = LoopRun(
    trail: seq<Entry>, requests: seq<MintRequest>, responses: seq<Option<TxResponse>>,
    approved: bool, prompts: nat, estimates: seq<nat>, stop: Option<Stop>)

  function Begin(noprompt: bool): LoopRun {
    LoopRun([], [], [], noprompt, 0, [], None)
  }

  /** One iteration after its entry is recorded: `setup`, then the rest. */
  function ProcessCid(ctx: LoopContext, pos: nat, cid: string, st: LoopRun): LoopRun {
    match Setup(ctx.env, ctx.args.count, cid)
    case Err(e) => st.(stop := Some(Crashed(e)))
    case Ok(cfg) =>
      match FetchParameters(ctx.ex, pos, cfg)
      case Err(e) => st.(stop := Some(Crashed(e)))
      case Ok(f) => Gate(ctx, pos, cfg, f, st)
  }

  /** The fee gate, then the rest. */
  function Gate(ctx: LoopContext, pos: nat, cfg: MintConfig, f: Fetched, st: LoopRun): LoopRun {
    var g := FeeGate(st.approved, f.quote, |ctx.cids|, ctx.stdin);
    var st := st.(
      approved := st.approved || (g.prompted && g.halt.None?),
      prompts := st.prompts + (if g.prompted then 1 else 0),
      estimates := st.estimates + (if g.estimated.Some? then [g.estimated.value] else []));
    if g.halt.Some? then st.(stop := g.halt) else Submit(ctx, pos, cfg, f, st)
  }

  /** Signing and `mintNft`; the response is recorded whatever it is. */
  function Submit(ctx: LoopContext, pos: nat, cfg: MintConfig, f: Fetched, st: LoopRun): LoopRun {
    match SignItem(ctx.crypto, cfg, f)
    case Err(e) => st.(stop := Some(Crashed(e)))
    case Ok(s) =>
      var q := MintRequestOf(cfg, ParamsOf(f), s);
      match Receive(ctx.ex.mint(pos, q))
      case Err(e) => st.(stop := Some(Crashed(e)))
      case Ok(m) => st.(requests := st.requests + [q], responses := st.responses + [m.value])
  }

  /** One iteration of `for current_cid in cids`: the entry is recorded before anything else. */
  function Step(ctx: LoopContext, pos: nat, st: LoopRun): LoopRun
    requires pos < |ctx.cids|
  {
    ProcessCid(ctx, pos, ctx.cids[pos], st).(trail := st.trail + [Entry(ctx.cids[pos], ctx.args.count)])
  }

  function RunFrom(ctx: LoopContext, pos: nat, st: LoopRun): LoopRun
    requires pos <= |ctx.cids|
    decreases |ctx.cids| - pos
  {
    if pos == |ctx.cids| || st.stop.Some? then st
    else RunFrom(ctx, pos + 1, Step(ctx, pos, st))
  }

  /** `main`: a failed `parse_args` is not caught, and otherwise every CID of the list is
      recorded before its mint, one request per CID, in order. */
  function Main(a: Args, pathExists: string -> bool, file: seq<string>, env: MintEnv, ex: MintExchange, crypto: Crypto, stdin: seq<string>): (r: LoopRun)
    ensures a.source.JsonArg? && !pathExists(a.source.path) ==>
      r.stop == Some(Crashed(AssertionError)) && r.trail == [] && r.requests == []
    ensures a.source.CidArg? || pathExists(a.source.path) ==>
      var cids := Cids(a, file);
      && |r.trail| <= |cids| && r.trail == Entries(cids[..|r.trail|], a.count)
      && |r.requests| <= |r.trail|
      && (r.stop.None? ==> r.trail == Entries(cids, a.count) && |r.requests| == |cids|)
  {
    match ParseArgs(a, pathExists)
    case Err(e) => LoopRun([], [], [], a.noprompt, 0, [], Some(Crashed(e)))
    case Ok(a) =>
      var ctx := LoopContext(a, env, Cids(a, file), ex, crypto, stdin);
      RunRecordsEveryCid(ctx);
      RunFrom(ctx, 0, Begin(a.noprompt))
  }

  // ---------------------------------------------------------------------------------------
  // What a run promises.

  /** The entries of the whole list. */
  function Entries(cids: seq<string>, count: int): (e: seq<Entry>)
    ensures |e| == |cids|
    ensures forall i :: 0 <= i < |e| ==> e[i] == Entry(cids[i], count)
  {
    seq(|cids|, i requires 0 <= i < |cids| => Entry(cids[i], count))
  }

  /** The request for position `i` was built from the i-th CID: its NFT id is derived from
      that CID. */
  predicate BuiltFrom(ctx: LoopContext, i: nat, q: MintRequest)
    requires i < |ctx.cids|
  {
    DeriveNftId(ctx.crypto.base58, ctx.cids[i]).Ok? && q.nftId == DeriveNftId(ctx.crypto.base58, ctx.cids[i]).value
  }

  /** The facts that hold after every iteration, `pos` being the number of iterations begun. */
  predicate Kept(ctx: LoopContext, pos: nat, st: LoopRun)
    requires pos <= |ctx.cids|
  {
    && st.trail == Entries(ctx.cids[..pos], ctx.args.count)
    && |st.requests| == |st.responses|
    && |st.requests| <= pos
    && (st.stop.None? ==> |st.requests| == pos)
    && (forall i :: 0 <= i < |st.requests| ==> BuiltFrom(ctx, i, st.requests[i]))
    && st.prompts <= 1
    && st.estimates == (if st.prompts == 0 then [] else [|ctx.cids|])
    && (ctx.args.noprompt ==> st.approved && st.prompts == 0)
    && (st.stop.None? && !st.approved ==> st.prompts == 0)
    && (!st.approved ==> st.requests == [])
    && (st.stop == Some(Exited(AbortedByUser)) ==> !st.approved)
  }

  /** The parts of `Kept` that a stopped iteration must keep; the trail is handled by `Step`. */
  predicate KeptAfter(ctx: LoopContext, pos: nat, st: LoopRun)
    requires pos < |ctx.cids|
  {
    && |st.requests| == |st.responses|
    && |st.requests| <= pos + 1
    && (st.stop.None? ==> |st.requests| == pos + 1)
    && (forall i :: 0 <= i < |st.requests| ==> BuiltFrom(ctx, i, st.requests[i]))
    && st.prompts <= 1
    && st.estimates == (if st.prompts == 0 then [] else [|ctx.cids|])
    && (ctx.args.noprompt ==> st.approved && st.prompts == 0)
    && (st.stop.None? && !st.approved ==> st.prompts == 0)
    && (!st.approved ==> st.requests == [])
    && (st.stop == Some(Exited(AbortedByUser)) ==> !st.approved)
  }

  lemma RecordKept(ctx: LoopContext, pos: nat, st: LoopRun, q: MintRequest, response: Option<TxResponse>)
    requires pos < |ctx.cids|
    requires Kept(ctx, pos, st) && st.stop.None? && st.approved
    requires BuiltFrom(ctx, pos, q)
    ensures KeptAfter(ctx, pos, st.(requests := st.requests + [q], responses := st.responses + [response]))
  {
    var r := st.(requests := st.requests + [q], responses := st.responses + [response]);
    forall i | 0 <= i < |r.requests|
      ensures BuiltFrom(ctx, i, r.requests[i])
    {
      if i < |st.requests| {
        assert r.requests[i] == st.requests[i];
      }
    }
  }

  lemma SubmitKept(ctx: LoopContext, pos: nat, cfg: MintConfig, f: Fetched, st: LoopRun)
    requires pos < |ctx.cids| && cfg.cid == ctx.cids[pos]
    requires Kept(ctx, pos, st) && st.stop.None? && st.approved
    ensures KeptAfter(ctx, pos, Submit(ctx, pos, cfg, f, st))
  {
    var signed := SignItem(ctx.crypto, cfg, f);
    if signed.Ok? {
      var q := MintRequestOf(cfg, ParamsOf(f), signed.value);
      assert q.nftId == signed.value.nftId;
      var m := Receive(ctx.ex.mint(pos, q));
      if m.Ok? {
        RecordKept(ctx, pos, st, q, m.value.value);
      }
    }
  }

  /** The loop state once the fee gate has been passed or has stopped the run. */
  function AfterGate(ctx: LoopContext, g: GateOutcome, st: LoopRun): LoopRun {
    st.(
      approved := st.approved || (g.prompted && g.halt.None?),
      prompts := st.prompts + (if g.prompted then 1 else 0),
      estimates := st.estimates + (if g.estimated.Some? then [g.estimated.value] else []))
  }

  lemma AfterGateKept(ctx: LoopContext, pos: nat, f: Fetched, st: LoopRun)
    requires pos < |ctx.cids|
    requires Kept(ctx, pos, st) && st.stop.None?
    ensures var g := FeeGate(st.approved, f.quote, |ctx.cids|, ctx.stdin);
      && (g.halt.None? ==> Kept(ctx, pos, AfterGate(ctx, g, st)) && AfterGate(ctx, g, st).approved)
      && (g.halt.Some? ==> KeptAfter(ctx, pos, AfterGate(ctx, g, st).(stop := g.halt)))
  {
  }

  lemma GateKept(ctx: LoopContext, pos: nat, cfg: MintConfig, f: Fetched, st: LoopRun)
    requires pos < |ctx.cids| && cfg.cid == ctx.cids[pos]
    requires Kept(ctx, pos, st) && st.stop.None?
    ensures KeptAfter(ctx, pos, Gate(ctx, pos, cfg, f, st))
  {
    var g := FeeGate(st.approved, f.quote, |ctx.cids|, ctx.stdin);
    AfterGateKept(ctx, pos, f, st);
    assert Gate(ctx, pos, cfg, f, st) == if g.halt.Some? then AfterGate(ctx, g, st).(stop := g.halt) else Submit(ctx, pos, cfg, f, AfterGate(ctx, g, st));
    if g.halt.None? {
      SubmitKept(ctx, pos, cfg, f, AfterGate(ctx, g, st));
    }
  }

  lemma ProcessCidKept(ctx: LoopContext, pos: nat, st: LoopRun)
    requires pos < |ctx.cids|
    requires Kept(ctx, pos, st) && st.stop.None?
    ensures KeptAfter(ctx, pos, ProcessCid(ctx, pos, ctx.cids[pos], st))
  {
    var setup := Setup(ctx.env, ctx.args.count, ctx.cids[pos]);
    if setup.Ok? {
      var fetched := FetchParameters(ctx.ex, pos, setup.value);
      if fetched.Ok? {
        GateKept(ctx, pos, setup.value, fetched.value, st);
      }
    }
  }

  lemma EntriesAppend(cids: seq<string>, pos: nat, count: int)
    requires pos < |cids|
    ensures Entries(cids[..pos + 1], count) == Entries(cids[..pos], count) + [Entry(cids[pos], count)]
  {
    var a, b := Entries(cids[..pos + 1], count), Entries(cids[..pos], count) + [Entry(cids[pos], count)];
    assert |a| == |b|;
    forall i | 0 <= i < |a|
      ensures a[i] == b[i]
    {
    }
  }

  lemma StepKept(ctx: LoopContext, pos: nat, st: LoopRun)
    requires pos < |ctx.cids|
    requires Kept(ctx, pos, st) && st.stop.None?
    ensures Kept(ctx, pos + 1, Step(ctx, pos, st))
  {
    ProcessCidKept(ctx, pos, st);
    EntriesAppend(ctx.cids, pos, ctx.args.count);
  }

  lemma {:induction false} RunKept(ctx: LoopContext, pos: nat, st: LoopRun)
    requires pos <= |ctx.cids|
    requires Kept(ctx, pos, st)
    ensures exists k :: pos <= k <= |ctx.cids| && Kept(ctx, k, RunFrom(ctx, pos, st))
    ensures RunFrom(ctx, pos, st).stop.None? ==> Kept(ctx, |ctx.cids|, RunFrom(ctx, pos, st))
    decreases |ctx.cids| - pos
  {
    if pos < |ctx.cids| && st.stop.None? {
      var next := Step(ctx, pos, st);
      StepKept(ctx, pos, st);
      RunKept(ctx, pos + 1, next);
      assert RunFrom(ctx, pos, st) == RunFrom(ctx, pos + 1, next);
    } else {
      assert RunFrom(ctx, pos, st) == st;
    }
  }

  /** Every CID is recorded in `mint-info.json` before its mint is attempted, so the trail is
      always a prefix of the whole list; a run that completes submitted one request per CID,
      in list order, each carrying the NFT id derived from its CID, whether or not the NFT
      already exists. */
  lemma RunRecordsEveryCid(ctx: LoopContext)
    ensures var r := RunFrom(ctx, 0, Begin(ctx.args.noprompt));
      && |r.trail| <= |ctx.cids|
      && r.trail == Entries(ctx.cids[..|r.trail|], ctx.args.count)
      && |r.requests| <= |r.trail|
      && (r.stop.None? ==> r.trail == Entries(ctx.cids, ctx.args.count) && |r.requests| == |ctx.cids|)
      && (forall i :: 0 <= i < |r.requests| ==> i < |ctx.cids| && BuiltFrom(ctx, i, r.requests[i]))
  {
    var r := RunFrom(ctx, 0, Begin(ctx.args.noprompt));
    assert ctx.cids[..0] == [];
    RunKept(ctx, 0, Begin(ctx.args.noprompt));
    var k :| 0 <= k <= |ctx.cids| && Kept(ctx, k, r);
    assert |r.trail| == k;
    assert ctx.cids[..|ctx.cids|] == ctx.cids;
  }

  /** The fee prompt is shown at most once, never with `--noprompt`, its estimate counts the
      whole list, and an answer of no ends the run before any request is submitted. */
  lemma RunGate(ctx: LoopContext)
    ensures var r := RunFrom(ctx, 0, Begin(ctx.args.noprompt));
      && r.prompts <= 1
      && (ctx.args.noprompt ==> r.prompts == 0)
      && (forall i :: 0 <= i < |r.estimates| ==> r.estimates[i] == |ctx.cids|)
      && (r.stop == Some(Exited(AbortedByUser)) ==> r.requests == [])
  {
    var r := RunFrom(ctx, 0, Begin(ctx.args.noprompt));
    assert ctx.cids[..0] == [];
    RunKept(ctx, 0, Begin(ctx.args.noprompt));
    var k :| 0 <= k <= |ctx.cids| && Kept(ctx, k, r);
  }
}

=== FILE: minter.dfy ===
/**
 * The batch minter: command-line checks, the per-CID configuration, the ID-range filter, the
 * NFT id and the two signed input lists, the existence check before submitting, and the main
 * loop with its single fee prompt. The exchange, the hash and signature primitives and base58
 * decoding are parameters.
 */
module Minter {
  import opened Wrappers
  import opened Failures
  import opened PyText
  import opened PyInt
  import opened Records
  import opened Exchange
  import opened SignHelpers
  import opened NftId
  import opened Payloads
  import opened Prompt
  import opened Fees

  // ---------------------------------------------------------------------------------------
  // Configuration.

  /** The environment variables `setup` reads; `None` for one that is not set. */
  datatype MintEnv = MintEnv(
    apiKey: Option<string>, privateKey: Option<string>, minter: Option<string>,
    accountId: Option<string>, nftType: Option<string>, royalty: Option<string>, feeTokenId: Option<string>)

  datatype MintConfig = MintConfig(
    apiKey: string, privateKey: string, cid: string, minterAddress: string,
    accountId: int, nftType: int, royaltyPercentage: int, amount: int, maxFeeTokenId: int, exchange: string)

  /** A decimal private key is rewritten as `hex(int(key))`; a `0x` key is kept. */
  function NormalizeKey(key: string): (r: Result<string, PyError>)
    ensures StartsWith(key, "0x") ==> r == Ok(key)
    ensures !StartsWith(key, "0x") ==> (r.Ok? <==> ParseInt(key, Base10).Some?)
    ensures !StartsWith(key, "0x") && r.Ok? ==> ParseInt(r.value, Base16) == ParseInt(key, Base10)
    ensures !StartsWith(key, "0x") && r.Ok? && ParseInt(key, Base10).value >= 0 ==> StartsWith(r.value, "0x")
  {
    TakeIsPrefix(key, "0x");
    if Take(key, 2) != "0x" then
      match ParseInt(key, Base10)
      case None => Err(ValueError)
      case Some(v) =>
        ParsePyHex(v);
        assert v >= 0 ==> PyHex(v)[..2] == "0x";
        Ok(PyHex(v))
    else Ok(key)
  }

  predicate IntsParse(env: MintEnv) {
    && env.accountId.Some? && ParseInt(env.accountId.value, Base10).Some?
    && env.nftType.Some? && ParseInt(env.nftType.value, Base10).Some?
    && env.royalty.Some? && ParseInt(env.royalty.value, Base10).Some?
    && env.feeTokenId.Some? && ParseInt(env.feeTokenId.value, Base10).Some?
  }

  /** Everything `setup` demands: the four numbers read, the three strings present, an NFT
      type of 0 or 1, a royalty from 0 to 10, a CID starting with `Qm`, and a private key that
      is either `0x` text or a decimal number. */
  predicate SetupAccepts(env: MintEnv, cid: string) {
    && IntsParse(env)
    && env.privateKey.Some? && env.apiKey.Some? && env.minter.Some?
    && (ParseInt(env.nftType.value, Base10).value == 0 || ParseInt(env.nftType.value, Base10).value == 1)
    && 0 <= ParseInt(env.royalty.value, Base10).value <= 10
    && StartsWith(cid, "Qm")
    && (StartsWith(env.privateKey.value, "0x") || ParseInt(env.privateKey.value, Base10).Some?)
  }

  /** `setup(amount, cid)`: the numbers are read first, so a bad number raises before any
      assertion is checked; the `is not None` assertions on numbers can never fail. */
  function Setup(env: MintEnv, amount: int, cid: string): (r: Result<MintConfig, PyError>)
    ensures r.Ok? <==> SetupAccepts(env, cid)
    ensures !IntsParse(env) ==> r.Err? && r.error != AssertionError
    ensures r.Ok? ==> && r.value.cid == cid && r.value.amount == amount
                      && r.value.apiKey == env.apiKey.value && r.value.minterAddress == env.minter.value
                      && Some(r.value.accountId) == ParseInt(env.accountId.value, Base10)
                      && Some(r.value.nftType) == ParseInt(env.nftType.value, Base10)
                      && Some(r.value.royaltyPercentage) == ParseInt(env.royalty.value, Base10)
                      && Some(r.value.maxFeeTokenId) == ParseInt(env.feeTokenId.value, Base10)
                      && r.value.exchange == ExchangeAddress
    ensures r.Ok? ==> Ok(r.value.privateKey) == NormalizeKey(env.privateKey.value)
  {
    TakeIsPrefix(cid, "Qm");
    var accountId :- EnvInt(env.accountId);
    var nftType :- EnvInt(env.nftType);
    var royalty :- EnvInt(env.royalty);
    var feeTokenId :- EnvInt(env.feeTokenId);
    if env.privateKey.None? || env.apiKey.None? || env.minter.None? then Err(AssertionError)
    else if !(nftType == 0 || nftType == 1) then Err(AssertionError)
    else if !(0 <= royalty < 11) then Err(AssertionError)
    else if Take(cid, 2) != "Qm" then Err(AssertionError)
    else
      var key :- NormalizeKey(env.privateKey.value);
      Ok(MintConfig(env.apiKey.value, key, cid, env.minter.value, accountId, nftType, royalty, amount, feeTokenId, ExchangeAddress))
  }

  // ---------------------------------------------------------------------------------------
  // Command line.

  /** The options as given: `--amount`, `--noprompt`, `--cid`, `--json`, `--start`, `--end`. */
  datatype MintArgs = MintArgs(amount: int, noprompt: bool, cid: Option<string>, json: Option<string>, start: Option<int>, end: Option<int>)

  /** The options after `parse_args`, with `start` filled in. */
  datatype Selection = Selection(amount: int, noprompt: bool, cid: Option<string>, json: Option<string>, start: int, end: Option<int>)

  /** `parse_args` as written: the `start <= end` check runs before `start` gets its default,
      so `--end` without `--start` compares `None` with an int. */
  function ParseArgsAsWritten(a: MintArgs, pathExists: string -> bool): (r: Result<Selection, PyError>)
    ensures r.Ok? <==> && (a.json.None? || pathExists(a.json.value))
                       && (a.end.None? || (a.start.Some? && a.start.value <= a.end.value))
                       && (a.cid.Some? || a.json.Some?)
    ensures (a.json.None? || pathExists(a.json.value)) && a.end.Some? && a.start.None? ==> r == Err(TypeError)
    ensures r.Err? ==> r.error == TypeError || r.error == AssertionError
    ensures r.Ok? ==> r.value.start == StartOf(a) && r.value.end == a.end
    ensures r.Ok? ==> r.value.amount == a.amount && r.value.noprompt == a.noprompt && r.value.cid == a.cid && r.value.json == a.json
  {
    if a.json.Some? && !pathExists(a.json.value) then Err(AssertionError)
    else if a.end.Some? && a.start.None? then Err(TypeError)
    else if a.end.Some? && a.start.value > a.end.value then Err(AssertionError)
    else if a.cid.None? && a.json.None? then Err(AssertionError)
    else Ok(Selection(a.amount, a.noprompt, a.cid, a.json, if a.start.None? then 1 else a.start.value, a.end))
  }

  /** `--end 5` alone is refused by the as-written check. */
  lemma ParseArgsAsWrittenEndOnly(pathExists: string -> bool)
    requires pathExists("cids.json")
    ensures ParseArgsAsWritten(MintArgs(1, false, None, Some("cids.json"), None, Some(5)), pathExists) == Err(TypeError)
  {
  }

  /** The start actually used: `--start`, or 1. */
  function StartOf(a: MintArgs): int {
    if a.start.None? then 1 else a.start.value
  }

  /** `parse_args` with the default applied before the check, and with the range dropped
      when a single `--cid` is the source, as the message it prints announces. */
  function ParseArgs(a: MintArgs, pathExists: string -> bool): (r: Result<Selection, PyError>)
    ensures r.Ok? <==> && (a.json.None? || pathExists(a.json.value))
                       && (a.end.None? || StartOf(a) <= a.end.value)
                       && (a.cid.Some? || a.json.Some?)
    ensures r.Ok? && a.json.Some? ==> r.value.start == StartOf(a) && r.value.end == a.end
    ensures r.Ok? && a.json.None? ==> r.value.start == 1 && r.value.end.None?
    ensures r.Ok? ==> r.value.amount == a.amount && r.value.noprompt == a.noprompt && r.value.cid == a.cid && r.value.json == a.json
  {
    var start := StartOf(a);
    if a.json.Some? && !pathExists(a.json.value) then Err(AssertionError)
    else if a.end.Some? && start > a.end.value then Err(AssertionError)
    else if a.cid.None? && a.json.None? then Err(AssertionError)
    else if a.json.None? then Ok(Selection(a.amount, a.noprompt, a.cid, a.json, 1, None))
    else Ok(Selection(a.amount, a.noprompt, a.cid, a.json, start, a.end))
  }

  /** Where the two versions both accept, they agree on the batch source, and with a JSON
      source on the whole selection. */
  lemma ParseArgsAgree(a: MintArgs, pathExists: string -> bool)
    requires ParseArgsAsWritten(a, pathExists).Ok?
    ensures ParseArgs(a, pathExists).Ok?
    ensures a.json.Some? ==> ParseArgs(a, pathExists) == ParseArgsAsWritten(a, pathExists)
  {
  }

  /** The item is minted: `not (id < start or (end is not None and id > end))`. */
  predicate InRange(id: int, sel: Selection) {
    !(id < sel.start || (sel.end.Some? && id > sel.end.value))
  }

  // ---------------------------------------------------------------------------------------
  // One item's exchange calls, signing and submission.

  /** An item's `ID` as the JSON file holds it: a number or text, read with `int()`. */
  datatype JsonId = Number(n: int) | Text(s: string)

  /** One entry of the CID list. */
  datatype Item = Item(id: JsonId, cid: string)

  function ItemId(j: JsonId): Result<int, PyError> {
    match j
    case Number(n) => Ok(n)
    case Text(s) => IntOf(s, Base10)
  }

  /** The list the loop walks: the JSON file's entries, or the single `--cid` as item 1. */
  function Items(sel: Selection, file: seq<Item>): seq<Item> {
    if sel.json.Some? then file
    else if sel.cid.Some? then [Item(Number(1), sel.cid.value)]
    else []
  }

  /** The exchange as the minter meets it: the reply to each call, given the position of the
      item in the CID list and the call's arguments. */
  datatype MintExchange = MintExchange(
    storageId: (nat, int, int) -> Reply<StorageId>,
    tokenAddress: (nat, CounterFactualNftInfo) -> Reply<CounterFactualNft>,
    offchainFee: (nat, int, int, string) -> Reply<OffchainFee>,
    nftData: (nat, string) -> Reply<seq<string>>,
    mint: (nat, MintRequest) -> Reply<TxResponse>)

  /** The fee request type for an NFT mint. */
  const MintRequestType := 9

  /** `get_offchain_parameters`: a missing storage id or token address ends the run with a
      message, but a missing fee is indexed by the log line before its `None` check, so it
      raises `TypeError` instead. */
  function GetOffchainParameters(ex: MintExchange, pos: nat, cfg: MintConfig): (r: Result<OffchainParams, Stop>)
    ensures r.Ok? ==> r.value.info == CounterFactualNftInfo(cfg.minterAddress, NftFactory, "")
    ensures r.Ok? ==> Delivered(ex.storageId(pos, cfg.accountId, cfg.maxFeeTokenId), r.value.storage)
    ensures r.Ok? ==> Delivered(ex.tokenAddress(pos, r.value.info), r.value.token)
    ensures r.Ok? ==> Delivered(ex.offchainFee(pos, cfg.accountId, MintRequestType, r.value.token.tokenAddress), r.value.fee)
    ensures r.Ok? ==> FeeQuote(r.value.fee, cfg.maxFeeTokenId) == Ok(r.value.quote)
    ensures Rejected(ex.storageId(pos, cfg.accountId, cfg.maxFeeTokenId)) ==> r == Err(Exited("Failed to obtain storage id"))
    ensures forall s, t | Delivered(ex.storageId(pos, cfg.accountId, cfg.maxFeeTokenId), s)
                         && Delivered(ex.tokenAddress(pos, CounterFactualNftInfo(cfg.minterAddress, NftFactory, "")), t)
                         && Rejected(ex.offchainFee(pos, cfg.accountId, MintRequestType, t.tokenAddress))
      :: r == Err(Crashed(TypeError))
  {
    var storage :- Crash(Receive(ex.storageId(pos, cfg.accountId, cfg.maxFeeTokenId)));
    if storage.value.None? then Err(Exited("Failed to obtain storage id"))
    else
      var info := CounterFactualNftInfo(cfg.minterAddress, NftFactory, "");
      var token :- Crash(Receive(ex.tokenAddress(pos, info)));
      if token.value.None? then Err(Exited("Failed to obtain token address"))
      else
        var fee :- Crash(Receive(ex.offchainFee(pos, cfg.accountId, MintRequestType, token.value.value.tokenAddress)));
        if fee.value.None? then Err(Crashed(TypeError))
        else
          var quote :- Crash(FeeQuote(fee.value.value, cfg.maxFeeTokenId));
          Ok(OffchainParams(storage.value.value, info, token.value.value, fee.value.value, quote))
  }

  /** What `get_hashes_and_sign` produces: the NFT id, the NFT-data inputs and their hash,
      the mint order and its signature. */
  datatype Signed = Signed(nftId: string, data: NftDataInputs, dataHash: int, order: NftMintInputs, signature: string)

  /** `get_hashes_and_sign`. The id's halves are the big-endian values of decoded bytes 2-17
      (high) and 18-33 (low); the hash covers all six data inputs and the signature all nine
      order inputs, since neither list exceeds its helper's `MAX_INPUTS`. */
  function GetHashesAndSign(c: Crypto, cfg: MintConfig, p: OffchainParams): (r: Result<Signed, PyError>)
    ensures r.Ok? <==> && c.base58(cfg.cid).Some? && |c.base58(cfg.cid).value| > 18
                       && ParseInt(cfg.minterAddress, Base16).Some? && ParseInt(p.token.tokenAddress, Base16).Some?
                       && ParseInt(cfg.exchange, Base16).Some? && ParseInt(p.quote.fee, Base10).Some?
    ensures r.Err? ==> r.error == ValueError
    ensures r.Ok? ==> var decoded := c.base58(cfg.cid).value;
      && r.value.nftId == NftIdOf(decoded)
      && r.value.data == NftDataInputs(
           ParseInt(cfg.minterAddress, Base16).value, cfg.nftType, ParseInt(p.token.tokenAddress, Base16).value,
           BigEndian(Slice(decoded, 18, 34)), BigEndian(decoded[2..18]), cfg.royaltyPercentage)
    ensures r.Ok? ==> r.value.dataHash == c.poseidon(NftDataHelper, r.value.data.Inputs())
    ensures r.Ok? ==> r.value.order == NftMintInputs(
      ParseInt(cfg.exchange, Base16).value, cfg.accountId, cfg.accountId, r.value.dataHash, cfg.amount,
      cfg.maxFeeTokenId, ParseInt(p.quote.fee, Base10).value, ValidUntil, p.storage.offchainId)
    ensures r.Ok? ==> r.value.signature == c.eddsa(NftHelper, cfg.privateKey, r.value.order.Inputs())
  {
    var nftId :- DeriveNftId(c.base58, cfg.cid);
    SplitDerivedId(c.base58(cfg.cid).value);
    var halves :- SplitId(nftId);
    var minter :- IntOf(cfg.minterAddress, Base16);
    var token :- IntOf(p.token.tokenAddress, Base16);
    var data := NftDataInputs(minter, cfg.nftType, token, halves.lo, halves.hi, cfg.royaltyPercentage);
    SerializeKeepsShort(NftDataHelper, data.Inputs());
    var dataHash := Hash(c, NftDataHelper, data.Inputs());
    var exchange :- IntOf(cfg.exchange, Base16);
    var fee :- IntOf(p.quote.fee, Base10);
    var order := NftMintInputs(exchange, cfg.accountId, cfg.accountId, dataHash, cfg.amount, cfg.maxFeeTokenId, fee, ValidUntil, p.storage.offchainId);
    SerializeKeepsShort(NftHelper, order.Inputs());
    Ok(Signed(nftId, data, dataHash, order, Sign(c, NftHelper, cfg.privateKey, order.Inputs())))
  }

  datatype MintResult = Success | Failed | Exists

  /** The body `mint_nft` submits. */
  function MintRequestOf(cfg: MintConfig, p: OffchainParams, s: Signed): MintRequest {
    MintRequest(
      cfg.exchange, cfg.accountId, cfg.minterAddress, cfg.accountId, cfg.minterAddress, cfg.nftType,
      p.token.tokenAddress, s.nftId, PyStr(cfg.amount), ValidUntil, cfg.royaltyPercentage, p.storage.offchainId,
      MaxFee(cfg.maxFeeTokenId, p.quote.fee), false, p.info, s.signature)
  }

  /** What was submitted is what was signed: reading the request's fields back gives the
      nine order inputs and the six NFT-data inputs. */
  lemma SubmittedMatchesSigned(c: Crypto, cfg: MintConfig, p: OffchainParams)
    requires GetHashesAndSign(c, cfg, p).Ok?
    ensures var s := GetHashesAndSign(c, cfg, p).value;
      var q := MintRequestOf(cfg, p, s);
      && ParseInt(q.exchange, Base16) == Some(s.order.exchange)
      && q.minterId == s.order.minterId && q.toAccountId == s.order.toAccountId
      && ParseInt(q.amount, Base10) == Some(s.order.amount)
      && q.maxFee.tokenId == s.order.feeTokenId
      && ParseInt(q.maxFee.amount, Base10) == Some(s.order.fee)
      && q.validUntil == s.order.validUntil && q.storageId == s.order.storageId
      && ParseInt(q.minterAddress, Base16) == Some(s.data.minter)
      && q.nftType == s.data.nftType && q.royaltyPercentage == s.data.royalty
      && ParseInt(q.tokenAddress, Base16) == Some(s.data.tokenAddress)
      && SplitId(q.nftId) == Ok(Halves(s.data.idHi, s.data.idLo))
  {
    var s := GetHashesAndSign(c, cfg, p).value;
    ParsePyStr(cfg.amount);
    SplitDerivedId(c.base58(cfg.cid).value);
  }

  /** The lookup says the NFT exists: status 200 and a non-empty result. */
  predicate FoundReply(d: Reply<seq<string>>) {
    d.Reply? && d.status == 200 && d.body.Some? && |d.body.value| > 0
  }

  /** `mint_nft`: look the NFT data up by the hex of its hash; if it exists, report EXISTS
      without submitting; otherwise submit and report SUCCESS on an accepted reply, FAILED on
      anything else. The second component is the request submitted, if any. */
  function MintNft(ex: MintExchange, pos: nat, cfg: MintConfig, p: OffchainParams, s: Signed): (r: Result<(MintResult, Option<MintRequest>), PyError>)
    ensures var d := ex.nftData(pos, PyHex(s.dataHash));
      r.Ok? ==> (r.value.0 == Exists <==> FoundReply(d))
    ensures var d := ex.nftData(pos, PyHex(s.dataHash));
      r.Ok? ==> r.value.1 == if FoundReply(d) then None else Some(MintRequestOf(cfg, p, s))
    ensures var d := ex.nftData(pos, PyHex(s.dataHash));
      r.Ok? ==> (r.value.0 == Success <==> !FoundReply(d) && AcceptedReply(ex.mint(pos, MintRequestOf(cfg, p, s))))
    ensures var d := ex.nftData(pos, PyHex(s.dataHash));
      r.Err? <==> d.NoBody? || (!FoundReply(d) && ex.mint(pos, MintRequestOf(cfg, p, s)).NoBody?)
  {
    var d :- Receive(ex.nftData(pos, PyHex(s.dataHash)));
    if d.lastStatus == 200 && d.value.Some? && |d.value.value| > 0 then Ok((Exists, None))
    else
      var q := MintRequestOf(cfg, p, s);
      var m :- Receive(ex.mint(pos, q));
      Ok((if m.value.Some? && m.lastStatus == 200 then Success else Failed, Some(q)))
  }

  // ---------------------------------------------------------------------------------------
  // The main loop.

  /** An entry of `mint-info.json` as first recorded. */
  datatype TrailEntry = TrailEntry(id: int, cid: string, amount: int)

  /** The line printed for an item that reached the end of its iteration. */
  datatype Report = Report(id: int, cid: string, result: MintResult)

  /** Everything a run depends on besides the command line: the parsed options, the
      environment, the CID list, the exchange, the primitives, and standard input. */
  datatype MintContext = MintContext(sel: Selection, env: MintEnv, items: seq<Item>, ex: MintExchange, crypto: Crypto, stdin: seq<string>)

  /** The state the loop carries: the audit trail, the printed reports, the requests
      submitted, the approval flag, the prompts shown and the counts the estimates used, and
      how the run stopped early, if it did. */
  datatype MintRun = MintRun(
    trail: seq<TrailEntry>, reports: seq<Report>, requests: seq<MintRequest>,
    approved: bool, prompts: nat, estimates: seq<nat>, stop: Option<Stop>)

  function Begin(noprompt: bool): MintRun {
    MintRun([], [], [], noprompt, 0, [], None)
  }

  /** An iteration after its entry has been recorded: `setup`, then the rest. */
  function ProcessItem(ctx: MintContext, pos: nat, id: int, cid: string, st: MintRun): MintRun {
    match Setup(ctx.env, ctx.sel.amount, cid)
    case Err(e) => st.(stop := Some(Crashed(e)))
    case Ok(cfg) => Fetch(ctx, pos, id, cid, cfg, st)
  }

  /** `get_offchain_parameters`, then the rest. */
  function Fetch(ctx: MintContext, pos: nat, id: int, cid: string, cfg: MintConfig, st: MintRun): MintRun {
    match GetOffchainParameters(ctx.ex, pos, cfg)
    case Err(halt) => st.(stop := Some(halt))
    case Ok(p) => Gate(ctx, pos, id, cid, cfg, p, st)
  }

  /** The fee gate, then the rest. */
  function Gate(ctx: MintContext, pos: nat, id: int, cid: string, cfg: MintConfig, p: OffchainParams, st: MintRun): MintRun {
    var g := FeeGate(st.approved, p.quote, |ctx.items|, ctx.stdin);
    var st := st.(
      approved := st.approved || (g.prompted && g.halt.None?),
      prompts := st.prompts + (if g.prompted then 1 else 0),
      estimates := st.estimates + (if g.estimated.Some? then [g.estimated.value] else []));
    if g.halt.Some? then st.(stop := g.halt) else Submit(ctx, pos, id, cid, cfg, p, st)
  }

  /** Signing and `mint_nft`, then the report line. */
  function Submit(ctx: MintContext, pos: nat, id: int, cid: string, cfg: MintConfig, p: OffchainParams, st: MintRun): MintRun {
    match GetHashesAndSign(ctx.crypto, cfg, p)
    case Err(e) => st.(stop := Some(Crashed(e)))
    case Ok(s) =>
      match MintNft(ctx.ex, pos, cfg, p, s)
      case Err(e) => st.(stop := Some(Crashed(e)))
      case Ok((result, request)) =>
        st.(reports := st.reports + [Report(id, cid, result)],
            requests := st.requests + (if request.Some? then [request.value] else []))
  }

  /** One iteration of `for cid_info in cids`. */
  function Step(ctx: MintContext, pos: nat, st: MintRun): MintRun
    requires pos < |ctx.items|
  {
    var item := ctx.items[pos];
    match ItemId(item.id)
    case Err(e) => st.(stop := Some(Crashed(e)))
    case Ok(id) =>
      if !InRange(id, ctx.sel) then st
      else ProcessItem(ctx, pos, id, item.cid, st).(trail := st.trail + [TrailEntry(id, item.cid, ctx.sel.amount)])
  }

  /** The loop from position `pos` on; it ends at the end of the list or at the first stop. */
  function RunFrom(ctx: MintContext, pos: nat, st: MintRun): MintRun
    requires pos <= |ctx.items|
    decreases |ctx.items| - pos
  {
    if pos == |ctx.items| || st.stop.Some? then st
    else RunFrom(ctx, pos + 1, Step(ctx, pos, st))
  }

  /** `main` after `parse_args`. */
  function MintMain(ctx: MintContext): MintRun {
    RunFrom(ctx, 0, Begin(ctx.sel.noprompt))
  }

  const InitFailure := "Failed to initialize the minter"

  /** `main` over `parse_args` as written: a failed `parse_args` ends the run before anything
      is recorded, and otherwise the audit trail lists in-range items of the batch in order. */
  function Main(a: MintArgs, pathExists: string -> bool, file: seq<Item>, env: MintEnv, ex: MintExchange, crypto: Crypto, stdin: seq<string>): (r: MintRun)
    ensures ParseArgsAsWritten(a, pathExists).Err? ==>
      r.stop == Some(Exited(InitFailure)) && r.trail == [] && r.requests == [] && r.reports == []
    ensures a.end.Some? && a.start.None? ==> r.stop == Some(Exited(InitFailure)) && r.trail == []
    ensures ParseArgsAsWritten(a, pathExists).Ok? ==>
      var sel := ParseArgsAsWritten(a, pathExists).value;
      && StartsWith(Selected(Items(sel, file), sel), r.trail)
      && (r.stop.None? ==> r.trail == Selected(Items(sel, file), sel))
  {
    match ParseArgsAsWritten(a, pathExists)
    case Err(_) => MintRun([], [], [], a.noprompt, 0, [], Some(Exited(InitFailure)))
    case Ok(sel) =>
      var ctx := MintContext(sel, env, Items(sel, file), ex, crypto, stdin);
      MintTrail(ctx);
      MintMain(ctx)
  }

  // ---------------------------------------------------------------------------------------
  // What a run promises.

  /** The entries a run over `items` records when nothing stops it: every item whose ID is
      in range, in list order, with the amount from the command line. */
  function Selected(items: seq<Item>, sel: Selection): seq<TrailEntry> {
    if |items| == 0 then []
    else
      var last := items[|items| - 1];
      Selected(items[..|items| - 1], sel) +
        match ItemId(last.id)
        case Ok(id) => if InRange(id, sel) then [TrailEntry(id, last.cid, sel.amount)] else []
        case Err(_) => []
  }

  /** The number of reports that led to a mint request. */
  function Submitted(reports: seq<Report>): nat {
    if |reports| == 0 then 0
    else Submitted(reports[..|reports| - 1]) + if reports[|reports| - 1].result == Exists then 0 else 1
  }

  lemma StepTrail(ctx: MintContext, pos: nat, st: MintRun)
    requires pos < |ctx.items|
    requires st.trail == Selected(ctx.items[..pos], ctx.sel)
    ensures Step(ctx, pos, st).trail == Selected(ctx.items[..pos + 1], ctx.sel)
  {
    assert ctx.items[..pos + 1][..pos] == ctx.items[..pos];
  }

  /** What the first `k` items record is what the whole list records, cut short. */
  lemma {:induction false} SelectedPrefix(items: seq<Item>, sel: Selection, k: nat)
    requires k <= |items|
    ensures StartsWith(Selected(items, sel), Selected(items[..k], sel))
    decreases |items| - k
  {
    if k == |items| {
      assert items[..k] == items;
    } else {
      SelectedPrefix(items, sel, k + 1);
      assert items[..k + 1][..k] == items[..k];
    }
  }

  lemma {:induction false} RunTrail(ctx: MintContext, pos: nat, st: MintRun)
    requires pos <= |ctx.items|
    requires st.trail == Selected(ctx.items[..pos], ctx.sel)
    ensures StartsWith(Selected(ctx.items, ctx.sel), RunFrom(ctx, pos, st).trail)
    ensures RunFrom(ctx, pos, st).stop.None? ==> RunFrom(ctx, pos, st).trail == Selected(ctx.items, ctx.sel)
    decreases |ctx.items| - pos
  {
    if pos == |ctx.items| || st.stop.Some? {
      SelectedPrefix(ctx.items, ctx.sel, pos);
      assert pos == |ctx.items| ==> ctx.items[..pos] == ctx.items;
    } else {
      StepTrail(ctx, pos, st);
      RunTrail(ctx, pos + 1, Step(ctx, pos, st));
    }
  }

  /** `mint-info.json` lists the in-range items in order, each recorded before its mint is
      attempted, so a run stopped early leaves a prefix of the full list and a complete run
      leaves all of it. */
  lemma MintTrail(ctx: MintContext)
    ensures StartsWith(Selected(ctx.items, ctx.sel), MintMain(ctx).trail)
    ensures MintMain(ctx).stop.None? ==> MintMain(ctx).trail == Selected(ctx.items, ctx.sel)
  {
    RunTrail(ctx, 0, Begin(ctx.sel.noprompt));
  }

  /** The facts about approval that hold after every iteration. */
  predicate GateKept(ctx: MintContext, st: MintRun) {
    && st.prompts <= 1
    && st.estimates == (if st.prompts == 0 then [] else [|ctx.items|])
    && (ctx.sel.noprompt ==> st.approved && st.prompts == 0)
    && (st.stop.None? && !st.approved ==> st.prompts == 0)
    && (!st.approved ==> st.reports == [] && st.requests == [])
    && (st.stop == Some(Exited(AbortedByUser)) ==> !st.approved)
    && |st.requests| == Submitted(st.reports)
  }

  lemma SubmittedAppend(reports: seq<Report>, r: Report)
    ensures Submitted(reports + [r]) == Submitted(reports) + if r.result == Exists then 0 else 1
  {
    assert (reports + [r])[..|reports|] == reports;
  }

  lemma SubmitKeepsGate(ctx: MintContext, pos: nat, id: int, cid: string, cfg: MintConfig, p: OffchainParams, st: MintRun)
    requires GateKept(ctx, st) && st.stop.None? && st.approved
    ensures GateKept(ctx, Submit(ctx, pos, id, cid, cfg, p, st))
  {
    var signed := GetHashesAndSign(ctx.crypto, cfg, p);
    if signed.Ok? {
      var minted := MintNft(ctx.ex, pos, cfg, p, signed.value);
      if minted.Ok? {
        SubmittedAppend(st.reports, Report(id, cid, minted.value.0));
      }
    }
  }

  lemma GateKeepsGate(ctx: MintContext, pos: nat, id: int, cid: string, cfg: MintConfig, p: OffchainParams, st: MintRun)
    requires GateKept(ctx, st) && st.stop.None?
    ensures GateKept(ctx, Gate(ctx, pos, id, cid, cfg, p, st))
  {
    var g := FeeGate(st.approved, p.quote, |ctx.items|, ctx.stdin);
    var st' := st.(
      approved := st.approved || (g.prompted && g.halt.None?),
      prompts := st.prompts + (if g.prompted then 1 else 0),
      estimates := st.estimates + (if g.estimated.Some? then [g.estimated.value] else []));
    if g.halt.None? {
      assert GateKept(ctx, st');
      SubmitKeepsGate(ctx, pos, id, cid, cfg, p, st');
    }
  }

  lemma FetchKeepsGate(ctx: MintContext, pos: nat, id: int, cid: string, cfg: MintConfig, st: MintRun)
    requires GateKept(ctx, st) && st.stop.None?
    ensures GateKept(ctx, Fetch(ctx, pos, id, cid, cfg, st))
  {
    var params := GetOffchainParameters(ctx.ex, pos, cfg);
    if params.Ok? {
      GateKeepsGate(ctx, pos, id, cid, cfg, params.value, st);
    }
  }

  lemma ProcessItemKeepsGate(ctx: MintContext, pos: nat, id: int, cid: string, st: MintRun)
    requires GateKept(ctx, st) && st.stop.None?
    ensures GateKept(ctx, ProcessItem(ctx, pos, id, cid, st))
  {
    var setup := Setup(ctx.env, ctx.sel.amount, cid);
    if setup.Ok? {
      FetchKeepsGate(ctx, pos, id, cid, setup.value, st);
    }
  }

  lemma StepKeepsGate(ctx: MintContext, pos: nat, st: MintRun)
    requires pos < |ctx.items|
    requires GateKept(ctx, st) && st.stop.None?
    ensures GateKept(ctx, Step(ctx, pos, st))
  {
    var item := ctx.items[pos];
    if ItemId(item.id).Ok? && InRange(ItemId(item.id).value, ctx.sel) {
      var id := ItemId(item.id).value;
      ProcessItemKeepsGate(ctx, pos, id, item.cid, st);
    }
  }

  /** An iteration leads to a state that keeps the gate, from which the rest of the loop
      runs. */
  lemma NextKeepsGate(ctx: MintContext, pos: nat, st: MintRun)
    requires pos < |ctx.items|
    requires GateKept(ctx, st) && st.stop.None?
    ensures exists next :: GateKept(ctx, next) && RunFrom(ctx, pos, st) == RunFrom(ctx, pos + 1, next)
  {
    StepKeepsGate(ctx, pos, st);
    var next := Step(ctx, pos, st);
    assert RunFrom(ctx, pos, st) == RunFrom(ctx, pos + 1, next);
  }

  lemma {:induction false} RunKeepsGate(ctx: MintContext, pos: nat, st: MintRun)
    requires pos <= |ctx.items|
    requires GateKept(ctx, st)
    ensures GateKept(ctx, RunFrom(ctx, pos, st))
    decreases |ctx.items| - pos, 1
  {
    if pos < |ctx.items| && st.stop.None? {
      RunOnKeepsGate(ctx, pos, st);
    }
  }

  lemma {:induction false} RunOnKeepsGate(ctx: MintContext, pos: nat, st: MintRun)
    requires pos < |ctx.items|
    requires GateKept(ctx, st) && st.stop.None?
    ensures GateKept(ctx, RunFrom(ctx, pos, st))
    decreases |ctx.items| - pos, 0
  {
    NextKeepsGate(ctx, pos, st);
    var next :| GateKept(ctx, next) && RunFrom(ctx, pos, st) == RunFrom(ctx, pos + 1, next);
    RunKeepsGate(ctx, pos + 1, next);
  }

  /** The fee prompt is shown at most once, never with `--noprompt`, and its estimate counts
      every entry of the CID list, not just the ones in range; an answer of no ends the run
      before any request is submitted; and exactly the items not already on the exchange led
      to a mint request. */
  lemma MintGate(ctx: MintContext)
    ensures MintMain(ctx).prompts <= 1
    ensures ctx.sel.noprompt ==> MintMain(ctx).prompts == 0
    ensures forall i :: 0 <= i < |MintMain(ctx).estimates| ==> MintMain(ctx).estimates[i] == |ctx.items|
    ensures MintMain(ctx).stop == Some(Exited(AbortedByUser)) ==> MintMain(ctx).requests == [] && MintMain(ctx).reports == []
    ensures |MintMain(ctx).requests| == Submitted(MintMain(ctx).reports)
  {
    RunKeepsGate(ctx, 0, Begin(ctx.sel.noprompt));
  }

  /** As written, `--cid` with `--start 2` passes `parse_args`, announces that the range is
      ignored, and then filters out the only item (ID 1): the run records nothing, submits
      nothing and ends normally. */
  lemma CidModeAsWrittenMintsNothing(cid: string, start: int, pathExists: string -> bool, env: MintEnv, ex: MintExchange, crypto: Crypto, stdin: seq<string>)
    requires start > 1
    ensures var a := MintArgs(1, false, Some(cid), None, Some(start), None);
      var r := ParseArgsAsWritten(a, pathExists);
      && r.Ok?
      && var run := MintMain(MintContext(r.value, env, Items(r.value, []), ex, crypto, stdin));
         run.trail == [] && run.requests == [] && run.stop.None?
  {
    var a := MintArgs(1, false, Some(cid), None, Some(start), None);
    var sel := ParseArgsAsWritten(a, pathExists).value;
    var ctx := MintContext(sel, env, Items(sel, []), ex, crypto, stdin);
    assert ctx.items == [Item(Number(1), cid)];
    assert !InRange(1, sel);
    var st := Begin(false);
    assert Step(ctx, 0, st) == st;
    assert RunFrom(ctx, 1, st) == st;
  }

  /** With the range dropped in single-CID mode, a run that completes records the CID as
      item 1, whatever `--start` and `--end` said. */
  lemma CidModeMintsItem(cid: string, start: Option<int>, end: Option<int>, pathExists: string -> bool, env: MintEnv, ex: MintExchange, crypto: Crypto, stdin: seq<string>)
    requires end.None? || (if start.None? then 1 else start.value) <= end.value
    ensures var a := MintArgs(1, false, Some(cid), None, start, end);
      var r := ParseArgs(a, pathExists);
      && r.Ok?
      && var run := MintMain(MintContext(r.value, env, Items(r.value, []), ex, crypto, stdin));
         (run.stop.None? ==> run.trail == [TrailEntry(1, cid, 1)])
  {
    var a := MintArgs(1, false, Some(cid), None, start, end);
    var sel := ParseArgs(a, pathExists).value;
    var ctx := MintContext(sel, env, Items(sel, []), ex, crypto, stdin);
    MintTrail(ctx);
    assert ctx.items[..0] == [];
  }
}

=== FILE: nftid.dfy ===
/**
 * From an IPFS CIDv0 to the NFT id the exchange expects: base58-decode the CID, drop the two
 * multihash header bytes, and print the rest as `0x`-prefixed lower-case hex. The signing
 * code then reads that hex back as a high and a low 128-bit half. The `cid2hex` command line
 * tool performs the same conversion on its own.
 */
module NftId {
  import opened Wrappers
  import opened Failures
  import opened PyText
  import opened PyInt

  /** `"0x" + decoded.hex()[4:]`. */
  function NftIdOf(decoded: seq<Byte>): (id: string)
    ensures id == "0x" + BytesHex(Drop(decoded, 2))
    ensures |decoded| >= 2 ==> |id| == 2 + 2 * (|decoded| - 2)
    ensures |decoded| < 2 ==> id == "0x"
  {
    BytesHexSlice(decoded, 2);
    BytesHexLength(Drop(decoded, 2));
    "0x" + Drop(BytesHex(decoded), 4)
  }

  /** The id the minting scripts derive from a CID; a CID that is not base58 raises. */
  function DeriveNftId(base58: string -> Option<seq<Byte>>, cid: string): (r: Result<string, PyError>)
    ensures r.Ok? <==> base58(cid).Some?
    ensures r.Ok? ==> r.value == "0x" + BytesHex(Drop(base58(cid).value, 2))
    ensures r.Err? ==> r.error == ValueError
  {
    match base58(cid)
    case None => Err(ValueError)
    case Some(decoded) => Ok(NftIdOf(decoded))
  }

  /** The two 128-bit halves of the id, as the NFT-data hash takes them. */
  datatype Halves = Halves(hi: int, lo: int)

  /** `int(nft_id[2:34], 16)` and `int(nft_id[34:66], 16)`. */
  function SplitId(nftId: string): Result<Halves, PyError> {
    var hi := ParseInt(Slice(nftId, 2, 34), Base16);
    var lo := ParseInt(Slice(nftId, 34, 66), Base16);
    if hi.None? || lo.None? then Err(ValueError) else Ok(Halves(hi.value, lo.value))
  }

  /** Slicing past a two-character prefix is slicing the rest. */
  lemma SliceAfterPrefix(h: string, a: nat, b: nat)
    requires a <= b
    ensures Slice("0x" + h, a + 2, b + 2) == Slice(h, a, b)
  {
    var s := "0x" + h;
    if b <= |h| {
      assert s[..b + 2] == "0x" + h[..b];
    } else {
      assert Take(s, b + 2) == s;
    }
    assert Take(s, b + 2) == "0x" + Take(h, b);
    if a <= |Take(h, b)| {
      assert Drop(Take(s, b + 2), a + 2) == Drop(Take(h, b), a);
    }
  }

  /** `nft_id[2:34]` is the hex of the payload's first 16 bytes. */
  lemma HighText(p: seq<Byte>)
    ensures Slice("0x" + BytesHex(p), 2, 34) == BytesHex(Take(p, 16))
  {
    SliceAfterPrefix(BytesHex(p), 0, 32);
    BytesHexSlice(p, 16);
  }

  /** `nft_id[34:66]` is the hex of the payload's bytes 16 to 31. */
  lemma LowText(p: seq<Byte>)
    ensures Slice("0x" + BytesHex(p), 34, 66) == BytesHex(Slice(p, 16, 32))
  {
    var h := BytesHex(p);
    SliceAfterPrefix(h, 32, 64);
    BytesHexSlice(p, 32);
    BytesHexSlice(Take(p, 32), 16);
  }

  /** The halves of an id are the big-endian values of the payload's bytes 0-15 and 16-31;
      reading them fails exactly when the payload has no byte beyond the sixteenth. */
  lemma {:induction false} SplitPayloadId(p: seq<Byte>)
    ensures SplitId("0x" + BytesHex(p)).Ok? <==> |p| > 16
    ensures |p| > 16 ==> SplitId("0x" + BytesHex(p)).value == Halves(BigEndian(Take(p, 16)), BigEndian(Slice(p, 16, 32)))
  {
    var id := "0x" + BytesHex(p);
    var hi, lo := Take(p, 16), Slice(p, 16, 32);
    HighText(p);
    LowText(p);
    ParseBytesHex(hi);
    ParseBytesHex(lo);
    assert |lo| > 0 <==> |p| > 16;
    assert |p| > 16 ==> |hi| > 0;
    assert SplitId(id) == (
      var h, l := ParseInt(BytesHex(hi), Base16), ParseInt(BytesHex(lo), Base16);
      if h.None? || l.None? then Err(ValueError) else Ok(Halves(h.value, l.value)));
  }

  /** The same statement for the id derived from a decoded CID. */
  lemma SplitDerivedId(decoded: seq<Byte>)
    ensures SplitId(NftIdOf(decoded)).Ok? <==> |decoded| > 18
    ensures |decoded| > 18 ==> SplitId(NftIdOf(decoded)).value == Halves(BigEndian(decoded[2..18]), BigEndian(Slice(decoded, 18, 34)))
  {
    var p := Drop(decoded, 2);
    SplitPayloadId(p);
    if |decoded| > 18 {
      assert Take(p, 16) == decoded[2..18];
      assert Slice(p, 16, 32) == Slice(decoded, 18, 34) by {
        if |decoded| >= 34 {
          assert Take(p, 32) == decoded[2..34];
        } else {
          assert Take(p, 32) == decoded[2..];
        }
      }
    }
  }

  lemma {:induction false} BigEndianAppend(a: seq<Byte>, b: seq<Byte>)
    ensures BigEndian(a + b) == BigEndian(a) * Pow(256, |b|) + BigEndian(b)
    decreases |b|
  {
    if |b| == 0 {
      assert a + b == a;
    } else {
      var b', x := b[..|b| - 1], b[|b| - 1];
      assert (a + b)[..|a + b| - 1] == a + b';
      BigEndianAppend(a, b');
      var A, P, B := BigEndian(a), Pow(256, |b'|), BigEndian(b');
      assert BigEndian(a + b) == (A * P + B) * 256 + x;
      Distribute(A, P, B, 256);
    }
  }

  lemma {:induction false} BigEndianBound(b: seq<Byte>)
    ensures BigEndian(b) < Pow(256, |b|)
    decreases |b|
  {
    if |b| > 0 {
      BigEndianBound(b[..|b| - 1]);
    }
  }

  /** For a 32-byte payload the halves lose nothing: each is below 2^128 and together they
      are the payload's 256-bit value. */
  lemma {:induction false} HalvesRecombine(p: seq<Byte>)
    requires |p| == 32
    ensures SplitId("0x" + BytesHex(p)).Ok?
    ensures var hl := SplitId("0x" + BytesHex(p)).value;
      && 0 <= hl.hi < Pow(256, 16) && 0 <= hl.lo < Pow(256, 16)
      && hl.hi * Pow(256, 16) + hl.lo == BigEndian(p)
  {
    SplitPayloadId(p);
    assert Slice(p, 16, 32) == p[16..];
    assert p == p[..16] + p[16..];
    BigEndianAppend(p[..16], p[16..]);
    BigEndianBound(p[..16]);
    BigEndianBound(p[16..]);
  }

  /** `cid2hex` as written: a failed argument check is caught and handed to `sys.exit`, but
      the script never imports `sys`, so the handler itself raises `NameError`. */
  function Cid2HexAsWritten(cid: Option<string>, base58: string -> Option<seq<Byte>>): (r: Result<string, Stop>)
    ensures r.Ok? <==> cid.Some? && |cid.value| > 0 && StartsWith(cid.value, "Qm") && base58(cid.value).Some?
    ensures r.Err? ==> r.error == Crashed(NameError) || r.error == Crashed(ValueError)
    ensures (cid.None? || |cid.value| == 0) ==> r == Err(Crashed(NameError))
  {
    TakeIsPrefix(if cid.Some? then cid.value else "", "Qm");
    if cid.None? || |cid.value| == 0 then Err(Crashed(NameError))
    else if Take(cid.value, 2) != "Qm" then Err(Crashed(NameError))
    else match base58(cid.value)
      case None => Err(Crashed(ValueError))
      case Some(decoded) => Ok("0x" + Drop(BytesHex(decoded), 4))
  }

  /** A missing CID ends the as-written tool in a `NameError` rather than its message. */
  lemma Cid2HexAsWrittenMissingCid(base58: string -> Option<seq<Byte>>)
    ensures Cid2HexAsWritten(None, base58) == Err(Crashed(NameError))
    ensures Cid2HexAsWritten(Some("bafy"), base58) == Err(Crashed(NameError))
  {
    assert Take("bafy", 2) == "ba";
  }

  const ConverterFailure := "Failed to initialize the converter: "

  /** `cid2hex` with `sys` imported: a missing or empty `--cid`, or one that does not start
      with `Qm`, ends with the tool's message; text that is not base58 raises `ValueError`;
      otherwise the output is the id the minting scripts derive. */
  function Cid2Hex(cid: Option<string>, base58: string -> Option<seq<Byte>>): (r: Result<string, Stop>)
    ensures r.Ok? <==> cid.Some? && |cid.value| > 0 && StartsWith(cid.value, "Qm") && base58(cid.value).Some?
    ensures r.Ok? ==> DeriveNftId(base58, cid.value) == Ok(r.value)
    ensures r.Ok? && |base58(cid.value).value| >= 2 ==> |r.value| == 2 + 2 * (|base58(cid.value).value| - 2)
    ensures r.Err? ==> r.error != Crashed(NameError)
    ensures (cid.None? || |cid.value| == 0) ==> r == Err(Exited(ConverterFailure + "Missing --cid, please provide one"))
  {
    if cid.None? || |cid.value| == 0 then Err(Exited(ConverterFailure + "Missing --cid, please provide one"))
    else if Take(cid.value, 2) != "Qm" then Err(Exited(ConverterFailure + "Invalid cid: " + cid.value))
    else match base58(cid.value)
      case None => Err(Crashed(ValueError))
      case Some(decoded) => Ok(NftIdOf(decoded))
  }

  /** The two versions differ only in how a rejected argument ends the run. */
  lemma Cid2HexAgrees(cid: Option<string>, base58: string -> Option<seq<Byte>>)
    ensures Cid2HexAsWritten(cid, base58).Ok? <==> Cid2Hex(cid, base58).Ok?
    ensures Cid2Hex(cid, base58).Ok? ==> Cid2HexAsWritten(cid, base58) == Cid2Hex(cid, base58)
  {
    if cid.Some? && |cid.value| > 0 {
      TakeIsPrefix(cid.value, "Qm");
    }
  }
}

=== FILE: ordering.dfy ===
/**
 * Python's ordering of `(int, str)` tuples, as `sorted(zip(ids, files))` uses it: by the
 * integer first, then by the string, compared code point by code point with a proper prefix
 * first. A sort by insertion stands for `sorted`; since the order is total and antisymmetric,
 * any sorted permutation is the same sequence, so the choice of algorithm does not matter.
 */
module Ordering {

  /** `a <= b` for Python strings. */
  predicate StrLe(a: string, b: string) {
    |a| == 0 || (|b| > 0 && (a[0] < b[0] || (a[0] == b[0] && StrLe(a[1..], b[1..]))))
  }

  lemma {:induction false} StrLeTotal(a: string, b: string)
    ensures StrLe(a, b) || StrLe(b, a)
  {
    if |a| > 0 && |b| > 0 && a[0] == b[0] {
      StrLeTotal(a[1..], b[1..]);
    }
  }

  lemma {:induction false} StrLeTrans(a: string, b: string, c: string)
    requires StrLe(a, b) && StrLe(b, c)
    ensures StrLe(a, c)
  {
    if |a| > 0 && a[0] == b[0] && b[0] == c[0] {
      StrLeTrans(a[1..], b[1..], c[1..]);
    }
  }

  lemma {:induction false} StrLeAntisym(a: string, b: string)
    requires StrLe(a, b) && StrLe(b, a)
    ensures a == b
  {
    if |a| > 0 {
      StrLeAntisym(a[1..], b[1..]);
      assert a == [a[0]] + a[1..] && b == [b[0]] + b[1..];
    }
  }

  /** An `(id, file)` tuple. */
  datatype Keyed = Keyed(id: int, name: string)

  /** Tuple comparison: the id decides unless the ids are equal. */
  predicate Le(x: Keyed, y: Keyed) {
    x.id < y.id || (x.id == y.id && StrLe(x.name, y.name))
  }

  lemma LeTotal(x: Keyed, y: Keyed)
    ensures Le(x, y) || Le(y, x)
  {
    StrLeTotal(x.name, y.name);
  }

  lemma LeTrans(x: Keyed, y: Keyed, z: Keyed)
    requires Le(x, y) && Le(y, z)
    ensures Le(x, z)
  {
    if x.id == y.id == z.id {
      StrLeTrans(x.name, y.name, z.name);
    }
  }

  lemma LeAntisym(x: Keyed, y: Keyed)
    requires Le(x, y) && Le(y, x)
    ensures x == y
  {
    StrLeAntisym(x.name, y.name);
  }

  /** Each element is at most every later one. */
  predicate Sorted(s: seq<Keyed>) {
    forall i, j :: 0 <= i < j < |s| ==> Le(s[i], s[j])
  }

  /** Places `x` before the first element it does not exceed. */
  function Insert(x: Keyed, s: seq<Keyed>): (r: seq<Keyed>)
    ensures multiset(r) == multiset(s) + multiset{x}
    ensures |r| == |s| + 1
  {
    if |s| == 0 || Le(x, s[0]) then [x] + s
    else
      var rest := Insert(x, s[1..]);
      assert s == [s[0]] + s[1..];
      [s[0]] + rest
  }

  lemma {:induction false} InsertSorted(x: Keyed, s: seq<Keyed>)
    requires Sorted(s)
    ensures Sorted(Insert(x, s))
  {
    if |s| == 0 {
    } else if Le(x, s[0]) {
      forall i, j | 0 <= i < j < |s| + 1
        ensures Le(([x] + s)[i], ([x] + s)[j])
      {
        if i == 0 && j > 1 {
          LeTrans(x, s[0], s[j - 1]);
        }
      }
    } else {
      LeTotal(x, s[0]);
      var rest := Insert(x, s[1..]);
      InsertSorted(x, s[1..]);
      var r := [s[0]] + rest;
      forall j | 0 <= j < |rest|
        ensures Le(s[0], rest[j])
      {
        assert rest[j] in multiset(s[1..]) + multiset{x};
        if rest[j] != x {
          var k :| 0 <= k < |s[1..]| && s[1..][k] == rest[j];
          assert s[k + 1] == rest[j];
        }
      }
      forall i, j | 0 <= i < j < |r|
        ensures Le(r[i], r[j])
      {
        if i > 0 {
          assert r[i] == rest[i - 1] && r[j] == rest[j - 1];
        } else {
          assert r[j] == rest[j - 1];
        }
      }
    }
  }

  /** `sorted(s)`. */
  function Sort(s: seq<Keyed>): (r: seq<Keyed>)
    ensures multiset(r) == multiset(s)
    ensures |r| == |s|
  {
    if |s| == 0 then []
    else
      assert s == [s[0]] + s[1..];
      Insert(s[0], Sort(s[1..]))
  }

  /** The sort orders its input. */
  lemma {:induction false} SortSorted(s: seq<Keyed>)
    ensures Sorted(Sort(s))
  {
    if |s| > 0 {
      SortSorted(s[1..]);
      InsertSorted(s[0], Sort(s[1..]));
    }
  }

  /** The head of a sorted sequence is at most each of its elements. */
  lemma SortedHeadLe(a: seq<Keyed>, x: Keyed)
    requires Sorted(a) && x in multiset(a) && x != a[0]
    ensures Le(a[0], x)
  {
    var i :| 0 <= i < |a| && a[i] == x;
  }

  lemma SplitHead(a: seq<Keyed>)
    requires |a| > 0
    ensures multiset(a) == multiset{a[0]} + multiset(a[1..])
    ensures Sorted(a) ==> Sorted(a[1..])
  {
    assert a == [a[0]] + a[1..];
  }

  lemma SameLength(a: seq<Keyed>, b: seq<Keyed>)
    requires multiset(a) == multiset(b)
    ensures |a| == |b|
  {
    assert |multiset(a)| == |a| && |multiset(b)| == |b|;
  }

  lemma ConsEqual(a: seq<Keyed>, b: seq<Keyed>)
    requires |a| > 0 && |b| > 0 && a[0] == b[0] && a[1..] == b[1..]
    ensures a == b
  {
    assert a == [a[0]] + a[1..] && b == [b[0]] + b[1..];
  }

  /** Two sorted arrangements of the same elements are the same sequence: whatever algorithm
      `sorted` uses, its result is `Sort`'s. */
  lemma {:induction false} SortedUnique(a: seq<Keyed>, b: seq<Keyed>)
    requires Sorted(a) && Sorted(b) && multiset(a) == multiset(b)
    ensures a == b
    decreases |a|
  {
    SameLength(a, b);
    if |a| > 0 {
      if a[0] != b[0] {
        assert a[0] in multiset(b) && b[0] in multiset(a);
        SortedHeadLe(b, a[0]);
        SortedHeadLe(a, b[0]);
        LeAntisym(a[0], b[0]);
      }
      SplitHead(a);
      SplitHead(b);
      assert multiset(a[1..]) == multiset(a) - multiset{a[0]};
      assert multiset(b[1..]) == multiset(b) - multiset{b[0]};
      SortedUnique(a[1..], b[1..]);
      ConsEqual(a, b);
    }
  }
}

=== FILE: payloads.dfy ===
/**
 * The three fixed-order input lists that are hashed and signed: the NFT data (6 fields), the
 * mint order (9 fields) and the transfer order (12 fields). Each record's `Inputs` is the list
 * in the order the scripts write it; `Decode` reads a list back, so the order and the arity
 * are pinned down by the round trips below.
 */
module Payloads {
  import opened Wrappers

  /** `[minter, nftType, tokenAddress, idLo, idHi, royalty]`: the low half comes first. */
  datatype NftDataInputs = NftDataInputs(minter: int, nftType: int, tokenAddress: int, idLo: int, idHi: int, royalty: int) {
    function Inputs(): seq<int> {
      [minter, nftType, tokenAddress, idLo, idHi, royalty]
    }
  }

  /** The mint order; the minter's account is both the minter and the receiver. */
  datatype NftMintInputs = NftMintInputs(
    exchange: int, minterId: int, toAccountId: int, nftDataHash: int, amount: int,
    feeTokenId: int, fee: int, validUntil: int, storageId: int)
  {
    function Inputs(): seq<int> {
      [exchange, minterId, toAccountId, nftDataHash, amount, feeTokenId, fee, validUntil, storageId]
    }
  }

  /** The transfer order; two zero slots sit between the receiver's address and `validUntil`. */
  datatype NftTransferInputs = NftTransferInputs(
    exchange: int, fromAccountId: int, toAccountId: int, tokenId: int, amount: int,
    feeTokenId: int, fee: int, toAddress: int, validUntil: int, storageId: int)
  {
    function Inputs(): seq<int> {
      [exchange, fromAccountId, toAccountId, tokenId, amount, feeTokenId, fee, toAddress, 0, 0, validUntil, storageId]
    }
  }

  function DecodeNftData(s: seq<int>): Option<NftDataInputs> {
    if |s| == 6 then Some(NftDataInputs(s[0], s[1], s[2], s[3], s[4], s[5])) else None
  }

  function DecodeNftMint(s: seq<int>): Option<NftMintInputs> {
    if |s| == 9 then Some(NftMintInputs(s[0], s[1], s[2], s[3], s[4], s[5], s[6], s[7], s[8])) else None
  }

  function DecodeNftTransfer(s: seq<int>): Option<NftTransferInputs> {
    if |s| == 12 && s[8] == 0 && s[9] == 0 then
      Some(NftTransferInputs(s[0], s[1], s[2], s[3], s[4], s[5], s[6], s[7], s[10], s[11]))
    else None
  }

  /** Six fields, low half of the id before the high half; decoding gives the record back. */
  lemma NftDataRoundTrip(d: NftDataInputs)
    ensures |d.Inputs()| == 6
    ensures d.Inputs()[3] == d.idLo && d.Inputs()[4] == d.idHi
    ensures DecodeNftData(d.Inputs()) == Some(d)
  {
  }

  /** Any six-element list is the inputs of exactly one record. */
  lemma NftDataDecodes(s: seq<int>)
    ensures DecodeNftData(s).Some? <==> |s| == 6
    ensures DecodeNftData(s).Some? ==> DecodeNftData(s).value.Inputs() == s
  {
  }

  /** Nine fields: the account twice in slots 1 and 2, the NFT-data hash in slot 3 and the
      storage id last; decoding gives the record back. */
  lemma NftMintRoundTrip(m: NftMintInputs)
    ensures |m.Inputs()| == 9
    ensures m.Inputs()[3] == m.nftDataHash && m.Inputs()[8] == m.storageId
    ensures m.minterId == m.toAccountId ==> m.Inputs()[1] == m.Inputs()[2]
    ensures DecodeNftMint(m.Inputs()) == Some(m)
  {
  }

  lemma NftMintDecodes(s: seq<int>)
    ensures DecodeNftMint(s).Some? <==> |s| == 9
    ensures DecodeNftMint(s).Some? ==> DecodeNftMint(s).value.Inputs() == s
  {
  }

  /** Twelve fields with zeros in slots 8 and 9 and the storage id last. */
  lemma NftTransferRoundTrip(t: NftTransferInputs)
    ensures |t.Inputs()| == 12
    ensures t.Inputs()[8] == 0 && t.Inputs()[9] == 0 && t.Inputs()[11] == t.storageId
    ensures DecodeNftTransfer(t.Inputs()) == Some(t)
  {
  }

  lemma NftTransferDecodes(s: seq<int>)
    ensures DecodeNftTransfer(s).Some? <==> |s| == 12 && s[8] == 0 && s[9] == 0
    ensures DecodeNftTransfer(s).Some? ==> DecodeNftTransfer(s).value.Inputs() == s
  {
  }
}

=== FILE: posixpath.dfy ===
/**
 * The parts of Python's `posixpath` the preparation script relies on: `split`, `join` of two
 * parts, and `splitext`. Paths are plain strings; `/` is the only separator and `.` the only
 * extension separator.
 */
module PosixPath {
  import opened PyText

  /** `p.rfind('/') + 1`: where the last component starts. */
  function ComponentStart(p: string): (i: nat)
    ensures i <= |p|
    ensures i > 0 ==> p[i - 1] == '/'
  {
    if |p| == 0 then 0
    else if p[|p| - 1] == '/' then |p|
    else ComponentStart(p[..|p| - 1])
  }

  /** The last component holds no separator. */
  lemma {:induction false} ComponentStartLast(p: string)
    ensures forall k :: ComponentStart(p) <= k < |p| ==> p[k] != '/'
  {
    if |p| > 0 && p[|p| - 1] != '/' {
      ComponentStartLast(p[..|p| - 1]);
    }
  }

  /** The last component starts right after the last slash. */
  lemma {:induction false} ComponentStartAt(p: string, i: nat)
    requires i <= |p| && (i > 0 ==> p[i - 1] == '/')
    requires forall k :: i <= k < |p| ==> p[k] != '/'
    ensures ComponentStart(p) == i
    decreases |p|
  {
    if |p| > i {
      ComponentStartAt(p[..|p| - 1], i);
    }
  }

  /** A single path component: no separator in it. */
  predicate NoSlash(p: string) {
    forall k :: 0 <= k < |p| ==> p[k] != '/'
  }

  predicate AllSlashes(s: string) {
    forall k :: 0 <= k < |s| ==> s[k] == '/'
  }

  /** `s.rstrip('/')`. */
  function TrimSlashes(s: string): (r: string)
    ensures |r| <= |s|
    ensures |r| > 0 ==> r[|r| - 1] != '/'
  {
    if |s| > 0 && s[|s| - 1] == '/' then TrimSlashes(s[..|s| - 1]) else s
  }

  /** `rstrip` removes a run of slashes from the end and nothing else. */
  lemma {:induction false} TrimSlashesShape(s: string)
    ensures TrimSlashes(s) == s[..|TrimSlashes(s)|]
    ensures forall k :: |TrimSlashes(s)| <= k < |s| ==> s[k] == '/'
  {
    if |s| > 0 && s[|s| - 1] == '/' {
      TrimSlashesShape(s[..|s| - 1]);
    }
  }

  /** `os.path.split(p)`: the head loses its trailing slashes unless it is nothing but
      slashes. */
  function Split(p: string): (string, string) {
    var i := ComponentStart(p);
    var head := p[..i];
    (if head != "" && !AllSlashes(head) then TrimSlashes(head) else head, p[i..])
  }

  /** `os.path.join(a, b)`: an absolute `b` replaces `a`; otherwise a slash is inserted unless
      `a` is empty or already ends with one. */
  function Join(a: string, b: string): string {
    if |b| > 0 && b[0] == '/' then b
    else if a == "" || a[|a| - 1] == '/' then a + b
    else a + "/" + b
  }

  /** The tail is the last component: no slash in it, and a path with no slash at all is its
      own tail with an empty head. */
  lemma SplitShape(p: string)
    ensures NoSlash(Split(p).1)
    ensures EndsWith(p, Split(p).1)
    ensures NoSlash(p) ==> Split(p) == ("", p)
  {
    var i := ComponentStart(p);
    ComponentStartLast(p);
    assert p[..i] + p[i..] == p;
    if NoSlash(p) {
      ComponentStartAt(p, 0);
    }
  }

  /** A path without a doubled slash is rebuilt by joining its split. */
  lemma JoinSplit(p: string)
    requires forall k :: 0 < k < |p| ==> !(p[k - 1] == '/' && p[k] == '/')
    ensures Join(Split(p).0, Split(p).1) == p
  {
    var i := ComponentStart(p);
    var head, tail := p[..i], p[i..];
    assert head + tail == p;
    if i >= 2 {
      assert p[i - 2] != '/';
      assert !AllSlashes(head);
      assert TrimSlashes(head) == p[..i - 1];
      assert p[..i - 1] + "/" + tail == p;
    }
  }

  /** `os.path.split(os.path.join(d, ''))[0]`, the input-directory normalisation. */
  function DirOf(d: string): string {
    Split(Join(d, "")).0
  }

  lemma TrimSlashesAppend(s: string)
    ensures TrimSlashes(s + "/") == TrimSlashes(s)
  {
    assert (s + "/")[..|s|] == s;
  }

  /** The normalisation drops the trailing slashes of a directory that is not all slashes,
      and nothing else. */
  lemma DirOfTrims(d: string)
    requires d != "" && !AllSlashes(d)
    ensures DirOf(d) == TrimSlashes(d)
    ensures DirOf(d) != "" && DirOf(d)[|DirOf(d)| - 1] != '/'
    ensures d[|d| - 1] != '/' ==> DirOf(d) == d
  {
    var j := Join(d, "");
    assert j == if d[|d| - 1] == '/' then d else d + "/";
    assert ComponentStart(j) == |j|;
    assert j[..|j|] == j;
    var k :| 0 <= k < |d| && d[k] != '/';
    assert j[k] == d[k];
    if d[|d| - 1] != '/' {
      TrimSlashesAppend(d);
    }
  }

  /** `p.rfind('.')`, -1 when there is none. */
  function LastDot(p: string): (d: int)
    ensures -1 <= d < |p|
    ensures d >= 0 ==> p[d] == '.'
    ensures forall k :: d < k < |p| ==> p[k] != '.'
  {
    if |p| == 0 then -1
    else if p[|p| - 1] == '.' then |p| - 1
    else LastDot(p[..|p| - 1])
  }

  /** Some character of `p[lo..hi]` is not a dot. */
  predicate NotAllDots(p: string, lo: int, hi: int)
    requires 0 <= lo && hi <= |p|
  {
    exists k :: lo <= k < hi && p[k] != '.'
  }

  /** `os.path.splitext(p)`: the extension starts at the last dot of the last component,
      provided something other than dots precedes it there. */
  function SplitExt(p: string): (string, string) {
    var start := ComponentStart(p);
    var dot := LastDot(p);
    if dot >= start && NotAllDots(p, start, dot) then (p[..dot], p[dot..]) else (p, "")
  }

  /** Root and extension always put back together as the path; a path with no dot has no
      extension. */
  lemma SplitExtJoins(p: string)
    ensures SplitExt(p).0 + SplitExt(p).1 == p
    ensures (forall k :: 0 <= k < |p| ==> p[k] != '.') ==> SplitExt(p) == (p, "")
    ensures SplitExt(p).1 == "" || (SplitExt(p).1[0] == '.' && forall k :: 0 <= k < |SplitExt(p).1| ==> SplitExt(p).1[k] != '/')
  {
    var dot := LastDot(p);
    ComponentStartLast(p);
    if dot >= ComponentStart(p) && NotAllDots(p, ComponentStart(p), dot) {
      assert p[..dot] + p[dot..] == p;
    }
  }

  /** A file name `base + ext`, where `base` has a character other than a dot and `ext` is a
      dot followed by no dot, splits into exactly those parts. */
  lemma SplitExtOfName(base: string, ext: string)
    requires forall k :: 0 <= k < |base| ==> base[k] != '/'
    requires exists k :: 0 <= k < |base| && base[k] != '.'
    requires |ext| > 0 && ext[0] == '.' && forall k :: 0 < k < |ext| ==> ext[k] != '.' && ext[k] != '/'
    ensures SplitExt(base + ext) == (base, ext)
  {
    var p := base + ext;
    assert forall k :: 0 <= k < |p| ==> p[k] != '/';
    assert ComponentStart(p) == 0;
    assert p[|base|] == '.';
    assert LastDot(p) == |base|;
    var k :| 0 <= k < |base| && base[k] != '.';
    assert p[k] != '.';
    assert p[..|base|] == base && p[|base|..] == ext;
  }
}

=== FILE: prepare.dfy ===
/**
 * `prepare.py`: turn a file or a directory of files into the input of the minter. Each file
 * gets an ID from the digits in its name (files without one are numbered past the largest
 * ID), the `(ID, name)` pairs are sorted, the CIDs of the files are computed, and either a
 * `cids.json` list or one metadata template per file is produced. The file system and the
 * `cid` tool are parameters.
 */
module Prepare {
  import opened Wrappers
  import opened Failures
  import opened PyText
  import opened PyInt
  import opened PosixPath
  import opened Ordering

  // ---------------------------------------------------------------------------------------
  // IDs from file names.

  /** `int('0' + ''.join(filter(str.isdigit, f)))`: the number the digits of the name spell,
      0 when it has none or only zeros. */
  function ExtractId(f: string): (id: nat)
    ensures id == 0 <==> forall c :: c in f && IsDigit(c) ==> c == '0'
  {
    var text := "0" + DigitsOf(f);
    assert AllDigits(text, Base10);
    ParsePlainDigits(text, Base10);
    RunValueZero(text);
    DigitsOfMembers(f);
    assert forall c :: c in text <==> c == '0' || c in DigitsOf(f);
    RunValue(text, Base10)
  }

  /** Text without digits filters to nothing. */
  lemma {:induction false} NoDigits(s: string)
    requires forall c :: c in s ==> !IsDigit(c)
    ensures DigitsOf(s) == []
  {
    if |s| > 0 {
      assert s[0] in s;
      forall c | c in s[1..] ensures !IsDigit(c) {
        var k :| 0 <= k < |s[1..]| && s[1..][k] == c;
        assert s[k + 1] == c;
      }
      NoDigits(s[1..]);
    }
  }

  lemma DigitsOfNumeral(n: nat)
    ensures DigitsOf(Numeral(n, Base10)) == Numeral(n, Base10)
  {
    NumeralShape(n, Base10);
    DigitsOfDigits(Numeral(n, Base10));
  }

  lemma DigitsOfNumbered(prefix: string, n: nat, suffix: string)
    requires forall c :: c in prefix ==> !IsDigit(c)
    requires forall c :: c in suffix ==> !IsDigit(c)
    ensures DigitsOf(prefix + Numeral(n, Base10) + suffix) == Numeral(n, Base10)
  {
    var d := Numeral(n, Base10);
    NoDigits(prefix);
    NoDigits(suffix);
    DigitsOfNumeral(n);
    calc {
      DigitsOf(prefix + d + suffix);
    == { DigitsOfAppend(prefix + d, suffix); }
      DigitsOf(prefix + d) + DigitsOf(suffix);
    == { DigitsOfAppend(prefix, d); }
      DigitsOf(prefix) + DigitsOf(d) + DigitsOf(suffix);
    ==
      [] + d + [];
    ==
      d;
    }
  }

  /** `int('0' + str(n))` is `n`. */
  lemma ZeroPrefixedValue(n: nat)
    ensures AllDigits("0" + Numeral(n, Base10), Base10)
    ensures RunValue("0" + Numeral(n, Base10), Base10) == n
  {
    var d := Numeral(n, Base10);
    NumeralShape(n, Base10);
    assert forall i :: 0 <= i < |d| ==> IsDigitOf(d[i], Base10);
    RunValueAppend("0", d, Base10);
    NumeralValue(n, Base10);
    assert RunValue("0", Base10) == 0;
  }

  /** A name whose only digits are the decimal numeral of `n` gets the ID `n`: `7.png` is 7
      and `art-12.jpeg` is 12. */
  lemma ExtractIdOfNumbered(prefix: string, n: nat, suffix: string)
    requires forall c :: c in prefix ==> !IsDigit(c)
    requires forall c :: c in suffix ==> !IsDigit(c)
    ensures ExtractId(prefix + Numeral(n, Base10) + suffix) == n
  {
    DigitsOfNumbered(prefix, n, suffix);
    ZeroPrefixedValue(n);
  }

  /** `"0"` followed by digits reads as a digit run. */
  lemma ZeroLedDigits(d: string)
    requires forall i :: 0 <= i < |d| ==> IsDigit(d[i])
    ensures DigitsOrUnderscores("0" + d, Base10)
  {
    assert forall i :: 0 < i < |"0" + d| ==> ("0" + d)[i] == d[i - 1];
  }

  /** The ID of a one-character name: its digit value, or 0 for any other character. */
  lemma ExtractIdOfChar(c: char)
    ensures ExtractId([c]) == if IsDigit(c) then DigitValue(c, Base10) else 0
  {
    assert DigitsOf([c]) == (if IsDigit(c) then [c] else []) + DigitsOf([]);
    ExtractIdValue([c]);
    if IsDigit(c) {
      RunValueAppend("0", [c], Base10);
      assert [c][..0] == [];
      assert RunValue([c], Base10) == Shift(RunValue([], Base10), Base10) + DigitValue(c, Base10);
    }
  }

  /** The ID is the value of `"0"` and the name's digits as a digit run. */
  lemma ExtractIdValue(f: string)
    ensures DigitsOrUnderscores("0" + DigitsOf(f), Base10)
    ensures ExtractId(f) == RunValue("0" + DigitsOf(f), Base10)
  {
    ZeroLedDigits(DigitsOf(f));
  }

  /** The digits of a name concatenate: the ID of `a + b` is the ID of `a` shifted left by as
      many places as `b` has digits, plus the ID of `b`. With `ExtractIdOfChar` this fixes the
      ID of every name: `v2-final3.png` is 23. */
  lemma ExtractIdAppend(a: string, b: string)
    ensures ExtractId(a + b) == ExtractId(a) * Pow(10, |DigitsOf(b)|) + ExtractId(b)
  {
    var da, db := DigitsOf(a), DigitsOf(b);
    DigitsOfAppend(a, b);
    ExtractIdValue(a + b);
    ExtractIdValue(a);
    ExtractIdValue(b);
    ZeroLedAppend(da, db);
  }

  /** Two zero-led digit runs joined: the run of `da` then `db` is the run of `da` shifted
      left by `|db|` places plus the run of `db`. */
  lemma ZeroLedAppend(da: string, db: string)
    requires forall i :: 0 <= i < |da| ==> IsDigit(da[i])
    requires forall i :: 0 <= i < |db| ==> IsDigit(db[i])
    ensures DigitsOrUnderscores("0" + (da + db), Base10)
    ensures RunValue("0" + (da + db), Base10)
         == RunValue("0" + da, Base10) * Pow(10, |db|) + RunValue("0" + db, Base10)
  {
    ZeroLedDigits(da);
    ZeroLedDigits(db);
    assert "0" + (da + db) == ("0" + da) + db;
    RunValueAppend("0" + da, db, Base10);
    RunValueAppend("0", db, Base10);
    assert RunValue("0", Base10) == 0;
  }

  /** A name without digits has ID 0. */
  lemma ExtractIdNoDigits(s: string)
    requires forall c :: c in s ==> !IsDigit(c)
    ensures ExtractId(s) == 0
  {
    NoDigits(s);
    ExtractIdValue(s);
    assert "0" + DigitsOf(s) == "0";
  }

  /** A run of zeros has ID 0. */
  lemma ExtractIdOfZeros(k: nat)
    ensures ExtractId(Zeros(k)) == 0
  {
    DigitsOfDigits(Zeros(k));
    ExtractIdValue(Zeros(k));
    assert "0" + Zeros(k) == Zeros(k + 1);
    ZerosValue(k + 1, Base10);
  }

  /** Leading zeros do not count: `001.png` is 1 and `art-007.png` is 7. */
  lemma ExtractIdOfPadded(prefix: string, k: nat, n: nat, suffix: string)
    requires forall c :: c in prefix ==> !IsDigit(c)
    requires forall c :: c in suffix ==> !IsDigit(c)
    ensures ExtractId(prefix + Zeros(k) + Numeral(n, Base10) + suffix) == n
  {
    var tail := Numeral(n, Base10) + suffix;
    assert prefix + Zeros(k) + Numeral(n, Base10) + suffix == (prefix + Zeros(k)) + tail;
    ExtractIdNoDigits(prefix);
    ExtractIdOfZeros(k);
    ExtractIdAppend(prefix, Zeros(k));
    assert "" + Numeral(n, Base10) + suffix == tail;
    ExtractIdOfNumbered("", n, suffix);
    ExtractIdAppend(prefix + Zeros(k), tail);
  }

  /** A zero-padded name: `001.png` gets ID 1. */
  lemma ExtractIdPaddedExample()
    ensures ExtractId("001.png") == 1
  {
    assert Numeral(1, Base10) == "1";
    assert "" + Zeros(2) + Numeral(1, Base10) + ".png" == "001.png";
    ExtractIdOfPadded("", 2, 1, ".png");
  }

  /** The largest of some IDs. */
  function MaxOf(s: seq<nat>): (m: nat)
    requires |s| > 0
    ensures m in s
    ensures forall i :: 0 <= i < |s| ==> s[i] <= m
  {
    if |s| == 1 then s[0]
    else
      var rest := MaxOf(s[1..]);
      assert forall i :: 1 <= i < |s| ==> s[i] == s[1..][i - 1];
      if s[0] >= rest then s[0] else rest
  }

  /** `[max(ids) + 1 + i if v == 0 else v for i, v in enumerate(ids)]`. */
  function Renumber(ids: seq<nat>): (r: seq<nat>)
    ensures |r| == |ids|
    ensures forall i :: 0 <= i < |ids| && ids[i] != 0 ==> r[i] == ids[i]
    ensures forall i, j :: 0 <= i < |ids| && 0 <= j < |ids| && ids[i] == 0 ==> r[i] > ids[j]
    ensures forall i, j :: 0 <= i < j < |ids| && (ids[i] == 0 || ids[j] == 0) ==> r[i] != r[j]
    ensures forall i :: 0 <= i < |r| ==> r[i] > 0
    ensures (forall i :: 0 <= i < |ids| ==> ids[i] != 0) ==> r == ids
    ensures forall i, j :: 0 <= i < j < |ids| && ids[i] == 0 && ids[j] == 0 ==> r[i] < r[j]
    ensures forall i :: 0 <= i < |ids| && ids[i] == 0 ==> r[i] == MaxOf(ids) + 1 + i
  {
    seq(|ids|, i requires 0 <= i < |ids| => if ids[i] == 0 then MaxOf(ids) + 1 + i else ids[i])
  }

  /** Renumbering is idempotent: the IDs it hands out are never zero. */
  lemma RenumberTwice(ids: seq<nat>)
    ensures Renumber(Renumber(ids)) == Renumber(ids)
  {
  }

  /** When the names that carry a number carry distinct ones, every file ends up with its own
      ID. */
  lemma RenumberDistinct(ids: seq<nat>)
    requires forall i, j :: 0 <= i < j < |ids| && ids[i] != 0 ==> ids[i] != ids[j]
    ensures forall i, j :: 0 <= i < j < |ids| ==> Renumber(ids)[i] != Renumber(ids)[j]
  {
  }

  /** The IDs of a list of files: a file whose name carries a number keeps it, and a file
      without one gets a positive ID past every number carried, rising with its position. */
  function IdsOf(files: seq<string>): (ids: seq<nat>)
    ensures |ids| == |files|
    ensures forall i :: 0 <= i < |files| && ExtractId(files[i]) != 0 ==> ids[i] == ExtractId(files[i])
    ensures forall i, j :: 0 <= i < |files| && 0 <= j < |files| && ExtractId(files[i]) == 0 ==> ids[i] > ExtractId(files[j])
    ensures forall i, j :: 0 <= i < j < |files| && ExtractId(files[i]) == 0 && ExtractId(files[j]) == 0 ==> ids[i] < ids[j]
    ensures forall i :: 0 <= i < |files| ==> ids[i] > 0
  {
    Renumber(seq(|files|, k requires 0 <= k < |files| => ExtractId(files[k])))
  }

  /** `zip(ids, input_files)`. */
  function Pairs(files: seq<string>): (p: seq<Keyed>)
    ensures |p| == |files|
    ensures forall i :: 0 <= i < |files| ==> p[i] == Keyed(IdsOf(files)[i], files[i])
  {
    var ids := IdsOf(files);
    seq(|files|, i requires 0 <= i < |files| => Keyed(ids[i], files[i]))
  }

  /** The files in output order: `sorted(zip(ids, input_files))`. */
  function Order(files: seq<string>): seq<Keyed> {
    Sort(Pairs(files))
  }

  /** The output order lists every file once with its ID, ascending by ID and then name. */
  lemma OrderIsSortedPermutation(files: seq<string>)
    ensures Sorted(Order(files))
    ensures multiset(Order(files)) == multiset(Pairs(files))
    ensures forall x :: x in Order(files) ==> x.name in files && x.id > 0
    ensures forall o :: Sorted(o) && multiset(o) == multiset(Pairs(files)) ==> o == Order(files)
  {
    SortSorted(Pairs(files));
    forall x | x in Order(files)
      ensures x.name in files && x.id > 0
    {
      assert x in multiset(Pairs(files));
      var i :| 0 <= i < |Pairs(files)| && Pairs(files)[i] == x;
    }
    forall o | Sorted(o) && multiset(o) == multiset(Pairs(files))
      ensures o == Order(files)
    {
      SortedUnique(o, Order(files));
    }
  }

  // ---------------------------------------------------------------------------------------
  // Arguments and paths.

  /** `--file` and `--idir` are a required, mutually exclusive group. */
  datatype InputArg = FileArg(file: string) | DirArg(dir: string)

  datatype PrepareArgs = PrepareArgs(input: InputArg, metadata: bool, empty: bool)

  /** The configuration `parse_args` leaves: the input directory, the single input file
      (empty when a directory is read), `--empty`, and the mode. Whether the output directory
      is removed is the guard below. */
  datatype PrepareConfig = PrepareConfig(inputDir: string, inputFile: string, empty: bool, metadata: bool)

  const OutputDir := "./output"

  /** `os.path.join(cfg.output_dir, 'metadata')`. */
  const MetadataDir := "./output/metadata"

  /** The input directory and file as written: the split of `--file`, or the normalised
      `--idir`; an empty option leaves the directory unset. */
  function InputOfAsWritten(input: InputArg): (r: Option<(string, string)>)
    ensures r.None? <==> input == FileArg("") || input == DirArg("")
    ensures input.FileArg? && r.Some? ==> NoSlash(r.value.1) && EndsWith(input.file, r.value.1)
    ensures input.FileArg? && NoSlash(input.file) && input.file != "" ==> r == Some(("", input.file))
    ensures input.DirArg? && r.Some? ==> r.value.1 == ""
    ensures input.DirArg? && input.dir != "" && !AllSlashes(input.dir) ==>
      r == Some((TrimSlashes(input.dir), "")) && r.value.0 != "" && r.value.0[|r.value.0| - 1] != '/'
  {
    match input
    case FileArg(f) => if f == "" then None else SplitShape(f); Some(Split(f))
    case DirArg(d) => if d == "" then None else DirOfShape(d); Some((DirOf(d), ""))
  }

  /** What the `--idir` normalisation gives a directory that is not all slashes. */
  lemma DirOfShape(d: string)
    ensures d != "" && !AllSlashes(d) ==> DirOf(d) == TrimSlashes(d) && DirOf(d) != "" && DirOf(d)[|DirOf(d)| - 1] != '/'
  {
    if d != "" && !AllSlashes(d) {
      DirOfTrims(d);
    }
  }

  /** The `--empty` guard as written: it compares the head of the output path, `.`, with
      `output`. */
  predicate EmptyGuardAsWritten(empty: bool, present: string -> bool) {
    empty && present(OutputDir) && Split(OutputDir).0 == "output"
  }

  lemma OutputDirSplit()
    ensures Split(OutputDir) == (".", "output")
  {
    assert OutputDir[1] == '/';
    assert forall k :: 2 <= k < |OutputDir| ==> OutputDir[k] != '/';
    ComponentStartAt(OutputDir, 2);
    assert OutputDir[..2] == "./";
    assert TrimSlashes("./") == ".";
  }

  /** The guard as written never holds: `--empty` removes nothing. */
  lemma EmptyGuardAsWrittenNeverHolds(empty: bool, present: string -> bool)
    ensures !EmptyGuardAsWritten(empty, present)
  {
    OutputDirSplit();
  }

  /** The guard as intended: the last component of the output path is `output`. */
  predicate EmptyGuard(empty: bool, present: string -> bool) {
    empty && present(OutputDir) && Split(OutputDir).1 == "output"
  }

  /** The intended guard removes the output directory exactly when `--empty` is given and
      the directory exists. */
  lemma EmptyGuardHolds(empty: bool, present: string -> bool)
    ensures EmptyGuard(empty, present) <==> empty && present(OutputDir)
  {
    OutputDirSplit();
  }

  /** `parse_args` as written. An unset directory reaches `os.path.exists(None)`, which raises
      `TypeError`; a missing directory fails the assertion. */
  function ParseArgsAsWritten(a: PrepareArgs, present: string -> bool): (r: Result<PrepareConfig, PyError>)
    ensures InputOfAsWritten(a.input).None? ==> r == Err(TypeError)
    ensures InputOfAsWritten(a.input).Some? ==> (r.Ok? <==> present(InputOfAsWritten(a.input).value.0))
    ensures InputOfAsWritten(a.input).Some? && r.Err? ==> r.error == AssertionError
    ensures r.Ok? ==> (r.value.inputDir, r.value.inputFile) == InputOfAsWritten(a.input).value
    ensures r.Ok? ==> r.value.metadata == a.metadata && r.value.empty == a.empty
  {
    match InputOfAsWritten(a.input)
    case None => Err(TypeError)
    case Some((dir, file)) =>
      if !present(dir) then Err(AssertionError)
      else Ok(PrepareConfig(dir, file, a.empty, a.metadata))
  }

  /** `os.path.exists('')` is false, so a `--file` with no directory part fails the
      assertion, though the file sits in the current directory. */
  lemma BareFileAsWrittenFails(name: string, metadata: bool, empty: bool, present: string -> bool)
    requires name != "" && '/' !in name
    requires !present("")
    ensures var r := ParseArgsAsWritten(PrepareArgs(FileArg(name), metadata, empty), present);
      r.Err? && r.error == AssertionError
  {
    BareNameStartsAtZero(name);
  }

  /** A name with no slash is all last component. */
  lemma BareNameStartsAtZero(name: string)
    requires name != "" && '/' !in name
    ensures ComponentStart(name) == 0
  {
    assert NoSlash(name) by {
      forall k | 0 <= k < |name| ensures name[k] != '/' {
        assert name[k] in name;
      }
    }
    SplitShape(name);
  }

  /** The input directory and file as intended: an empty head is the current directory. */
  function InputOf(input: InputArg): (r: Option<(string, string)>)
    ensures r.Some? <==> InputOfAsWritten(input).Some?
    ensures r.Some? && InputOfAsWritten(input).value.0 != "" ==> r == InputOfAsWritten(input)
    ensures r.Some? ==> r.value.0 != "" && r.value.1 == InputOfAsWritten(input).value.1
  {
    match InputOfAsWritten(input)
    case None => None
    case Some((dir, file)) => Some((if dir == "" then "." else dir, file))
  }

  /** `parse_args` with the current directory for a bare file name. */
  function ParseArgs(a: PrepareArgs, present: string -> bool): (r: Result<PrepareConfig, PyError>)
    ensures InputOf(a.input).None? ==> r == Err(TypeError)
    ensures InputOf(a.input).Some? ==> (r.Ok? <==> present(InputOf(a.input).value.0))
    ensures r.Ok? ==> (r.value.inputDir, r.value.inputFile) == InputOf(a.input).value
    ensures r.Ok? ==> r.value.inputDir != "" && r.value.metadata == a.metadata && r.value.empty == a.empty
  {
    match InputOf(a.input)
    case None => Err(TypeError)
    case Some((dir, file)) =>
      if !present(dir) then Err(AssertionError)
      else Ok(PrepareConfig(dir, file, a.empty, a.metadata))
  }

  /** The corrected reading of a bare file name is the file in the current directory. */
  lemma BareFileReadsCurrentDir(name: string, metadata: bool, empty: bool, present: string -> bool)
    requires name != "" && '/' !in name
    requires present(".")
    ensures var r := ParseArgs(PrepareArgs(FileArg(name), metadata, empty), present);
      r.Ok? && r.value.inputDir == "." && r.value.inputFile == name
  {
    BareNameStartsAtZero(name);
  }

  /** Where a directory is given, both readings agree on the input, and the file of a path
      with a directory part is its last component. */
  lemma ParseArgsAgree(a: PrepareArgs, present: string -> bool)
    requires InputOfAsWritten(a.input).Some? && InputOfAsWritten(a.input).value.0 != ""
    ensures var w, r := ParseArgsAsWritten(a, present), ParseArgs(a, present);
      && (w.Ok? <==> r.Ok?)
      && (w.Ok? ==> w.value.inputDir == r.value.inputDir && w.value.inputFile == r.value.inputFile)
  {
  }

  // ---------------------------------------------------------------------------------------
  // Outputs.

  /** `os.getenv(name) or default`. */
  function OrDefault(v: Option<string>, default: string): string {
    if v.None? || v.value == "" then default else v.value
  }

  /** `os.getenv('ROYALTY_PERCENTAGE') or 0`: the text, or the integer 0. */
  datatype Royalty = RoyaltyText(text: string) | RoyaltyZero

  datatype MetadataEnv = MetadataEnv(
    collectionName: Option<string>, description: Option<string>, royaltyPercentage: Option<string>,
    artist: Option<string>, minter: Option<string>)

  /** A metadata template. */
  datatype Token = Token(
    image: string, animationUrl: string, name: string, description: string, royaltyPercentage: Royalty,
    tokenId: int, artist: string, minter: string)

  const IpfsScheme := "ipfs://"

  function TokenOf(id: int, cid: string, env: MetadataEnv): (t: Token)
    ensures |cid| > 0 && cid[0] != '/' ==> t.image == IpfsScheme + cid && t.animationUrl == t.image
    ensures t.tokenId == id
    ensures t.name == (if env.collectionName.Some? && env.collectionName.value != "" then env.collectionName.value else "COLLECTION_NAME")
    ensures t.description == (if env.description.Some? && env.description.value != "" then env.description.value else "DESCRIPTION")
    ensures t.artist == (if env.artist.Some? && env.artist.value != "" then env.artist.value else "ARTIST")
    ensures t.minter == (if env.minter.Some? && env.minter.value != "" then env.minter.value else "MINTER")
    ensures t.royaltyPercentage == (if env.royaltyPercentage.Some? && env.royaltyPercentage.value != "" then RoyaltyText(env.royaltyPercentage.value) else RoyaltyZero)
  {
    Token(
      Join(IpfsScheme, cid), Join(IpfsScheme, cid),
      OrDefault(env.collectionName, "COLLECTION_NAME"),
      OrDefault(env.description, "DESCRIPTION"),
      if env.royaltyPercentage.None? || env.royaltyPercentage.value == "" then RoyaltyZero else RoyaltyText(env.royaltyPercentage.value),
      id,
      OrDefault(env.artist, "ARTIST"),
      OrDefault(env.minter, "MINTER"))
  }

  /** `os.path.splitext(file)[0] + '.json'`. */
  function JsonName(file: string): string {
    SplitExt(file).0 + ".json"
  }

  /** The template of `art.png` is `art.json`; a name without a dot just gains `.json`. */
  lemma JsonNameOf(base: string, ext: string)
    requires forall k :: 0 <= k < |base| ==> base[k] != '/' && base[k] != '.'
    requires |base| > 0
    requires |ext| > 0 && ext[0] == '.' && forall k :: 0 < k < |ext| ==> ext[k] != '.' && ext[k] != '/'
    ensures JsonName(base + ext) == base + ".json"
    ensures JsonName(base) == base + ".json"
  {
    assert base[0] != '.';
    SplitExtOfName(base, ext);
    SplitExtJoins(base);
  }

  datatype CidRecord = CidRecord(id: int, cid: string)

  datatype MetadataFile = MetadataFile(path: string, token: Token)

  /** The two products: the `cids.json` list, or one template per file. */
  datatype Prepared = CidsJson(path: string, records: seq<CidRecord>) | Metadata(files: seq<MetadataFile>)

  /** `asyncio.gather` over `cid --cid-version=0 <path>`: `cidOf` gives the tool's output, or
      `None` when it exits with an error and `get_file_cid` raises `RuntimeError`. */
  function Cids(cidOf: string -> Option<string>, dir: string, order: seq<Keyed>): (r: Result<seq<string>, PyError>)
    ensures r.Ok? <==> forall i :: 0 <= i < |order| ==> cidOf(Join(dir, order[i].name)).Some?
    ensures r.Ok? ==> |r.value| == |order| && forall i :: 0 <= i < |order| ==> Some(r.value[i]) == cidOf(Join(dir, order[i].name))
    ensures r.Err? ==> r.error == RuntimeError
  {
    if forall i :: 0 <= i < |order| ==> cidOf(Join(dir, order[i].name)).Some? then
      Ok(seq(|order|, i requires 0 <= i < |order| => cidOf(Join(dir, order[i].name)).value))
    else Err(RuntimeError)
  }

  /** The files to process: the single `--file`, or the files `os.walk` lists first. */
  function InputFiles(cfg: PrepareConfig, walk: string -> seq<string>): seq<string> {
    if cfg.inputFile != "" then [cfg.inputFile] else walk(cfg.inputDir)
  }

  /** `main` over `parse_args` as written, so a bare `--file` name stops with
      `AssertionError`. With no file the unpacking of the empty sorted list raises
      `ValueError`. */
  function Main(a: PrepareArgs, present: string -> bool, walk: string -> seq<string>, cidOf: string -> Option<string>, env: MetadataEnv): (r: Result<Prepared, PyError>)
    ensures ParseArgsAsWritten(a, present).Err? ==> r == Err(ParseArgsAsWritten(a, present).error)
    ensures r.Err? ==> r.error == TypeError || r.error == AssertionError || r.error == ValueError || r.error == RuntimeError
    ensures r.Ok? ==> (r.value.CidsJson? <==> !a.metadata)
    ensures r.Ok? && r.value.CidsJson? ==>
      && r.value.path == "./output/cids.json" && |r.value.records| > 0
      && forall i :: 0 <= i < |r.value.records| ==> r.value.records[i].id > 0
    ensures r.Ok? && r.value.Metadata? ==>
      && |r.value.files| > 0
      && forall i :: 0 <= i < |r.value.files| ==> r.value.files[i].token.tokenId > 0
  {
    var cfg :- ParseArgsAsWritten(a, present);
    var files := InputFiles(cfg, walk);
    if |files| == 0 then Err(ValueError)
    else
      var order := Order(files);
      OrderIdsPositive(files);
      CidsJsonPath();
      var cids :- Cids(cidOf, cfg.inputDir, order);
      if !cfg.metadata then
        Ok(CidsJson(Join(OutputDir, "cids.json"), seq(|order|, i requires 0 <= i < |order| => CidRecord(order[i].id, cids[i]))))
      else
        Ok(Metadata(seq(|order|, i requires 0 <= i < |order| =>
          MetadataFile(Join(MetadataDir, JsonName(order[i].name)), TokenOf(order[i].id, cids[i], env)))))
  }

  /** Every ID in the output order is positive. */
  lemma OrderIdsPositive(files: seq<string>)
    ensures forall i :: 0 <= i < |Order(files)| ==> Order(files)[i].id > 0
  {
    OrderIsSortedPermutation(files);
    forall i | 0 <= i < |Order(files)| ensures Order(files)[i].id > 0 {
      assert Order(files)[i] in Order(files);
    }
  }

  lemma CidsJsonPath()
    ensures Join(OutputDir, "cids.json") == "./output/cids.json"
  {
  }

  /** The run succeeds exactly when every file has a CID, and then it keeps the files in
      `(ID, name)` order. */
  lemma MainSucceeds(a: PrepareArgs, present: string -> bool, walk: string -> seq<string>, cidOf: string -> Option<string>, env: MetadataEnv)
    requires ParseArgsAsWritten(a, present).Ok?
    ensures var cfg := ParseArgsAsWritten(a, present).value;
      var files := InputFiles(cfg, walk);
      var order := Order(files);
      var r := Main(a, present, walk, cidOf, env);
      && (files == [] ==> r == Err(ValueError))
      && (files != [] ==> (r.Ok? <==> forall i :: 0 <= i < |order| ==> cidOf(Join(cfg.inputDir, order[i].name)).Some?))
      && (r.Ok? ==> Sorted(order) && multiset(order) == multiset(Pairs(files)))
  {
    OrderIsSortedPermutation(InputFiles(ParseArgsAsWritten(a, present).value, walk));
  }

  /** Without `--metadata`, `cids.json` holds one record per file in order. */
  lemma MainCidsJson(a: PrepareArgs, present: string -> bool, walk: string -> seq<string>, cidOf: string -> Option<string>, env: MetadataEnv)
    requires ParseArgsAsWritten(a, present).Ok?
    ensures var cfg := ParseArgsAsWritten(a, present).value;
      var files := InputFiles(cfg, walk);
      var order := Order(files);
      var r := Main(a, present, walk, cidOf, env);
      r.Ok? && !cfg.metadata ==>
        && r.value.CidsJson? && r.value.path == "./output/cids.json" && |r.value.records| == |files|
        && forall i :: 0 <= i < |files| ==>
             r.value.records[i].id == order[i].id && Some(r.value.records[i].cid) == cidOf(Join(cfg.inputDir, order[i].name))
  {
    CidsJsonPath();
    var cfg := ParseArgsAsWritten(a, present).value;
    var order := Order(InputFiles(cfg, walk));
    var cids := Cids(cidOf, cfg.inputDir, order);
    if cids.Ok? && !cfg.metadata && |order| > 0 {
      var records := seq(|order|, i requires 0 <= i < |order| => CidRecord(order[i].id, cids.value[i]));
      assert Main(a, present, walk, cidOf, env) == Ok(CidsJson(Join(OutputDir, "cids.json"), records));
    }
  }

  /** With `--metadata`, one template per file in order, named after the file. */
  lemma MainMetadata(a: PrepareArgs, present: string -> bool, walk: string -> seq<string>, cidOf: string -> Option<string>, env: MetadataEnv)
    requires ParseArgsAsWritten(a, present).Ok?
    ensures var cfg := ParseArgsAsWritten(a, present).value;
      var files := InputFiles(cfg, walk);
      var order := Order(files);
      var r := Main(a, present, walk, cidOf, env);
      r.Ok? && cfg.metadata ==>
        && r.value.Metadata? && |r.value.files| == |files|
        && forall i :: 0 <= i < |files| ==>
             && r.value.files[i].path == Join(MetadataDir, JsonName(order[i].name))
             && r.value.files[i].token.tokenId == order[i].id
             && cidOf(Join(cfg.inputDir, order[i].name)).Some?
             && r.value.files[i].token.image == Join(IpfsScheme, cidOf(Join(cfg.inputDir, order[i].name)).value)
  {
    var cfg := ParseArgsAsWritten(a, present).value;
    var order := Order(InputFiles(cfg, walk));
    var cids := Cids(cidOf, cfg.inputDir, order);
    if cids.Ok? && cfg.metadata && |order| > 0 {
      var tokens := seq(|order|, i requires 0 <= i < |order| =>
        MetadataFile(Join(MetadataDir, JsonName(order[i].name)), TokenOf(order[i].id, cids.value[i], env)));
      assert Main(a, present, walk, cidOf, env) == Ok(Metadata(tokens));
    }
  }

  /** What the script writes: one record per file, in `(ID, name)` order, each carrying its
      file's ID and the CID of that file; in metadata mode one template per file named after
      it. No file raises `ValueError`. */
  lemma MainOutputs(a: PrepareArgs, present: string -> bool, walk: string -> seq<string>, cidOf: string -> Option<string>, env: MetadataEnv)
    requires ParseArgsAsWritten(a, present).Ok?
    ensures var cfg := ParseArgsAsWritten(a, present).value;
      var files := InputFiles(cfg, walk);
      var order := Order(files);
      var r := Main(a, present, walk, cidOf, env);
      && (files == [] ==> r == Err(ValueError))
      && (files != [] ==> (r.Ok? <==> forall i :: 0 <= i < |order| ==> cidOf(Join(cfg.inputDir, order[i].name)).Some?))
      && (r.Ok? ==> Sorted(order) && multiset(order) == multiset(Pairs(files)))
      && (r.Ok? && !cfg.metadata ==>
            && r.value.CidsJson? && r.value.path == "./output/cids.json" && |r.value.records| == |files|
            && forall i :: 0 <= i < |files| ==>
                 r.value.records[i].id == order[i].id && Some(r.value.records[i].cid) == cidOf(Join(cfg.inputDir, order[i].name)))
      && (r.Ok? && cfg.metadata ==>
            && r.value.Metadata? && |r.value.files| == |files|
            && forall i :: 0 <= i < |files| ==>
                 && r.value.files[i].path == Join(MetadataDir, JsonName(order[i].name))
                 && r.value.files[i].token.tokenId == order[i].id
                 && cidOf(Join(cfg.inputDir, order[i].name)).Some?
                 && r.value.files[i].token.image == Join(IpfsScheme, cidOf(Join(cfg.inputDir, order[i].name)).value))
  {
    MainSucceeds(a, present, walk, cidOf, env);
    MainCidsJson(a, present, walk, cidOf, env);
    MainMetadata(a, present, walk, cidOf, env);
  }
}

=== FILE: prompt.dfy ===
/**
 * `prompt_yes_no`: the fee-approval question. The default must be `None`, `"yes"` or `"no"`;
 * then lines are read until one decides: a line whose first character is `y` or `Y` answers
 * yes, `n` or `N` answers no, whatever follows; an empty line gives the default when there is
 * one; any other line asks again. Standard input is the list of lines still to be read.
 */
module Prompt {
  import opened Wrappers
  import opened PyText

  /** The answer, and how many lines it took; `EndOfInput` is `input()` raising `EOFError`. */
  datatype Answer = Answered(yes: bool, consumed: nat) | InvalidDefault | EndOfInput

  predicate ValidDefault(d: Option<string>) {
    d.None? || d.value == "yes" || d.value == "no"
  }

  predicate SaysYes(line: string) {
    |line| > 0 && (line[0] == 'y' || line[0] == 'Y')
  }

  predicate SaysNo(line: string) {
    |line| > 0 && (line[0] == 'n' || line[0] == 'N')
  }

  /** A line that ends the questioning. */
  predicate Decisive(d: Option<string>, line: string) {
    SaysYes(line) || SaysNo(line) || (line == "" && d.Some?)
  }

  /** The first character of the lower-cased line, as `s[:1]` compares it. */
  lemma LowerFirst(line: string)
    ensures Take(Lower(line), 1) == "y" <==> SaysYes(line)
    ensures Take(Lower(line), 1) == "n" <==> SaysNo(line)
    ensures Lower(line) == "" <==> line == ""
  {
    if |line| > 0 {
      assert Take(Lower(line), 1) == [LowerChar(line[0])];
    }
  }

  /** `prompt_yes_no(prompt, default)` reading `lines`. */
  function PromptYesNo(d: Option<string>, lines: seq<string>): (r: Answer)
    ensures r.InvalidDefault? <==> !ValidDefault(d)
    ensures r.EndOfInput? <==> ValidDefault(d) && forall j | 0 <= j < |lines| :: !Decisive(d, lines[j])
    ensures r.Answered? ==> 0 < r.consumed <= |lines|
    ensures r.Answered? ==> Decisive(d, lines[r.consumed - 1])
    ensures r.Answered? ==> forall j | 0 <= j < r.consumed - 1 :: !Decisive(d, lines[j])
    ensures r.Answered? ==> (r.yes <==> SaysYes(lines[r.consumed - 1]) || (lines[r.consumed - 1] == "" && d == Some("yes")))
  {
    if !ValidDefault(d) then InvalidDefault else Ask(d, lines, 0)
  }

  /** The `while True` loop from line `i` on. */
  function Ask(d: Option<string>, lines: seq<string>, i: nat): (r: Answer)
    requires ValidDefault(d) && i <= |lines|
    ensures !r.InvalidDefault?
    ensures r.EndOfInput? <==> forall j | i <= j < |lines| :: !Decisive(d, lines[j])
    ensures r.Answered? ==> i < r.consumed <= |lines|
    ensures r.Answered? ==> Decisive(d, lines[r.consumed - 1])
    ensures r.Answered? ==> forall j | i <= j < r.consumed - 1 :: !Decisive(d, lines[j])
    ensures r.Answered? ==> (r.yes <==> SaysYes(lines[r.consumed - 1]) || (lines[r.consumed - 1] == "" && d == Some("yes")))
    decreases |lines| - i
  {
    if i == |lines| then EndOfInput
    else
      var s := Lower(lines[i]);
      LowerFirst(lines[i]);
      if Take(s, 1) == "y" then Answered(true, i + 1)
      else if Take(s, 1) == "n" then Answered(false, i + 1)
      else if s == "" && d.Some? then
        if d.value == "yes" then Answered(true, i + 1)
        else if d.value == "no" then Answered(false, i + 1)
        else Ask(d, lines, i + 1)
      else Ask(d, lines, i + 1)
  }

  /** A line starting with `y` or `n` decides at once, whatever else it holds. */
  lemma FirstLetterDecides(d: Option<string>, line: string, rest: seq<string>)
    requires ValidDefault(d) && (SaysYes(line) || SaysNo(line))
    ensures PromptYesNo(d, [line] + rest) == Answered(SaysYes(line), 1)
  {
  }

  /** With default `"no"`, only a line starting with `y` or `Y` approves. */
  lemma DefaultNoApproval(lines: seq<string>)
    ensures var r := PromptYesNo(Some("no"), lines);
      r.Answered? && r.yes ==> SaysYes(lines[r.consumed - 1])
  {
  }
}

=== FILE: pyint.dfy ===
/**
 * Python's `int(s, base)` for the bases 10 and 16, as CPython's string-to-int conversion reads
 * its argument: surrounding whitespace is skipped, one sign may lead, base 16 accepts an
 * optional `0x`/`0X` prefix that may be followed by one underscore, and single underscores may
 * separate digits. Anything else raises `ValueError`, which is `None` here.
 */
module PyInt {
  import opened Wrappers
  import opened Failures
  import opened PyText

  /** Splits off one leading sign; the flag says whether it was `-`. */
  function SplitSign(t: string): (bool, string) {
    if |t| > 0 && t[0] == '-' then (true, t[1..])
    else if |t| > 0 && t[0] == '+' then (false, t[1..])
    else (false, t)
  }

  /** Splits off the `0x`/`0X` prefix base 16 allows; the flag says whether there was one. */
  function SplitPrefix(u: string, r: Radix): (bool, string) {
    if r == Base16 && |u| >= 2 && u[0] == '0' && (u[1] == 'x' || u[1] == 'X') then (true, u[2..])
    else (false, u)
  }

  /** The digits after the one underscore a prefix may be followed by. */
  function AfterPrefixUnderscore(b: string, prefixed: bool): string {
    if prefixed && |b| > 0 && b[0] == '_' then b[1..] else b
  }

  predicate DigitsOrUnderscores(c: string, r: Radix) {
    forall i :: 0 <= i < |c| ==> IsDigitOf(c[i], r) || c[i] == '_'
  }

  /** CPython's digit scan: a digit first and last, and never two underscores in a row. */
  predicate DigitRun(c: string, r: Radix) {
    && |c| > 0
    && IsDigitOf(c[0], r)
    && IsDigitOf(c[|c| - 1], r)
    && DigitsOrUnderscores(c, r)
    && (forall i | 0 <= i < |c| - 1 :: !DoubleUnderscoreAt(c, i))
  }

  predicate DoubleUnderscoreAt(c: string, i: int)
    requires 0 <= i < |c| - 1
  {
    c[i] == '_' && c[i + 1] == '_'
  }

  predicate AllDigits(c: string, r: Radix) {
    forall i | 0 <= i < |c| :: IsDigitOf(c[i], r)
  }

  /** A non-empty string of plain digits passes the scan. */
  lemma AllDigitsRun(c: string, r: Radix)
    requires |c| > 0 && AllDigits(c, r)
    ensures DigitRun(c, r)
  {
    forall i | 0 <= i < |c| - 1 ensures !DoubleUnderscoreAt(c, i) {
      assert IsDigitOf(c[i], r);
    }
  }

  /** The value of a digit run; underscores contribute nothing. */
  function RunValue(c: string, r: Radix): nat
    requires DigitsOrUnderscores(c, r)
  {
    if |c| == 0 then 0
    else
      var last, init := c[|c| - 1], c[..|c| - 1];
      assert DigitsOrUnderscores(init, r) by {
        forall i | 0 <= i < |init| ensures IsDigitOf(init[i], r) || init[i] == '_' {
          assert init[i] == c[i];
        }
      }
      var front := RunValue(init, r);
      if last == '_' then front
      else Shift(front, r) + DigitValue(last, r)
  }

  /** One digit position further left: `v * base`. */
  function Shift(v: nat, r: Radix): nat {
    if r == Base10 then v * 10 else v * 16
  }

  /** `int(s, 10)` or `int(s, 16)`; `None` where Python raises `ValueError`. */
  function ParseInt(s: string, r: Radix): Option<int> {
    ParseSigned(Strip(s), r)
  }

  /** `int(s, base)` as a call: text it cannot read raises `ValueError` and nothing else.
      Empty text raises; plain digits, `-` and plain digits, and in base 16 `0x` and plain
      digits read as their value; in base 10 the result prints back as `s` exactly when `s`
      is a canonical decimal. */
  function IntOf(s: string, r: Radix): (v: Result<int, PyError>)
    ensures v.Ok? <==> ParseInt(s, r).Some?
    ensures v.Ok? ==> v.value == ParseInt(s, r).value
    ensures v.Err? ==> v.error == ValueError
    ensures s == "" ==> v == Err(ValueError)
    ensures |s| > 0 && AllDigits(s, r) ==> v == Ok(RunValue(s, r) as int)
    ensures |s| > 1 && s[0] == '-' && AllDigits(s[1..], r) ==> v == Ok(-(RunValue(s[1..], r) as int))
    ensures r == Base16 && |s| > 2 && s[..2] == "0x" && AllDigits(s[2..], Base16) ==> v == Ok(RunValue(s[2..], Base16) as int)
    ensures r == Base10 ==> ((v.Ok? && PyStr(v.value) == s) <==> IsCanonicalDecimal(s))
  {
    IntOfFacts(s, r);
    match ParseInt(s, r)
    case None => Err(ValueError)
    case Some(n) => Ok(n)
  }

  /** The stripped text: one optional sign, then the unsigned part. */
  function ParseSigned(t: string, r: Radix): Option<int> {
    var (negative, u) := SplitSign(t);
    match ParseUnsigned(u, r)
    case None => None
    case Some(v) =>
      var w: int := v;
      Some(if negative then -w else w)
  }

  /** The unsigned part: the optional base prefix, then the digit run. */
  function ParseUnsigned(u: string, r: Radix): Option<nat> {
    var (prefixed, body) := SplitPrefix(u, r);
    var c := AfterPrefixUnderscore(body, prefixed);
    if DigitRun(c, r) then Some(RunValue(c, r)) else None
  }

  // ---------------------------------------------------------------------------------------
  // Values of digit strings.

  function Pow(b: nat, e: nat): nat {
    if e == 0 then 1 else Pow(b, e - 1) * b
  }

  lemma Distribute(a: nat, p: nat, b: nat, k: nat)
    ensures (a * p + b) * k == a * (p * k) + b * k
  {
  }

  lemma DigitsOrUnderscoresAppend(a: string, b: string, r: Radix)
    requires DigitsOrUnderscores(a, r) && DigitsOrUnderscores(b, r)
    ensures DigitsOrUnderscores(a + b, r)
  {
    forall i | 0 <= i < |a + b| ensures IsDigitOf((a + b)[i], r) || (a + b)[i] == '_' {
      if i >= |a| {
        assert (a + b)[i] == b[i - |a|];
      }
    }
  }

  /** The value of `a + b` when `b` is all digits: `a`'s value shifted left by `|b|` places. */
  lemma {:induction false} RunValueAppend(a: string, b: string, r: Radix)
    requires DigitsOrUnderscores(a, r)
    requires forall i :: 0 <= i < |b| ==> IsDigitOf(b[i], r)
    ensures DigitsOrUnderscores(a + b, r)
    ensures RunValue(a + b, r) == RunValue(a, r) * Pow(r.Value(), |b|) + RunValue(b, r)
    decreases |b|
  {
    DigitsOrUnderscoresAppend(a, b, r);
    if |b| == 0 {
      assert a + b == a;
    } else {
      var b' := b[..|b| - 1];
      var d := b[|b| - 1];
      assert (a + b)[..|a + b| - 1] == a + b';
      assert (a + b)[|a + b| - 1] == d;
      RunValueAppend(a, b', r);
      var A, P, B := RunValue(a, r), Pow(r.Value(), |b'|), RunValue(b', r);
      assert RunValue(a + b, r) == (A * P + B) * r.Value() + DigitValue(d, r);
      assert RunValue(b, r) == B * r.Value() + DigitValue(d, r);
      Distribute(A, P, B, r.Value());
    }
  }

  lemma {:induction false} ZerosValue(n: nat, r: Radix)
    ensures DigitsOrUnderscores(Zeros(n), r)
    ensures RunValue(Zeros(n), r) == 0
  {
    if n > 0 {
      assert Zeros(n)[..n - 1] == Zeros(n - 1);
      ZerosValue(n - 1, r);
    }
  }

  /** A run of decimal digits has value 0 exactly when every digit is `0`. */
  lemma {:induction false} RunValueZero(d: string)
    requires AllDigits(d, Base10)
    ensures DigitsOrUnderscores(d, Base10)
    ensures RunValue(d, Base10) == 0 <==> forall c :: c in d ==> c == '0'
  {
    if |d| > 0 {
      var init := d[..|d| - 1];
      assert AllDigits(init, Base10) by {
        forall i | 0 <= i < |init| ensures IsDigitOf(init[i], Base10) {
          assert init[i] == d[i];
        }
      }
      RunValueZero(init);
      var last := d[|d| - 1];
      assert IsDigit(last);
      assert d[..|d| - 1] == init;
      assert RunValue(d, Base10) == RunValue(init, Base10) * 10 + DigitValue(last, Base10);
      assert DigitValue(last, Base10) == 0 <==> last == '0';
      assert d == init + [last];
      assert forall c :: c in d <==> c in init || c == last;
      if forall c :: c in d ==> c == '0' {
        assert last in d;
        forall c | c in init ensures c == '0' {
          assert c in d;
        }
      }
    }
  }

  /** Reading back the digits `Numeral` prints gives the number printed. */
  lemma {:induction false} NumeralValue(n: nat, r: Radix)
    ensures DigitsOrUnderscores(Numeral(n, r), r)
    ensures RunValue(Numeral(n, r), r) == n
    decreases n
  {
    NumeralShape(n, r);
    var s := Numeral(n, r);
    if n < r.Value() {
      DigitCharValue(n, r);
    } else {
      var q, m := n / r.Value(), n % r.Value();
      DigitCharValue(m, r);
      NumeralValue(q, r);
      assert s[..|s| - 1] == Numeral(q, r);
    }
  }

  /** Reading a digit string with no leading zero and printing its value gives it back. */
  lemma {:induction false} ValueNumeral(d: string)
    requires |d| > 0 && forall i :: 0 <= i < |d| ==> IsDigit(d[i])
    requires d[0] != '0' || |d| == 1
    ensures DigitsOrUnderscores(d, Base10)
    ensures Numeral(RunValue(d, Base10), Base10) == d
    ensures d[0] != '0' ==> RunValue(d, Base10) > 0
    decreases |d|
  {
    var c := d[|d| - 1];
    LowerHexDigitChar(c);
    if |d| > 1 {
      var d' := d[..|d| - 1];
      ValueNumeral(d');
      var v' := RunValue(d', Base10);
      var v := v' * 10 + DigitValue(c, Base10);
      assert v / 10 == v' && v % 10 == DigitValue(c, Base10);
      assert d' + [c] == d;
    }
  }

  /** Hex digits of bytes read back as the bytes' big-endian value. */
  lemma {:induction false} BytesHexValue(b: seq<Byte>)
    ensures AllDigits(BytesHex(b), Base16)
    ensures RunValue(BytesHex(b), Base16) == BigEndian(b)
    decreases |b|
  {
    BytesHexDigits(b);
    if |b| > 0 {
      var b', x := b[..|b| - 1], b[|b| - 1];
      assert b == b' + [x];
      BytesHexAppend(b', [x]);
      BytesHexValue(b');
      var hi, lo := DigitChar(x / 16), DigitChar(x % 16);
      DigitCharValue(x / 16, Base16);
      DigitCharValue(x % 16, Base16);
      assert BytesHex([x]) == [hi, lo] + BytesHex([]);
      assert RunValue([hi], Base16) == x / 16 by {
        assert [hi][..0] == [];
      }
      assert RunValue([hi, lo], Base16) == x by {
        assert [hi, lo][..1] == [hi];
      }
      RunValueAppend(BytesHex(b'), [hi, lo], Base16);
      assert Pow(16, 2) == 256;
      assert BytesHex(b) == BytesHex(b') + [hi, lo];
      assert b[..|b| - 1] == b';
    }
    forall i | 0 <= i < |BytesHex(b)| ensures IsDigitOf(BytesHex(b)[i], Base16) {
      assert IsLowerHexDigit(BytesHex(b)[i]);
    }
  }

  // ---------------------------------------------------------------------------------------
  // What `int()` does with the strings the scripts feed it.

  /** `int("", base)` raises. */
  lemma ParseEmpty(r: Radix)
    ensures ParseInt("", r) == None
  {
  }

  /** Text with no surrounding whitespace and no sign is read as its unsigned part. */
  lemma ParseBare(s: string, r: Radix)
    requires |s| > 0 && !IsSpace(s[0]) && !IsSpace(s[|s| - 1]) && s[0] != '-' && s[0] != '+'
    ensures ParseInt(s, r) == (if ParseUnsigned(s, r).Some? then Some(ParseUnsigned(s, r).value as int) else None)
  {
    StripUnchanged(s);
    assert SplitSign(s) == (false, s);
  }

  /** A leading `-` negates what the rest parses to. */
  lemma ParseNegated(t: string, r: Radix)
    requires |t| > 0 && !IsSpace(t[|t| - 1]) && t[0] != '-' && t[0] != '+'
    ensures ParseInt("-" + t, r) == (if ParseUnsigned(t, r).Some? then Some(-(ParseUnsigned(t, r).value as int)) else None)
  {
    var s := "-" + t;
    assert s[|s| - 1] == t[|t| - 1];
    StripUnchanged(s);
    assert s[1..] == t;
    assert SplitSign(s) == (true, t);
  }

  /** Plain digits, not starting with `0x`, are read as their digit value. */
  lemma UnsignedPlainDigits(c: string, r: Radix)
    requires |c| > 0 && AllDigits(c, r)
    ensures ParseUnsigned(c, r) == Some(RunValue(c, r))
  {
    assert |c| >= 2 ==> IsDigitOf(c[1], r);
    assert SplitPrefix(c, r) == (false, c);
    AllDigitsRun(c, r);
  }

  /** `0x` followed by plain digits is read, in base 16, as the digits' value. */
  lemma UnsignedPrefixedDigits(c: string)
    requires |c| > 0 && AllDigits(c, Base16)
    ensures ParseUnsigned("0x" + c, Base16) == Some(RunValue(c, Base16))
  {
    var u := "0x" + c;
    assert u[2..] == c;
    assert SplitPrefix(u, Base16) == (true, c);
    assert AfterPrefixUnderscore(c, true) == c;
    AllDigitsRun(c, Base16);
  }

  /** A string of plain digits, with nothing around it, parses to its digit value. */
  lemma ParsePlainDigits(c: string, r: Radix)
    requires |c| > 0 && AllDigits(c, r)
    ensures ParseInt(c, r) == Some(RunValue(c, r) as int)
  {
    UnsignedPlainDigits(c, r);
    ParseBare(c, r);
  }

  /** `int(b.hex(), 16)` is the big-endian value of `b`, and raises for an empty `b`. */
  lemma {:induction false} ParseBytesHex(b: seq<Byte>)
    ensures |b| == 0 ==> ParseInt(BytesHex(b), Base16) == None
    ensures |b| > 0 ==> ParseInt(BytesHex(b), Base16) == Some(BigEndian(b) as int)
  {
    BytesHexLength(b);
    BytesHexValue(b);
    if |b| > 0 {
      ParsePlainDigits(BytesHex(b), Base16);
    }
  }

  /** `'0x' + digits` parses in base 16 to the digits' value. */
  lemma ParsePrefixedDigits(c: string)
    requires |c| > 0 && AllDigits(c, Base16)
    ensures ParseInt("0x" + c, Base16) == Some(RunValue(c, Base16) as int)
  {
    var s := "0x" + c;
    assert s[0] == '0' && s[|s| - 1] == c[|c| - 1];
    UnsignedPrefixedDigits(c);
    ParseBare(s, Base16);
  }

  /** The unsigned part of `hex(n)` reads back as `n`. */
  lemma UnsignedPyHex(n: nat)
    ensures |PyHex(n)| > 2 && PyHex(n)[0] == '0' && IsDigitOf(PyHex(n)[|PyHex(n)| - 1], Base16)
    ensures ParseUnsigned(PyHex(n), Base16) == Some(n)
  {
    var c := Numeral(n, Base16);
    NumeralShape(n, Base16);
    NumeralValue(n, Base16);
    assert PyHex(n) == "0x" + c;
    assert PyHex(n)[|PyHex(n)| - 1] == c[|c| - 1];
    UnsignedPrefixedDigits(c);
  }

  /** `int(hex(v), 16) == v`: base 16 accepts the `0x` prefix `hex` prints. */
  lemma ParsePyHex(v: int)
    ensures ParseInt(PyHex(v), Base16) == Some(v)
  {
    if v < 0 {
      ParseNegativeHex(v);
    } else {
      UnsignedPyHex(v);
      ParseBare(PyHex(v), Base16);
    }
  }

  lemma ParseNegativeHex(v: int)
    requires v < 0
    ensures ParseInt(PyHex(v), Base16) == Some(v)
  {
    var t := PyHex(-v);
    UnsignedPyHex(-v);
    assert t[0] == '0';
    assert !IsSpace(t[|t| - 1]) by {
      var c := t[|t| - 1];
      assert IsDigitOf(c, Base16);
    }
    assert PyHex(v) == "-" + t;
    calc {
      ParseInt(PyHex(v), Base16);
    ==
      ParseInt("-" + t, Base16);
    == { ParseNegated(t, Base16); }
      Some(-(ParseUnsigned(t, Base16).value as int));
    }
  }

  /** `int('0x' + '{:0Nx}'.format(v, N), 16) == v` for `v >= 0`: zero padding adds no value. */
  lemma ParsePaddedHex(v: nat, width: nat)
    ensures ParseInt("0x" + FormatHex(v, width), Base16) == Some(v)
  {
    var digits := Numeral(v, Base16);
    NumeralShape(v, Base16);
    NumeralValue(v, Base16);
    var pad := if |digits| < width then width - |digits| else 0;
    var body := FormatHex(v, width);
    assert body == Zeros(pad) + digits;
    ZerosValue(pad, Base16);
    RunValueAppend(Zeros(pad), digits, Base16);
    assert AllDigits(body, Base16) by {
      forall i | 0 <= i < |body| ensures IsDigitOf(body[i], Base16) {
        if i >= pad {
          assert body[i] == digits[i - pad];
        }
      }
    }
    ParsePrefixedDigits(body);
  }

  /** The text `str(int(s, 10)) == s` accepts: an optional `-`, then digits with no leading
      zero, and never `-0`. */
  predicate IsCanonicalDecimal(s: string) {
    var d := if |s| > 0 && s[0] == '-' then s[1..] else s;
    && |d| > 0
    && (forall i | 0 <= i < |d| :: IsDigit(d[i]))
    && (d[0] != '0' || (|d| == 1 && d == s))
  }

  /** A canonical decimal starts with a digit or a minus sign and ends with a digit. */
  lemma CanonicalDecimalEnds(s: string)
    requires IsCanonicalDecimal(s)
    ensures |s| > 0 && (IsDigit(s[0]) || s[0] == '-') && IsDigit(s[|s| - 1])
  {
    var d := if |s| > 0 && s[0] == '-' then s[1..] else s;
    assert IsDigit(d[|d| - 1]);
    assert d[|d| - 1] == s[|s| - 1];
  }

  /** Digits with no leading zero (or the single digit 0) read back and print as themselves. */
  lemma CanonicalDigitsParse(d: string)
    requires |d| > 0 && AllDigits(d, Base10) && (d[0] != '0' || |d| == 1)
    ensures ParseUnsigned(d, Base10).Some?
    ensures Numeral(ParseUnsigned(d, Base10).value, Base10) == d
    ensures d[0] != '0' ==> ParseUnsigned(d, Base10).value > 0
  {
    UnsignedPlainDigits(d, Base10);
    ValueNumeral(d);
  }

  lemma CanonicalDecimalParses(s: string)
    requires IsCanonicalDecimal(s)
    ensures ParseInt(s, Base10).Some? && PyStr(ParseInt(s, Base10).value) == s
  {
    if s[0] == '-' {
      var d := s[1..];
      assert AllDigits(d, Base10) && d[0] != '0';
      CanonicalDigitsParse(d);
      assert IsDigit(d[|d| - 1]) && d[0] != '-' && d[0] != '+';
      assert s == "-" + d;
      ParseNegated(d, Base10);
    } else {
      assert AllDigits(s, Base10);
      CanonicalDigitsParse(s);
      assert IsDigit(s[0]) && IsDigit(s[|s| - 1]);
      ParseBare(s, Base10);
    }
  }

  lemma PyStrIsCanonical(v: int)
    ensures IsCanonicalDecimal(PyStr(v))
  {
    var n := if v < 0 then -v else v;
    NumeralShape(n, Base10);
    if v < 0 {
      assert PyStr(v)[1..] == Numeral(n, Base10);
    }
  }

  /** Both directions of the canonical-decimal test `str(int(s, 10)) == s`. */
  lemma DecimalRoundTripIff(s: string)
    ensures (ParseInt(s, Base10).Some? && PyStr(ParseInt(s, Base10).value) == s) <==> IsCanonicalDecimal(s)
  {
    if IsCanonicalDecimal(s) {
      CanonicalDecimalParses(s);
    }
    if ParseInt(s, Base10).Some? && PyStr(ParseInt(s, Base10).value) == s {
      PyStrIsCanonical(ParseInt(s, Base10).value);
    }
  }

  /** The readings `int()` gives the shapes of text the scripts pass it. */
  lemma IntOfFacts(s: string, r: Radix)
    ensures s == "" ==> ParseInt(s, r) == None
    ensures |s| > 0 && AllDigits(s, r) ==> ParseInt(s, r) == Some(RunValue(s, r) as int)
    ensures |s| > 1 && s[0] == '-' && AllDigits(s[1..], r) ==> ParseInt(s, r) == Some(-(RunValue(s[1..], r) as int))
    ensures r == Base16 && |s| > 2 && s[..2] == "0x" && AllDigits(s[2..], Base16) ==> ParseInt(s, r) == Some(RunValue(s[2..], Base16) as int)
    ensures r == Base10 ==> ((ParseInt(s, r).Some? && PyStr(ParseInt(s, r).value) == s) <==> IsCanonicalDecimal(s))
  {
    ParseEmpty(r);
    if |s| > 0 && AllDigits(s, r) {
      ParsePlainDigits(s, r);
    }
    if |s| > 1 && s[0] == '-' && AllDigits(s[1..], r) {
      var t := s[1..];
      assert IsDigitOf(t[0], r) && IsDigitOf(t[|t| - 1], r);
      UnsignedPlainDigits(t, r);
      assert s == "-" + t;
      ParseNegated(t, r);
    }
    if r == Base16 && |s| > 2 && s[..2] == "0x" && AllDigits(s[2..], Base16) {
      assert s == "0x" + s[2..];
      ParsePrefixedDigits(s[2..]);
    }
    if r == Base10 {
      DecimalRoundTripIff(s);
    }
  }

  /** `int(str(v)) == v`. */
  lemma ParsePyStr(v: int)
    ensures ParseInt(PyStr(v), Base10) == Some(v)
  {
    PyStrIsCanonical(v);
    CanonicalDecimalParses(PyStr(v));
    var w := ParseInt(PyStr(v), Base10).value;
    PyStrInjective(w, v);
  }

  lemma PyStrInjective(a: int, b: int)
    requires PyStr(a) == PyStr(b)
    ensures a == b
  {
    var na, nb := if a < 0 then -a else a, if b < 0 then -b else b;
    NumeralShape(na, Base10);
    NumeralShape(nb, Base10);
    NumeralValue(na, Base10);
    NumeralValue(nb, Base10);
    if a < 0 {
      assert PyStr(a)[1..] == Numeral(na, Base10);
    }
    if b < 0 {
      assert PyStr(b)[1..] == Numeral(nb, Base10);
    }
  }

  /** `int(getenv(name))`: an unset variable is `int(None)`, which raises `TypeError`. */
  function EnvInt(v: Option<string>): (r: Result<int, PyError>)
    ensures r.Ok? <==> v.Some? && ParseInt(v.value, Base10).Some?
    ensures r.Ok? ==> r.value == ParseInt(v.value, Base10).value
    ensures v.None? ==> r == Err(TypeError)
    ensures v.Some? && r.Err? ==> r.error == ValueError
  {
    match v
    case None => Err(TypeError)
    case Some(s) => IntOf(s, Base10)
  }
}

=== FILE: pytext.dfy ===
/**
 * The pieces of Python's `str` behaviour the scripts rely on: slicing with clamped bounds,
 * `strip`, ASCII `lower`, `str(int)`, `hex(int)`, the `'{:0Nx}'` format and `bytes.hex()`.
 * Characters are treated as ASCII: Unicode case folding and Unicode whitespace are not modelled.
 */
module PyText {
  import opened Wrappers

  type Byte = x: int | 0 <= x < 256

  /** The two bases the scripts pass to `int(s, base)`. */
  datatype Radix = Base10 | Base16 {
    function Value(): nat {
      if Base10? then 10 else 16
    }
  }

  predicate IsDigit(c: char) {
    '0' <= c <= '9'
  }

  predicate IsLowerHexDigit(c: char) {
    IsDigit(c) || 'a' <= c <= 'f'
  }

  /** A digit of the given base, in either case, as `int(s, base)` accepts it. */
  predicate IsDigitOf(c: char, r: Radix) {
    IsDigit(c) || (r == Base16 && ('a' <= c <= 'f' || 'A' <= c <= 'F'))
  }

  function DigitValue(c: char, r: Radix): (d: nat)
    requires IsDigitOf(c, r)
    ensures d < r.Value()
  {
    if IsDigit(c) then c as int - '0' as int
    else if 'a' <= c <= 'f' then c as int - 'a' as int + 10
    else c as int - 'A' as int + 10
  }

  /** The lower-case digit Python prints for `d`. */
  function DigitChar(d: nat): (c: char)
    requires d < 16
    ensures IsLowerHexDigit(c)
  {
    if d < 10 then ('0' as int + d) as char else ('a' as int + d - 10) as char
  }

  lemma DigitCharValue(d: nat, r: Radix)
    requires d < r.Value()
    ensures IsDigitOf(DigitChar(d), r) && DigitValue(DigitChar(d), r) == d
  {
  }

  lemma LowerHexDigitChar(c: char)
    requires IsLowerHexDigit(c)
    ensures IsDigitOf(c, Base16) && DigitChar(DigitValue(c, Base16)) == c
  {
  }

  /** The ASCII characters `str.isspace` and `int()` treat as whitespace: space, tab, the
      line and form feeds, carriage return, and the separators 0x1c to 0x1f. */
  predicate IsSpace(c: char) {
    c == ' ' || c == '\t' || c == '\n' || c == '\r' || c as int == 11 || c as int == 12 || 28 <= c as int <= 31
  }

  function TrimLeft(s: string): string
  {
    if |s| > 0 && IsSpace(s[0]) then TrimLeft(s[1..]) else s
  }

  function TrimRight(s: string): string
  {
    if |s| > 0 && IsSpace(s[|s| - 1]) then TrimRight(s[..|s| - 1]) else s
  }

  /** `s.strip()`. */
  function Strip(s: string): string {
    TrimRight(TrimLeft(s))
  }

  lemma StripUnchanged(s: string)
    requires |s| > 0 && !IsSpace(s[0]) && !IsSpace(s[|s| - 1])
    ensures Strip(s) == s
  {
  }

  function LowerChar(c: char): char {
    if 'A' <= c <= 'Z' then (c as int + 32) as char else c
  }

  /** `s.lower()` on ASCII text. */
  function Lower(s: string): string {
    seq(|s|, i requires 0 <= i < |s| => LowerChar(s[i]))
  }

  /** `s[:n]` for `n >= 0`. */
  function Take<T>(s: seq<T>, n: nat): seq<T> {
    if n <= |s| then s[..n] else s
  }

  /** `s[n:]` for `n >= 0`. */
  function Drop<T>(s: seq<T>, n: nat): seq<T> {
    if n <= |s| then s[n..] else []
  }

  /** `s[i:j]` for `0 <= i` and `0 <= j`. */
  function Slice<T>(s: seq<T>, i: nat, j: nat): seq<T> {
    Drop(Take(s, j), i)
  }

  /** `s[-n:]` for `n > 0`. */
  function TakeLast<T>(s: seq<T>, n: nat): seq<T> {
    if n <= |s| then s[|s| - n..] else s
  }

  predicate StartsWith<T(==)>(s: seq<T>, p: seq<T>) {
    |p| <= |s| && s[..|p|] == p
  }

  predicate EndsWith<T(==)>(s: seq<T>, p: seq<T>) {
    |p| <= |s| && s[|s| - |p|..] == p
  }

  /** `s[:n] == p` is the same test as "s starts with p" whenever `|p| == n`. */
  lemma TakeIsPrefix<T>(s: seq<T>, p: seq<T>)
    ensures Take(s, |p|) == p <==> StartsWith(s, p)
  {
  }

  /** `s[-n:] == p` is the same test as "s ends with p" whenever `|p| == n`. */
  lemma TakeLastIsSuffix<T>(s: seq<T>, p: seq<T>)
    requires |p| > 0
    ensures TakeLast(s, |p|) == p <==> EndsWith(s, p)
  {
  }

  /** The digits of `n` in base `r`, most significant first, with no leading zero. */
  function Numeral(n: nat, r: Radix): string
    decreases n
  {
    if n < r.Value() then [DigitChar(n)] else Numeral(n / r.Value(), r) + [DigitChar(n % r.Value())]
  }

  /** `str(v)` for an int. */
  function PyStr(v: int): string {
    if v < 0 then "-" + Numeral(-v, Base10) else Numeral(v, Base10)
  }

  /** `hex(v)`. */
  function PyHex(v: int): string {
    if v < 0 then "-" + ("0x" + Numeral(-v, Base16)) else "0x" + Numeral(v, Base16)
  }

  function Zeros(n: nat): string {
    seq(n, _ => '0')
  }

  /** Left-pads with '0' up to `width` characters; longer strings are kept whole. */
  function ZeroPad(s: string, width: nat): string {
    if |s| < width then Zeros(width - |s|) + s else s
  }

  /** `'{0:0{1}x}'.format(v, width)`: sign first, then zero padding up to `width` in all. */
  function FormatHex(v: int, width: nat): string {
    if v < 0 then "-" + ZeroPad(Numeral(-v, Base16), if width > 0 then width - 1 else 0)
    else ZeroPad(Numeral(v, Base16), width)
  }

  /** `bytes.hex()`: two lower-case hex digits per byte. */
  function BytesHex(b: seq<Byte>): string {
    if |b| == 0 then [] else [DigitChar(b[0] / 16), DigitChar(b[0] % 16)] + BytesHex(b[1..])
  }

  /** The unsigned big-endian value of a byte string. */
  function BigEndian(b: seq<Byte>): nat {
    if |b| == 0 then 0 else BigEndian(b[..|b| - 1]) * 256 + b[|b| - 1]
  }

  /** `bytes.fromhex` restricted to the lower-case form `bytes.hex()` produces. */
  function HexToBytes(s: string): Option<seq<Byte>>
    decreases |s|
  {
    if |s| == 0 then Some([])
    else if |s| == 1 || !IsLowerHexDigit(s[0]) || !IsLowerHexDigit(s[1]) then None
    else
      match HexToBytes(s[2..])
      case None => None
      case Some(rest) => Some([DigitValue(s[0], Base16) * 16 + DigitValue(s[1], Base16)] + rest)
  }

  /** `''.join(filter(str.isdigit, s))` on ASCII text. */
  function DigitsOf(s: string): (d: string)
    ensures forall i :: 0 <= i < |d| ==> IsDigit(d[i])
  {
    if |s| == 0 then [] else (if IsDigit(s[0]) then [s[0]] else []) + DigitsOf(s[1..])
  }

  // ---------------------------------------------------------------------------------------
  // Facts about the printers.

  /** `str`/`hex` digits: non-empty, digits of the base, and no leading zero except for 0. */
  lemma {:induction false} NumeralShape(n: nat, r: Radix)
    ensures |Numeral(n, r)| > 0
    ensures forall i :: 0 <= i < |Numeral(n, r)| ==> IsDigitOf(Numeral(n, r)[i], r)
    ensures forall i :: 0 <= i < |Numeral(n, r)| ==> IsLowerHexDigit(Numeral(n, r)[i])
    ensures Numeral(n, r)[0] == '0' <==> n == 0
    ensures n == 0 ==> Numeral(n, r) == "0"
    decreases n
  {
    DigitCharValue(n % r.Value(), r);
    if n >= r.Value() {
      NumeralShape(n / r.Value(), r);
    } else {
      DigitCharValue(n, r);
    }
  }

  lemma {:induction false} BytesHexLength(b: seq<Byte>)
    ensures |BytesHex(b)| == 2 * |b|
  {
    if |b| > 0 {
      BytesHexLength(b[1..]);
    }
  }

  lemma {:induction false} BytesHexDigits(b: seq<Byte>)
    ensures forall i :: 0 <= i < |BytesHex(b)| ==> IsLowerHexDigit(BytesHex(b)[i])
  {
    if |b| > 0 {
      BytesHexDigits(b[1..]);
    }
  }

  lemma {:induction false} BytesHexAppend(a: seq<Byte>, b: seq<Byte>)
    ensures BytesHex(a + b) == BytesHex(a) + BytesHex(b)
  {
    if |a| == 0 {
      assert a + b == b;
    } else {
      assert (a + b)[1..] == a[1..] + b;
      BytesHexAppend(a[1..], b);
    }
  }

  /** Slicing the hex text at an even offset is the hex text of the byte slice. */
  lemma BytesHexSlice(b: seq<Byte>, k: nat)
    ensures Drop(BytesHex(b), 2 * k) == BytesHex(Drop(b, k))
    ensures Take(BytesHex(b), 2 * k) == BytesHex(Take(b, k))
  {
    BytesHexLength(b);
    if k <= |b| {
      assert b == b[..k] + b[k..];
      BytesHexAppend(b[..k], b[k..]);
      BytesHexLength(b[..k]);
    } else {
      BytesHexLength(b);
    }
  }

  /** `bytes.fromhex(b.hex()) == b`. */
  lemma {:induction false} HexToBytesRoundTrip(b: seq<Byte>)
    ensures HexToBytes(BytesHex(b)) == Some(b)
  {
    if |b| > 0 {
      var s := BytesHex(b);
      var hi, lo := b[0] / 16, b[0] % 16;
      DigitCharValue(hi, Base16);
      DigitCharValue(lo, Base16);
      assert s[2..] == BytesHex(b[1..]);
      HexToBytesRoundTrip(b[1..]);
      assert [b[0]] + b[1..] == b;
    }
  }

  /** Filtering a string of digits keeps all of it. */
  lemma {:induction false} DigitsOfDigits(s: string)
    requires forall i :: 0 <= i < |s| ==> IsDigit(s[i])
    ensures DigitsOf(s) == s
  {
    if |s| > 0 {
      DigitsOfDigits(s[1..]);
      assert [s[0]] + s[1..] == s;
    }
  }

  /** The digit filter works piecewise. */
  lemma {:induction false} DigitsOfAppend(a: string, b: string)
    ensures DigitsOf(a + b) == DigitsOf(a) + DigitsOf(b)
    decreases |a|
  {
    if |a| > 0 {
      DigitsOfAppend(a[1..], b);
      assert (a + b)[1..] == a[1..] + b;
    } else {
      assert a + b == b;
    }
  }

  /** The digit filter keeps exactly the digits. */
  lemma {:induction false} DigitsOfMembers(s: string)
    ensures forall c :: c in DigitsOf(s) <==> c in s && IsDigit(c)
  {
    if |s| > 0 {
      DigitsOfMembers(s[1..]);
      assert s == [s[0]] + s[1..];
    }
  }

  /** Trimming the right end never cuts into a prefix that ends in a non-space. */
  lemma {:induction false} TrimRightKeepsPrefix(s: string, p: string)
    requires StartsWith(s, p) && |p| > 0 && !IsSpace(p[|p| - 1])
    ensures StartsWith(TrimRight(s), p)
    decreases |s|
  {
    if |s| > 0 && IsSpace(s[|s| - 1]) {
      assert |s| > |p|;
      TrimRightKeepsPrefix(s[..|s| - 1], p);
    }
  }

  /** Trimming the left end never cuts into a suffix that starts with a non-space. */
  lemma {:induction false} TrimLeftKeepsSuffix(s: string, p: string)
    requires EndsWith(s, p) && |p| > 0 && !IsSpace(p[0])
    ensures EndsWith(TrimLeft(s), p)
    decreases |s|
  {
    if |s| > 0 && IsSpace(s[0]) {
      assert |s| > |p|;
      assert s[1..][|s| - 1 - |p|..] == s[|s| - |p|..];
      TrimLeftKeepsSuffix(s[1..], p);
    }
  }

  /** `s.strip()` keeps a prefix or a suffix whose end characters are not spaces. */
  lemma StripKeepsEnds(s: string, p: string)
    requires |p| > 0 && !IsSpace(p[0]) && !IsSpace(p[|p| - 1])
    ensures StartsWith(s, p) ==> StartsWith(Strip(s), p)
    ensures EndsWith(s, p) ==> EndsWith(Strip(s), p)
  {
    if StartsWith(s, p) {
      assert TrimLeft(s) == s;
      TrimRightKeepsPrefix(s, p);
    }
    if EndsWith(s, p) {
      assert TrimRight(s) == s;
      TrimLeftKeepsSuffix(s, p);
      assert Strip(s) == TrimLeft(s);
    }
  }

  /** ASCII lower-casing is idempotent. */
  lemma LowerTwice(s: string)
    ensures Lower(Lower(s)) == Lower(s)
  {
  }
}

=== FILE: records.dfy ===
/** The exchange's records as the scripts read them, and the fee-token table. */
module Records {
  import opened Wrappers
  import opened Failures

  /** The order expiry every script signs with. */
  const ValidUntil := 1700000000

  /** The NFT factory contract the token addresses are computed against. */
  const NftFactory := "0xc852aC7aAe4b0f0a0Deb9e8A391ebA2047d80026"

  /** The exchange contract whose address is the first signed input. */
  const ExchangeAddress := "0x0BABA1Ad5bE3a5C0a66E7ac838a129Bf948f1eA4"

  /** The next storage slot; only `offchainId` is signed. */
  datatype StorageId = StorageId(orderId: int, offchainId: int)

  /** One fee quote: token symbol, fee in the token's smallest unit as decimal text, discount. */
  datatype Fee = Fee(token: string, fee: string, discount: real)

  /** Fee quotes indexed by fee token id. */
  datatype OffchainFee = OffchainFee(gasPrice: string, fees: seq<Fee>)

  datatype CounterFactualNftInfo = CounterFactualNftInfo(nftOwner: string, nftFactory: string, nftBaseUri: string)

  datatype CounterFactualNft = CounterFactualNft(tokenAddress: string)

  /** What `get_offchain_parameters` gathers, with the quote for the fee token. */
  datatype OffchainParams = OffchainParams(storage: StorageId, info: CounterFactualNftInfo, token: CounterFactualNft, fee: OffchainFee, quote: Fee)

  /** `token_decimals`. */
  const TokenDecimals: map<string, nat> := map["ETH" := 18, "LRC" := 18, "USDT" := 6, "DAI" := 18, "USDC" := 6]

  /** `id in range(len(token_decimals))`, the fee-token test of the transfer script. */
  predicate ValidFeeTokenId(id: int) {
    0 <= id < |TokenDecimals|
  }

  /** Five symbols, so the valid fee token ids are 0 to 4. */
  lemma TokenDecimalsTable()
    ensures TokenDecimals.Keys == {"ETH", "LRC", "USDT", "DAI", "USDC"}
    ensures |TokenDecimals| == 5
    ensures forall s | s in TokenDecimals :: TokenDecimals[s] == 18 || TokenDecimals[s] == 6
    ensures forall id :: ValidFeeTokenId(id) <==> 0 <= id <= 4
  {
  }

  /** `s[i]` on a Python list: negative indices count from the end. */
  function PyIndex<T>(s: seq<T>, i: int): (r: Result<T, PyError>)
    ensures r.Ok? <==> -|s| <= i < |s|
    ensures 0 <= i < |s| ==> r == Ok(s[i])
    ensures -|s| <= i < 0 ==> r == Ok(s[|s| + i])
  {
    if 0 <= i < |s| then Ok(s[i])
    else if -|s| <= i < 0 then Ok(s[|s| + i])
    else Err(IndexError)
  }

  /** A negative index names the same element as its non-negative counterpart. */
  lemma PyIndexAlias<T>(s: seq<T>, i: int)
    requires 0 <= i < |s|
    ensures PyIndex(s, i - |s|) == PyIndex(s, i)
  {
  }

  /** `off_chain_fee['fees'][tokenId]`. */
  function FeeQuote(f: OffchainFee, tokenId: int): Result<Fee, PyError> {
    PyIndex(f.fees, tokenId)
  }
}

=== FILE: retry.dfy ===
/**
 * `retry_async`: await a coroutine under a timeout up to `retries` times. The first attempt
 * that does not time out decides: its value is returned, whatever it is, or its exception
 * escapes. When every attempt times out the loop ends and the coroutine returns `None`.
 * Each attempt's fate is a parameter, since timing is outside the model.
 */
module Retry {
  import opened Failures

  /** One awaited attempt: it returned, hit the timeout, or raised something else. */
  datatype Attempt<T> = Completed(value: T) | TimedOut | Raised(error: PyError)

  /** The result and the number of attempts made; `GaveUp` is the `None` after the loop. */
  datatype Retried<T> = Returned(value: T, attempts: nat) | GaveUp(attempts: nat) | Propagated(error: PyError, attempts: nat)

  function Bound(retries: int): nat {
    if retries > 0 then retries else 0
  }

  /** `await retry_async(coro, retries=retries)`, where `attempt(k)` is the fate of attempt `k`. */
  function RetryAsync<T>(attempt: nat -> Attempt<T>, retries: int): (r: Retried<T>)
    ensures r.attempts <= Bound(retries)
    ensures r.Returned? ==> r.attempts >= 1 && attempt(r.attempts - 1) == Completed(r.value)
    ensures r.Propagated? ==> r.attempts >= 1 && attempt(r.attempts - 1) == Raised(r.error)
    ensures r.GaveUp? ==> r.attempts == Bound(retries)
    ensures forall k | 0 <= k < r.attempts && (r.GaveUp? || k < r.attempts - 1) :: attempt(k).TimedOut?
  {
    RetryFrom(attempt, retries, 0)
  }

  /** The loop from attempt `k` on, every earlier attempt having timed out. */
  function RetryFrom<T>(attempt: nat -> Attempt<T>, retries: int, k: nat): (r: Retried<T>)
    requires k <= Bound(retries)
    ensures k <= r.attempts <= Bound(retries)
    ensures r.Returned? ==> r.attempts > k && attempt(r.attempts - 1) == Completed(r.value)
    ensures r.Propagated? ==> r.attempts > k && attempt(r.attempts - 1) == Raised(r.error)
    ensures r.GaveUp? ==> r.attempts == Bound(retries)
    ensures forall j | k <= j < r.attempts && (r.GaveUp? || j < r.attempts - 1) :: attempt(j).TimedOut?
    decreases Bound(retries) - k
  {
    if k == Bound(retries) then GaveUp(k)
    else match attempt(k)
      case Completed(v) => Returned(v, k + 1)
      case Raised(e) => Propagated(e, k + 1)
      case TimedOut => RetryFrom(attempt, retries, k + 1)
  }

  /** With no retries allowed nothing is attempted and the result is `None`. */
  lemma NoRetries<T>(attempt: nat -> Attempt<T>, retries: int)
    requires retries <= 0
    ensures RetryAsync(attempt, retries) == GaveUp(0)
  {
  }

  /** The result is decided by the first attempt that does not time out, if it comes in time. */
  lemma FirstDecides<T>(attempt: nat -> Attempt<T>, retries: int, k: nat)
    requires k < Bound(retries) && !attempt(k).TimedOut?
    requires forall j | 0 <= j < k :: attempt(j).TimedOut?
    ensures RetryAsync(attempt, retries).attempts == k + 1
    ensures attempt(k).Completed? ==> RetryAsync(attempt, retries) == Returned(attempt(k).value, k + 1)
    ensures attempt(k).Raised? ==> RetryAsync(attempt, retries) == Propagated(attempt(k).error, k + 1)
  {
  }
}

=== FILE: signhelpers.dfy ===
/**
 * The EdDSA sign helpers: each one fixes a Poseidon parameter set and a maximum input count,
 * and cuts its input list down to that count before hashing or signing. Poseidon hashing and
 * EdDSA signing themselves belong to an external library and are parameters here.
 */
module SignHelpers {
  import opened Wrappers
  import opened PyText

  datatype SignHelper = NftDataHelper | NftHelper | NftTransferHelper

  /** The arguments the helper passes to `poseidon_params` besides the field modulus and seed. */
  datatype PoseidonParams = PoseidonParams(t: nat, fullRounds: nat, partialRounds: nat)

  /** `MAX_INPUTS`; the transfer helper is not defined alongside the other two, so it is
      taken to keep every input. */
  function MaxInputs(h: SignHelper): (m: Option<nat>)
    ensures h.NftTransferHelper? <==> m.None?
    ensures h.NftDataHelper? ==> m == Some(6)
    ensures h.NftHelper? ==> m == Some(9)
  {
    match h
    case NftDataHelper => Some(6)
    case NftHelper => Some(9)
    case NftTransferHelper => None
  }

  /** The parameter sets of the two helpers whose definitions are known: `t` is one more
      than the input count, with 6 full rounds and 52 or 53 partial rounds. */
  function Params(h: SignHelper): (p: Option<PoseidonParams>)
    ensures p.Some? <==> MaxInputs(h).Some?
    ensures p.Some? ==> p.value.t == MaxInputs(h).value + 1 && p.value.fullRounds == 6
  {
    match h
    case NftDataHelper => Some(PoseidonParams(7, 6, 52))
    case NftHelper => Some(PoseidonParams(10, 6, 53))
    case NftTransferHelper => None
  }

  /** `serialize_data`: the inputs as ints, cut to `MAX_INPUTS`. */
  function Serialize(h: SignHelper, inputs: seq<int>): (r: seq<int>)
    ensures MaxInputs(h).Some? ==> |r| == if |inputs| < MaxInputs(h).value then |inputs| else MaxInputs(h).value
    ensures MaxInputs(h).None? ==> r == inputs
    ensures forall i | 0 <= i < |r| :: i < |inputs| && r[i] == inputs[i]
  {
    match MaxInputs(h)
    case None => inputs
    case Some(m) => Take(inputs, m)
  }

  /** Inputs past `MAX_INPUTS` never reach the hash. */
  lemma SerializeIgnoresExtra(h: SignHelper, a: seq<int>, b: seq<int>)
    requires MaxInputs(h).Some? && |a| >= MaxInputs(h).value
    ensures Serialize(h, a + b) == Serialize(h, a)
  {
    var m := MaxInputs(h).value;
    assert (a + b)[..m] == a[..m];
  }

  /** A list no longer than `MAX_INPUTS` is hashed whole. */
  lemma SerializeKeepsShort(h: SignHelper, inputs: seq<int>)
    requires MaxInputs(h).None? || |inputs| <= MaxInputs(h).value
    ensures Serialize(h, inputs) == inputs
  {
  }

  /** The external primitives: Poseidon hashing and EdDSA signing of a serialized input list. */
  datatype Crypto = Crypto(
    poseidon: (SignHelper, seq<int>) -> int,
    eddsa: (SignHelper, string, seq<int>) -> string,
    base58: string -> Option<seq<Byte>>)

  /** `helper.hash(inputs)`. */
  function Hash(c: Crypto, h: SignHelper, inputs: seq<int>): int {
    c.poseidon(h, Serialize(h, inputs))
  }

  /** `helper.sign(inputs)` with the given private key. */
  function Sign(c: Crypto, h: SignHelper, key: string, inputs: seq<int>): string {
    c.eddsa(h, key, Serialize(h, inputs))
  }
}

=== FILE: transfer.dfy ===
/**
 * `transfer.py`: send copies of one NFT to a list of recipients. The configuration resolves
 * the sender with a bounded retry and pads a decimal private key to 64 hex digits; the
 * recipient list is filtered; the API key, the NFT and the fee parameters are fetched once;
 * one fee prompt guards the batch; and each transfer is signed with the current storage id,
 * which moves on by 2 after every successful transfer. Account lookups, the exchange and the
 * signature primitive are parameters.
 */
module Transfer {
  import opened Wrappers
  import opened Failures
  import opened PyText
  import opened PyInt
  import opened Records
  import opened Exchange
  import opened SignHelpers
  import opened Payloads
  import opened Fees
  import opened Retry

  // ---------------------------------------------------------------------------------------
  // Configuration.

  /** A decimal private key is rewritten as `"0x{0:064x}"`, at least 64 hex digits after
      the prefix; a `0x` key is kept. */
  function NormalizeKey64(key: string): (r: Result<string, PyError>)
    ensures StartsWith(key, "0x") ==> r == Ok(key)
    ensures !StartsWith(key, "0x") ==> (r.Ok? <==> ParseInt(key, Base10).Some?)
    ensures !StartsWith(key, "0x") && r.Ok? ==> StartsWith(r.value, "0x") && |r.value| >= 66
    ensures !StartsWith(key, "0x") && r.Ok? && ParseInt(key, Base10).value >= 0 ==> ParseInt(r.value, Base16) == ParseInt(key, Base10)
  {
    TakeIsPrefix(key, "0x");
    if Take(key, 2) == "0x" then Ok(key)
    else
      var v :- IntOf(key, Base10);
      if v >= 0 then ParsePaddedHex(v, 64); Ok("0x" + FormatHex(v, 64))
      else Ok("0x" + FormatHex(v, 64))
  }

  /** What `get_account_info` returns: an account id and an address, either possibly missing. */
  datatype Account = Account(id: Option<int>, address: Option<string>)

  /** Which service calls `get_account_info` makes for an account text: look the id up for
      an address, resolve an ENS name first, look the address up for a decimal id, or raise
      `ValueError` from `int()` before any call. */
  datatype Route = ByAddress(address: string) | ByEns(name: string) | ById(id: int) | BadId

  function RouteOf(account: string): (r: Route)
    ensures var s := Strip(account);
      && (r.ByAddress? <==> StartsWith(s, "0x"))
      && (r.ByEns? <==> !StartsWith(s, "0x") && EndsWith(s, ".eth"))
      && (r.ById? <==> !StartsWith(s, "0x") && !EndsWith(s, ".eth") && ParseInt(s, Base10).Some?)
      && (r.ByAddress? ==> r.address == s)
      && (r.ByEns? ==> r.name == s)
      && (r.ById? ==> r.id == ParseInt(s, Base10).value)
  {
    var s := Strip(account);
    TakeIsPrefix(s, "0x");
    TakeLastIsSuffix(s, ".eth");
    if Take(s, 2) == "0x" then ByAddress(s)
    else if TakeLast(s, 4) == ".eth" then ByEns(s)
    else
      match IntOf(s, Base10)
      case Ok(id) => ById(id)
      case Err(_) => BadId
  }

  /** The `retries` argument every account lookup is given. */
  const AccountRetries := 3

  /** The fate of each attempt at the `lookup`-th account lookup, given by `resolve` for the
      lookup number, the attempt number and the route; a bad id raises on every attempt. */
  function AccountAttempts(resolve: (nat, nat, Route) -> Attempt<Account>, lookup: nat, account: string): nat -> Attempt<Account> {
    var route := RouteOf(account);
    (k: nat) => if route.BadId? then Raised(ValueError) else resolve(lookup, k, route)
  }

  /** `id, address = await retry_async(get_account_info, account, retries=3)`. Three timeouts
      leave `None`, which cannot be unpacked into two names. */
  function GetAccount(resolve: (nat, nat, Route) -> Attempt<Account>, lookup: nat, account: string): (r: Result<Account, PyError>)
    ensures RouteOf(account).BadId? ==> r == Err(ValueError)
    ensures r.Ok? ==> exists k :: 0 <= k < AccountRetries && resolve(lookup, k, RouteOf(account)) == Completed(r.value)
    ensures !RouteOf(account).BadId? && (forall k | 0 <= k < AccountRetries :: resolve(lookup, k, RouteOf(account)).TimedOut?)
            ==> r == Err(TypeError)
    ensures !RouteOf(account).BadId? && resolve(lookup, 0, RouteOf(account)).Completed?
            ==> r == Ok(resolve(lookup, 0, RouteOf(account)).value)
  {
    var attempts := AccountAttempts(resolve, lookup, account);
    match RetryAsync(attempts, AccountRetries)
    case Returned(a, n) =>
      assert attempts(n - 1) == resolve(lookup, n - 1, RouteOf(account));
      Ok(a)
    case GaveUp(_) => Err(TypeError)
    case Propagated(e, _) => Err(e)
  }

  /** `assert address and account_id`: the id is present and non-zero, the address present
      and non-empty. */
  predicate Resolved(a: Account) {
    a.id.Some? && a.id.value != 0 && a.address.Some? && a.address.value != ""
  }

  /** The environment variables `load_config` reads. */
  datatype TransferEnv = TransferEnv(privateKey: Option<string>, from: Option<string>, feeTokenId: Option<string>)

  datatype TransferConfig = TransferConfig(privateKey: string, fromAccount: int, fromAddress: string, maxFeeTokenId: int, exchange: string)

  /** `str(getenv("FROM"))`: an unset variable reads as "None". */
  function FromText(v: Option<string>): string {
    if v.None? then "None" else v.value
  }

  /** `load_config`: the fee token id is read first, the sender is resolved (lookup number
      0), then the asserts run and the key is normalised. */
  function LoadConfig(env: TransferEnv, resolve: (nat, nat, Route) -> Attempt<Account>): (r: Result<TransferConfig, PyError>)
    ensures env.feeTokenId.None? ==> r == Err(TypeError)
    ensures var from := GetAccount(resolve, 0, FromText(env.from));
      r.Ok? <==> && EnvInt(env.feeTokenId).Ok?
                 && from.Ok? && Resolved(from.value)
                 && env.privateKey.Some? && env.privateKey.value != ""
                 && ValidFeeTokenId(EnvInt(env.feeTokenId).value)
                 && NormalizeKey64(env.privateKey.value).Ok?
    ensures var from := GetAccount(resolve, 0, FromText(env.from));
      r.Ok? ==> && r.value.maxFeeTokenId == EnvInt(env.feeTokenId).value && ValidFeeTokenId(r.value.maxFeeTokenId)
                && Some(r.value.fromAccount) == from.value.id && Some(r.value.fromAddress) == from.value.address
                && r.value.fromAccount != 0 && r.value.fromAddress != ""
                && r.value.privateKey == NormalizeKey64(env.privateKey.value).value
                && r.value.exchange == ExchangeAddress
  {
    var feeTokenId :- EnvInt(env.feeTokenId);
    var from :- GetAccount(resolve, 0, FromText(env.from));
    if !Resolved(from) then Err(AssertionError)
    else if env.privateKey.None? || env.privateKey.value == "" then Err(AssertionError)
    else if !ValidFeeTokenId(feeTokenId) then Err(AssertionError)
    else
      var key :- NormalizeKey64(env.privateKey.value);
      Ok(TransferConfig(key, from.id.value, from.address.value, feeTokenId, ExchangeAddress))
  }

  // ---------------------------------------------------------------------------------------
  // Command line.

  /** `--to` and `--tofile` are a required, mutually exclusive group. */
  datatype ToSource = ToArg(to: string) | ToFile(path: string)

  datatype TransferArgs = TransferArgs(amount: Option<int>, test: bool, noprompt: bool, nft: Option<string>, source: ToSource)

  datatype TransferOptions = TransferOptions(amount: int, test: bool, noprompt: bool, nft: string, source: ToSource)

  /** `parse_args`: `--nft` must be non-empty; a missing or zero `--amount` falls back to
      `int(getenv("AMOUNT") or 1)`. */
  function ParseArgs(a: TransferArgs, amountEnv: Option<string>): (r: Result<TransferOptions, PyError>)
    ensures a.nft.None? || a.nft == Some("") ==> r == Err(AssertionError)
    ensures r.Ok? ==> Some(r.value.nft) == a.nft && r.value.test == a.test && r.value.noprompt == a.noprompt && r.value.source == a.source
    ensures a.nft.Some? && a.nft.value != "" && a.amount.Some? && a.amount.value != 0 ==> r.Ok? && r.value.amount == a.amount.value
    ensures a.nft.Some? && a.nft.value != "" && (a.amount.None? || a.amount == Some(0)) && (amountEnv.None? || amountEnv == Some(""))
            ==> r.Ok? && r.value.amount == 1
    ensures a.nft.Some? && a.nft.value != "" && (a.amount.None? || a.amount == Some(0)) && amountEnv.Some? && amountEnv.value != ""
            ==> (r.Ok? <==> ParseInt(amountEnv.value, Base10).Some?) && (r.Ok? ==> r.value.amount == ParseInt(amountEnv.value, Base10).value)
  {
    if a.nft.None? || a.nft.value == "" then Err(AssertionError)
    else
      var amount :-
        if a.amount.Some? && a.amount.value != 0 then Ok(a.amount.value)
        else if amountEnv.None? || amountEnv.value == "" then Ok(1)
        else IntOf(amountEnv.value, Base10);
      Ok(TransferOptions(amount, a.test, a.noprompt, a.nft.value, a.source))
  }

  /** The recipient list: the file's lines, each stripped, or the single `--to`. An empty
      option is falsy, so neither branch runs and the name is never bound. */
  function AllTos(source: ToSource, lines: seq<string>): (r: Option<seq<string>>)
    ensures source.ToArg? ==> (r.Some? <==> source.to != "") && (r.Some? ==> r.value == [source.to])
    ensures source.ToFile? ==> (r.Some? <==> source.path != "")
    ensures source.ToFile? && r.Some? ==> |r.value| == |lines| && forall i :: 0 <= i < |lines| ==> r.value[i] == Strip(lines[i])
  {
    match source
    case ToArg(to) => if to == "" then None else Some([to])
    case ToFile(path) => if path == "" then None else Some(seq(|lines|, i requires 0 <= i < |lines| => Strip(lines[i])))
  }

  // ---------------------------------------------------------------------------------------
  // The recipient filter.

  /** The filter's three tests as written: a `0x` text that `int(to, 16)` accepts, then a
      `.eth` ending, then a decimal that `str(int(to, 10))` prints back unchanged. */
  predicate ValidTo(to: string) {
    var hex := Take(to, 2) == "0x" && IntOf(to, Base16).Ok?;
    var ens := TakeLast(to, 4) == ".eth";
    var decimal := IntOf(to, Base10).Ok? && PyStr(IntOf(to, Base10).value) == to;
    hex || ens || decimal
  }

  /** A recipient the script accepts: an address that parses in base 16, an ENS name, or a
      canonical decimal account id. */
  predicate IsRecipient(to: string) {
    || (StartsWith(to, "0x") && ParseInt(to, Base16).Some?)
    || EndsWith(to, ".eth")
    || IsCanonicalDecimal(to)
  }

  /** The filter accepts exactly the recipients: a leading `+`, a leading zero or a space
      makes a decimal invalid. */
  lemma ValidToMeans(to: string)
    ensures ValidTo(to) <==> IsRecipient(to)
  {
    TakeIsPrefix(to, "0x");
    TakeLastIsSuffix(to, ".eth");
    DecimalRoundTripIff(to);
  }

  /** A recipient the filter passes is one `get_account_info` can route: it never reaches the
      `int()` that raises. */
  lemma RecipientRoutes(to: string)
    requires IsRecipient(to)
    ensures !RouteOf(to).BadId?
  {
    StripKeepsEnds(to, "0x");
    StripKeepsEnds(to, ".eth");
    if IsCanonicalDecimal(to) {
      CanonicalDecimalEnds(to);
      StripUnchanged(to);
      DecimalRoundTripIff(to);
    }
  }

  /** The recipients of a list, in list order. */
  function Recipients(tos: seq<string>): seq<string> {
    if |tos| == 0 then []
    else Recipients(tos[..|tos| - 1]) + if IsRecipient(tos[|tos| - 1]) then [tos[|tos| - 1]] else []
  }

  /** The entry the filter records for one line. */
  datatype FilterEntry = FilterEntry(to: string, amount: int, skipped: bool)

  function FilterLog(tos: seq<string>, amount: int): seq<FilterEntry> {
    seq(|tos|, i requires 0 <= i < |tos| => FilterEntry(tos[i], amount, !IsRecipient(tos[i])))
  }

  lemma RecipientsSnoc(tos: seq<string>, n: nat)
    requires n < |tos|
    ensures Recipients(tos[..n + 1]) == Recipients(tos[..n]) + if IsRecipient(tos[n]) then [tos[n]] else []
  {
    assert tos[..n + 1][..n] == tos[..n];
  }

  lemma FilterLogSnoc(tos: seq<string>, n: nat, amount: int)
    requires n < |tos|
    ensures FilterLog(tos[..n + 1], amount) == FilterLog(tos[..n], amount) + [FilterEntry(tos[n], amount, !IsRecipient(tos[n]))]
  {
  }

  /** The filter loop: one entry per line in order, skipped exactly when the line is not a
      recipient, and the recipients kept in order. */
  method FilterTos(tos: seq<string>, amount: int) returns (filtered: seq<string>, log: seq<FilterEntry>)
    ensures filtered == Recipients(tos)
    ensures log == FilterLog(tos, amount)
  {
    filtered, log := [], [];
    var n := 0;
    while n < |tos|
      invariant n <= |tos|
      invariant filtered == Recipients(tos[..n])
      invariant log == FilterLog(tos[..n], amount)
    {
      var to := tos[n];
      ValidToMeans(to);
      RecipientsSnoc(tos, n);
      FilterLogSnoc(tos, n, amount);
      if !ValidTo(to) {
        log := log + [FilterEntry(to, amount, true)];
      } else {
        filtered := filtered + [to];
        log := log + [FilterEntry(to, amount, false)];
      }
      n := n + 1;
    }
    assert tos[..n] == tos;
  }

  /** The recipients are the lines that pass, no other text, none missed. */
  lemma {:induction false} RecipientsSelect(tos: seq<string>)
    ensures |Recipients(tos)| <= |tos|
    ensures forall x :: x in Recipients(tos) ==> x in tos && IsRecipient(x)
    ensures forall i :: 0 <= i < |tos| && IsRecipient(tos[i]) ==> tos[i] in Recipients(tos)
    ensures Recipients(tos) == [] <==> forall i :: 0 <= i < |tos| ==> !IsRecipient(tos[i])
  {
    if |tos| > 0 {
      var init := tos[..|tos| - 1];
      RecipientsSelect(init);
      assert tos == init + [tos[|tos| - 1]];
      forall i | 0 <= i < |tos| && IsRecipient(tos[i])
        ensures tos[i] in Recipients(tos)
      {
        if i < |tos| - 1 {
          assert tos[i] == init[i];
        }
      }
    }
  }

  // ---------------------------------------------------------------------------------------
  // The exchange calls made once.

  datatype ApiKey = ApiKey(apiKey: string)

  datatype NftBalance = NftBalance(data: seq<NftHolding>)

  /** The exchange as the transfer script meets it. The calls made once take their arguments;
      the transfer call also takes the recipient's position. */
  datatype TransferExchange = TransferExchange(
    apiKey: (int, string) -> Reply<ApiKey>,
    balance: int -> Reply<NftBalance>,
    storageId: (int, int) -> Reply<StorageId>,
    tokenAddress: CounterFactualNftInfo -> Reply<CounterFactualNft>,
    offchainFee: (int, int, string) -> Reply<OffchainFee>,
    transfer: (nat, TransferRequest) -> Reply<TxResponse>)

  /** `get_user_api_key`. */
  function GetUserApiKey(ex: TransferExchange, cfg: TransferConfig): (r: Result<string, Stop>)
    ensures var reply := ex.apiKey(cfg.fromAccount, cfg.privateKey);
      && (reply.NoBody? <==> r == Err(Crashed(UnboundLocalError)))
      && (Rejected(reply) <==> r == Err(Exited("Failed to obtain user api key")))
      && (r.Ok? ==> Delivered(reply, ApiKey(r.value)))
  {
    var reply :- Crash(Receive(ex.apiKey(cfg.fromAccount, cfg.privateKey)));
    if reply.value.None? then Err(Exited("Failed to obtain user api key")) else Ok(reply.value.value.apiKey)
  }

  /** The first holding whose id equals `nft` ignoring case, as the list comprehension and
      `nft_info[0]` after appending `None` pick it. */
  function FindNft(balance: seq<NftHolding>, nft: string): (r: Option<NftHolding>)
    ensures r.None? <==> forall i :: 0 <= i < |balance| ==> Lower(balance[i].nftId) != Lower(nft)
    ensures r.Some? ==> exists i :: && 0 <= i < |balance| && balance[i] == r.value && Lower(balance[i].nftId) == Lower(nft)
                                    && forall j :: 0 <= j < i ==> Lower(balance[j].nftId) != Lower(nft)
  {
    if |balance| == 0 then None
    else if Lower(balance[0].nftId) == Lower(nft) then Some(balance[0])
    else
      var r := FindNft(balance[1..], nft);
      assert forall i :: 0 <= i < |balance| - 1 ==> balance[1..][i] == balance[i + 1];
      r
  }

  /** The lookup ignores the case of the id asked for. */
  lemma {:induction false} FindNftIgnoresCase(balance: seq<NftHolding>, nft: string, other: string)
    requires Lower(nft) == Lower(other)
    ensures FindNft(balance, nft) == FindNft(balance, other)
  {
    if |balance| > 0 {
      FindNftIgnoresCase(balance[1..], nft, other);
    }
  }

  /** `get_nft_info`: the balance is fetched; the holding may be missing. */
  function GetNftInfo(ex: TransferExchange, cfg: TransferConfig, nft: string): (r: Result<Option<NftHolding>, Stop>)
    ensures var reply := ex.balance(cfg.fromAccount);
      && (reply.NoBody? <==> r == Err(Crashed(UnboundLocalError)))
      && (Rejected(reply) <==> r == Err(Exited("Failed to obtain nft balance")))
      && (r.Ok? ==> reply.Reply? && reply.body.Some? && r.value == FindNft(reply.body.value.data, nft))
  {
    var reply :- Crash(Receive(ex.balance(cfg.fromAccount)));
    if reply.value.None? then Err(Exited("Failed to obtain nft balance")) else Ok(FindNft(reply.value.value.data, nft))
  }

  /** The fee request type for an NFT transfer. */
  const TransferRequestType := 11

  /** `get_offchain_parameters` for the NFT's token id: like the minter's, a missing fee is
      indexed by the log line before its `None` check and raises `TypeError`. */
  function GetTransferParameters(ex: TransferExchange, cfg: TransferConfig, tokenId: int): (r: Result<OffchainParams, Stop>)
    ensures r.Ok? ==> r.value.info == CounterFactualNftInfo(cfg.fromAddress, NftFactory, "")
    ensures r.Ok? ==> Delivered(ex.storageId(cfg.fromAccount, tokenId), r.value.storage)
    ensures r.Ok? ==> Delivered(ex.tokenAddress(r.value.info), r.value.token)
    ensures r.Ok? ==> Delivered(ex.offchainFee(cfg.fromAccount, TransferRequestType, r.value.token.tokenAddress), r.value.fee)
    ensures r.Ok? ==> FeeQuote(r.value.fee, cfg.maxFeeTokenId) == Ok(r.value.quote)
    ensures Rejected(ex.storageId(cfg.fromAccount, tokenId)) ==> r == Err(Exited("Failed to obtain storage id"))
    ensures forall s | Delivered(ex.storageId(cfg.fromAccount, tokenId), s)
                       && Rejected(ex.tokenAddress(CounterFactualNftInfo(cfg.fromAddress, NftFactory, "")))
      :: r == Err(Exited("Failed to obtain token address"))
    ensures forall s, t | Delivered(ex.storageId(cfg.fromAccount, tokenId), s)
                         && Delivered(ex.tokenAddress(CounterFactualNftInfo(cfg.fromAddress, NftFactory, "")), t)
                         && Rejected(ex.offchainFee(cfg.fromAccount, TransferRequestType, t.tokenAddress))
      :: r == Err(Crashed(TypeError))
  {
    var storage :- Crash(Receive(ex.storageId(cfg.fromAccount, tokenId)));
    if storage.value.None? then Err(Exited("Failed to obtain storage id"))
    else
      var info := CounterFactualNftInfo(cfg.fromAddress, NftFactory, "");
      var token :- Crash(Receive(ex.tokenAddress(info)));
      if token.value.None? then Err(Exited("Failed to obtain token address"))
      else
        var fee :- Crash(Receive(ex.offchainFee(cfg.fromAccount, TransferRequestType, token.value.value.tokenAddress)));
        if fee.value.None? then Err(Crashed(TypeError))
        else
          var quote :- Crash(FeeQuote(fee.value.value, cfg.maxFeeTokenId));
          Ok(OffchainParams(storage.value.value, info, token.value.value, fee.value.value, quote))
  }

  // ---------------------------------------------------------------------------------------
  // One transfer.

  /** The signed transfer order and its signature. */
  datatype TransferSigned = TransferSigned(order: NftTransferInputs, signature: string)

  /** `get_hashes_and_sign`: the twelve transfer inputs with the current storage id, signed
      whole. */
  function SignTransfer(c: Crypto, cfg: TransferConfig, tokenId: int, amount: int, toAccount: int, toAddress: string, p: OffchainParams, offchainId: int): (r: Result<TransferSigned, PyError>)
    ensures r.Ok? <==> ParseInt(cfg.exchange, Base16).Some? && ParseInt(p.quote.fee, Base10).Some? && ParseInt(toAddress, Base16).Some?
    ensures r.Err? ==> r.error == ValueError
    ensures r.Ok? ==> r.value.order == NftTransferInputs(
      ParseInt(cfg.exchange, Base16).value, cfg.fromAccount, toAccount, tokenId, amount,
      cfg.maxFeeTokenId, ParseInt(p.quote.fee, Base10).value, ParseInt(toAddress, Base16).value, ValidUntil, offchainId)
    ensures r.Ok? ==> r.value.signature == c.eddsa(NftTransferHelper, cfg.privateKey, r.value.order.Inputs())
  {
    var exchange :- IntOf(cfg.exchange, Base16);
    var fee :- IntOf(p.quote.fee, Base10);
    var to :- IntOf(toAddress, Base16);
    var order := NftTransferInputs(exchange, cfg.fromAccount, toAccount, tokenId, amount, cfg.maxFeeTokenId, fee, to, ValidUntil, offchainId);
    SerializeKeepsShort(NftTransferHelper, order.Inputs());
    Ok(TransferSigned(order, Sign(c, NftTransferHelper, cfg.privateKey, order.Inputs())))
  }

  /** The arguments `transfer_nft` passes to `transferNft`, credentials aside. */
  datatype TransferRequest = TransferRequest(
    exchange: string,
    fromAccountId: int,
    fromAddress: string,
    toAccountId: int,
    toAddress: string,
    amount: int,
    validUntil: int,
    storageId: int,
    maxFeeTokenId: int,
    maxFeeAmount: string,
    memo: string,
    nftInfo: NftHolding,
    counterFactualNftInfo: CounterFactualNftInfo,
    eddsaSignature: string)

  function RequestOf(cfg: TransferConfig, amount: int, toAccount: int, toAddress: string, nft: NftHolding, p: OffchainParams, offchainId: int, s: TransferSigned): TransferRequest {
    TransferRequest(
      cfg.exchange, cfg.fromAccount, cfg.fromAddress, toAccount, toAddress, amount, ValidUntil, offchainId,
      cfg.maxFeeTokenId, p.quote.fee, "", nft, p.info, s.signature)
  }

  /** What was sent is what was signed: the request's fields read back as the order. */
  lemma RequestMatchesOrder(c: Crypto, cfg: TransferConfig, amount: int, toAccount: int, toAddress: string, nft: NftHolding, p: OffchainParams, offchainId: int)
    requires SignTransfer(c, cfg, nft.tokenId, amount, toAccount, toAddress, p, offchainId).Ok?
    ensures var s := SignTransfer(c, cfg, nft.tokenId, amount, toAccount, toAddress, p, offchainId).value;
      var q := RequestOf(cfg, amount, toAccount, toAddress, nft, p, offchainId, s);
      && ParseInt(q.exchange, Base16) == Some(s.order.exchange)
      && q.fromAccountId == s.order.fromAccountId && q.toAccountId == s.order.toAccountId
      && q.nftInfo.tokenId == s.order.tokenId && q.amount == s.order.amount
      && q.maxFeeTokenId == s.order.feeTokenId && ParseInt(q.maxFeeAmount, Base10) == Some(s.order.fee)
      && ParseInt(q.toAddress, Base16) == Some(s.order.toAddress)
      && q.validUntil == s.order.validUntil && q.storageId == s.order.storageId
      && DecodeNftTransfer(s.order.Inputs()) == Some(s.order)
  {
    var s := SignTransfer(c, cfg, nft.tokenId, amount, toAccount, toAddress, p, offchainId).value;
    NftTransferRoundTrip(s.order);
  }

  datatype TransferResult = Success | Failed | TestMode

  /** `transfer_nft`: in test mode nothing is sent; otherwise SUCCESS needs a response and
      status 200, and anything else is FAILED. */
  function TransferNft(ex: TransferExchange, pos: nat, test: bool, q: TransferRequest): (r: Result<(TransferResult, Option<TxResponse>), PyError>)
    ensures test ==> r == Ok((TestMode, None))
    ensures !test ==> (r.Err? <==> ex.transfer(pos, q).NoBody?)
    ensures r.Ok? ==> (r.value.0 == Success <==> !test && AcceptedReply(ex.transfer(pos, q)))
    ensures r.Ok? && r.value.0 == Success ==> r.value.1 == ex.transfer(pos, q).body
    ensures r.Ok? ==> (r.value.0 == TestMode <==> test)
  {
    if test then Ok((TestMode, None))
    else
      var m :- Receive(ex.transfer(pos, q));
      Ok((if m.value.Some? && m.lastStatus == 200 then Success else Failed, m.value))
  }

  // ---------------------------------------------------------------------------------------
  // The transfer loop.

  /** What the loop works with once the fee is approved. */
  datatype TransferContext = TransferContext(
    cfg: TransferConfig, amount: int, test: bool, recipients: seq<string>, nft: NftHolding, params: OffchainParams,
    resolve: (nat, nat, Route) -> Attempt<Account>, ex: TransferExchange, crypto: Crypto)

  /** The record of one finished transfer. */
  datatype TransferReport = TransferReport(to: string, account: int, address: string, result: TransferResult)

  /** The loop's state: the reports, the requests sent, the storage id the next transfer
      signs with, and the stop. */
  datatype Transfers = Transfers(reports: seq<TransferReport>, requests: seq<TransferRequest>, offchainId: int, stop: Option<Stop>)

  /** The request is recorded before the call, except in test mode. */
  function Record(ctx: TransferContext, st: Transfers, q: TransferRequest): Transfers {
    if ctx.test then st else st.(requests := st.requests + [q])
  }

  /** Signing and sending to a resolved recipient. */
  function Send(ctx: TransferContext, pos: nat, to: string, account: int, address: string, st: Transfers): Transfers {
    match SignTransfer(ctx.crypto, ctx.cfg, ctx.nft.tokenId, ctx.amount, account, address, ctx.params, st.offchainId)
    case Err(e) => st.(stop := Some(Crashed(e)))
    case Ok(s) =>
      var q := RequestOf(ctx.cfg, ctx.amount, account, address, ctx.nft, ctx.params, st.offchainId, s);
      var st := Record(ctx, st, q);
      match TransferNft(ctx.ex, pos, ctx.test, q)
      case Err(e) => st.(stop := Some(Crashed(e)))
      case Ok((result, response)) =>
        if result == Success && (response.None? || response.value.hash.None?) then st.(stop := Some(Crashed(KeyError)))
        else
          st.(reports := st.reports + [TransferReport(to, account, address, result)],
              offchainId := if result == Success then st.offchainId + 2 else st.offchainId)
  }

  /** One iteration of `for i, to in enumerate(filtered_tos)`; the recipient is lookup
      number `pos + 1`. */
  function Step(ctx: TransferContext, pos: nat, st: Transfers): Transfers
    requires pos < |ctx.recipients|
  {
    var to := ctx.recipients[pos];
    match GetAccount(ctx.resolve, pos + 1, to)
    case Err(e) => st.(stop := Some(Crashed(e)))
    case Ok(a) =>
      if !Resolved(a) then st.(stop := Some(Crashed(AssertionError)))
      else Send(ctx, pos, to, a.id.value, a.address.value, st)
  }

  function RunFrom(ctx: TransferContext, pos: nat, st: Transfers): Transfers
    requires pos <= |ctx.recipients|
    decreases |ctx.recipients| - pos
  {
    if pos == |ctx.recipients| || st.stop.Some? then st
    else RunFrom(ctx, pos + 1, Step(ctx, pos, st))
  }

  /** The number of successful transfers among the reports. */
  function Successes(reports: seq<TransferReport>): nat {
    if |reports| == 0 then 0
    else Successes(reports[..|reports| - 1]) + if reports[|reports| - 1].result == Success then 1 else 0
  }

  lemma SuccessesAppend(reports: seq<TransferReport>, r: TransferReport)
    ensures Successes(reports + [r]) == Successes(reports) + if r.result == Success then 1 else 0
  {
    assert (reports + [r])[..|reports|] == reports;
  }

  /** The storage-id ledger: the next id is the initial one plus twice the successes, and
      each request carries the id that was current when it was signed. */
  predicate Ledger(initial: int, st: Transfers) {
    && st.offchainId == initial + 2 * Successes(st.reports)
    && forall k :: 0 <= k < |st.requests| ==>
         k <= |st.reports| && st.requests[k].storageId == initial + 2 * Successes(st.reports[..k])
  }

  /** The facts the loop keeps, `pos` being the number of iterations begun. */
  predicate Kept(ctx: TransferContext, initial: int, pos: nat, st: Transfers) {
    && Ledger(initial, st)
    && |st.reports| <= pos
    && (st.stop.None? ==> |st.reports| == pos)
    && (forall k :: 0 <= k < |st.reports| ==> k < |ctx.recipients| && st.reports[k].to == ctx.recipients[k])
    && (ctx.test ==> st.requests == [] && Successes(st.reports) == 0)
    && (!ctx.test ==> |st.reports| <= |st.requests| <= |st.reports| + 1)
    && (!ctx.test && st.stop.None? ==> |st.requests| == |st.reports|)
  }

  lemma StopKept(ctx: TransferContext, initial: int, pos: nat, st: Transfers, s: Stop)
    requires Kept(ctx, initial, pos, st) && st.stop.None?
    ensures Kept(ctx, initial, pos + 1, st.(stop := Some(s)))
  {
  }

  lemma RecordLedger(ctx: TransferContext, initial: int, pos: nat, st: Transfers, q: TransferRequest)
    requires Kept(ctx, initial, pos, st) && st.stop.None? && q.storageId == st.offchainId
    ensures Ledger(initial, Record(ctx, st, q))
  {
    assert st.reports[..|st.reports|] == st.reports;
  }

  lemma RecordStopKept(ctx: TransferContext, initial: int, pos: nat, st: Transfers, q: TransferRequest, s: Stop)
    requires Kept(ctx, initial, pos, st) && st.stop.None? && q.storageId == st.offchainId
    ensures Kept(ctx, initial, pos + 1, Record(ctx, st, q).(stop := Some(s)))
  {
    RecordLedger(ctx, initial, pos, st, q);
  }

  lemma ReportLedger(initial: int, st: Transfers, report: TransferReport)
    requires Ledger(initial, st) && |st.requests| <= |st.reports| + 1
    ensures Ledger(initial, st.(reports := st.reports + [report],
                                offchainId := if report.result == Success then st.offchainId + 2 else st.offchainId))
  {
    var r := st.(reports := st.reports + [report],
                 offchainId := if report.result == Success then st.offchainId + 2 else st.offchainId);
    SuccessesAppend(st.reports, report);
    forall k | 0 <= k < |r.requests|
      ensures k <= |r.reports| && r.requests[k].storageId == initial + 2 * Successes(r.reports[..k])
    {
      assert r.reports[..k] == st.reports[..k];
    }
  }

  lemma RecordReportKept(ctx: TransferContext, initial: int, pos: nat, st: Transfers, q: TransferRequest, report: TransferReport)
    requires pos < |ctx.recipients| && report.to == ctx.recipients[pos]
    requires ctx.test ==> report.result != Success
    requires Kept(ctx, initial, pos, st) && st.stop.None? && q.storageId == st.offchainId
    ensures var st' := Record(ctx, st, q);
      Kept(ctx, initial, pos + 1, st'.(reports := st'.reports + [report],
                                       offchainId := if report.result == Success then st'.offchainId + 2 else st'.offchainId))
  {
    var st' := Record(ctx, st, q);
    var r := st'.(reports := st'.reports + [report],
                  offchainId := if report.result == Success then st'.offchainId + 2 else st'.offchainId);
    RecordLedger(ctx, initial, pos, st, q);
    ReportLedger(initial, st', report);
    assert Ledger(initial, r);
    SuccessesAppend(st.reports, report);
    assert forall k :: 0 <= k < |r.reports| ==> k < |ctx.recipients| && r.reports[k].to == ctx.recipients[k] by {
      forall k | 0 <= k < |r.reports|
        ensures k < |ctx.recipients| && r.reports[k].to == ctx.recipients[k]
      {
        if k < |st.reports| {
          assert r.reports[k] == st.reports[k];
        }
      }
    }
  }

  lemma SendKept(ctx: TransferContext, initial: int, pos: nat, to: string, account: int, address: string, st: Transfers)
    requires pos < |ctx.recipients| && to == ctx.recipients[pos]
    requires Kept(ctx, initial, pos, st) && st.stop.None?
    ensures Kept(ctx, initial, pos + 1, Send(ctx, pos, to, account, address, st))
  {
    var signed := SignTransfer(ctx.crypto, ctx.cfg, ctx.nft.tokenId, ctx.amount, account, address, ctx.params, st.offchainId);
    if signed.Err? {
      StopKept(ctx, initial, pos, st, Crashed(signed.error));
    } else {
      var q := RequestOf(ctx.cfg, ctx.amount, account, address, ctx.nft, ctx.params, st.offchainId, signed.value);
      var sent := TransferNft(ctx.ex, pos, ctx.test, q);
      if sent.Err? {
        RecordStopKept(ctx, initial, pos, st, q, Crashed(sent.error));
      } else {
        var (result, response) := sent.value;
        if result == Success && (response.None? || response.value.hash.None?) {
          RecordStopKept(ctx, initial, pos, st, q, Crashed(KeyError));
        } else {
          RecordReportKept(ctx, initial, pos, st, q, TransferReport(to, account, address, result));
        }
      }
    }
  }

  lemma StepKept(ctx: TransferContext, initial: int, pos: nat, st: Transfers)
    requires pos < |ctx.recipients|
    requires Kept(ctx, initial, pos, st) && st.stop.None?
    ensures Kept(ctx, initial, pos + 1, Step(ctx, pos, st))
  {
    var a := GetAccount(ctx.resolve, pos + 1, ctx.recipients[pos]);
    if a.Ok? && Resolved(a.value) {
      SendKept(ctx, initial, pos, ctx.recipients[pos], a.value.id.value, a.value.address.value, st);
    }
  }

  lemma {:induction false} RunKept(ctx: TransferContext, initial: int, pos: nat, st: Transfers)
    requires pos <= |ctx.recipients|
    requires Kept(ctx, initial, pos, st)
    ensures Kept(ctx, initial, |ctx.recipients|, RunFrom(ctx, pos, st))
    ensures RunFrom(ctx, pos, st).stop.None? ==> |RunFrom(ctx, pos, st).reports| == |ctx.recipients|
    decreases |ctx.recipients| - pos
  {
    if pos < |ctx.recipients| && st.stop.None? {
      var next := Step(ctx, pos, st);
      StepKept(ctx, initial, pos, st);
      RunKept(ctx, initial, pos + 1, next);
      assert RunFrom(ctx, pos, st) == RunFrom(ctx, pos + 1, next);
    } else {
      assert RunFrom(ctx, pos, st) == st;
    }
  }

  /** An iteration stops the loop, if at all, by crashing. */
  lemma NextStops(ctx: TransferContext, pos: nat, st: Transfers)
    requires pos < |ctx.recipients| && st.stop.None?
    ensures exists next: Transfers :: (next.stop.None? || next.stop.value.Crashed?) && RunFrom(ctx, pos, st) == RunFrom(ctx, pos + 1, next)
  {
    var next := Step(ctx, pos, st);
    assert RunFrom(ctx, pos, st) == RunFrom(ctx, pos + 1, next);
  }

  /** The loop only ever stops by crashing. */
  lemma {:induction false} RunStops(ctx: TransferContext, pos: nat, st: Transfers)
    requires pos <= |ctx.recipients|
    requires st.stop.None? || st.stop.value.Crashed?
    ensures RunFrom(ctx, pos, st).stop.None? || RunFrom(ctx, pos, st).stop.value.Crashed?
    decreases |ctx.recipients| - pos, 1
  {
    if pos < |ctx.recipients| && st.stop.None? {
      RunOnStops(ctx, pos, st);
    }
  }

  lemma {:induction false} RunOnStops(ctx: TransferContext, pos: nat, st: Transfers)
    requires pos < |ctx.recipients| && st.stop.None?
    ensures RunFrom(ctx, pos, st).stop.None? || RunFrom(ctx, pos, st).stop.value.Crashed?
    decreases |ctx.recipients| - pos, 0
  {
    NextStops(ctx, pos, st);
    var next: Transfers :| (next.stop.None? || next.stop.value.Crashed?) && RunFrom(ctx, pos, st) == RunFrom(ctx, pos + 1, next);
    RunStops(ctx, pos + 1, next);
  }

  /** The storage id moves on by 2 after each successful transfer and only then: it ends at
      the initial id plus twice the successes, each request is signed with the initial id
      plus twice the successes before it, test mode sends nothing and leaves the id alone,
      and a run that completes reports on every recipient in order. */
  lemma TransferLedger(ctx: TransferContext, initial: int)
    ensures var r := RunFrom(ctx, 0, Transfers([], [], initial, None));
      && r.offchainId == initial + 2 * Successes(r.reports)
      && (forall k :: 0 <= k < |r.requests| ==> k <= |r.reports| && r.requests[k].storageId == initial + 2 * Successes(r.reports[..k]))
      && (ctx.test ==> r.requests == [] && r.offchainId == initial)
      && (r.stop.None? ==> |r.reports| == |ctx.recipients| && forall k :: 0 <= k < |r.reports| ==> r.reports[k].to == ctx.recipients[k])
  {
    RunKept(ctx, initial, 0, Transfers([], [], initial, None));
  }

  // ---------------------------------------------------------------------------------------
  // The script.

  /** What a run leaves behind: the filter's entries, whether the API key was asked for, the
      prompts shown and the count the estimate used, the reports and requests, and the stop. */
  datatype TransferOutcome = TransferOutcome(
    log: seq<FilterEntry>, apiKeyRequested: bool, prompts: nat, estimate: Option<nat>,
    reports: seq<TransferReport>, requests: seq<TransferRequest>, stop: Option<Stop>)

  function Halted(log: seq<FilterEntry>, apiKeyRequested: bool, stop: Stop): TransferOutcome {
    TransferOutcome(log, apiKeyRequested, 0, None, [], [], Some(stop))
  }

  const InitFailure := "Failed to initialize the transfers"

  /** Everything after the filter found recipients: the API key, the NFT, the fee
      parameters, the gate and the loop. */
  function AfterFilter(opts: TransferOptions, cfg: TransferConfig, log: seq<FilterEntry>, recipients: seq<string>,
                       resolve: (nat, nat, Route) -> Attempt<Account>, ex: TransferExchange, crypto: Crypto, stdin: seq<string>): TransferOutcome {
    match GetUserApiKey(ex, cfg)
    case Err(s) => Halted(log, true, s)
    case Ok(_) =>
      match GetNftInfo(ex, cfg, opts.nft)
      case Err(s) => Halted(log, true, s)
      case Ok(None) => Halted(log, true, Crashed(TypeError))
      case Ok(Some(nft)) =>
        match GetTransferParameters(ex, cfg, nft.tokenId)
        case Err(s) => Halted(log, true, s)
        case Ok(p) => Gated(opts, cfg, log, recipients, nft, p, resolve, ex, crypto, stdin)
  }

  /** The fee prompt and, once it is passed, the loop from the fetched storage id. */
  function Gated(opts: TransferOptions, cfg: TransferConfig, log: seq<FilterEntry>, recipients: seq<string>, nft: NftHolding, p: OffchainParams,
                 resolve: (nat, nat, Route) -> Attempt<Account>, ex: TransferExchange, crypto: Crypto, stdin: seq<string>): TransferOutcome {
    var g := FeeGate(opts.noprompt, p.quote, |recipients|, stdin);
    var prompts := if g.prompted then 1 else 0;
    if g.halt.Some? then TransferOutcome(log, true, prompts, g.estimated, [], [], g.halt)
    else
      var ctx := TransferContext(cfg, opts.amount, opts.test, recipients, nft, p, resolve, ex, crypto);
      var run := RunFrom(ctx, 0, Transfers([], [], p.storage.offchainId, None));
      TransferOutcome(log, true, prompts, g.estimated, run.reports, run.requests, run.stop)
  }

  /** The gate: at most one prompt, none with `--noprompt`, the estimate counts the
      recipients, and an answer of no sends nothing. */
  lemma GatedGate(opts: TransferOptions, cfg: TransferConfig, log: seq<FilterEntry>, recipients: seq<string>, nft: NftHolding, p: OffchainParams,
                  resolve: (nat, nat, Route) -> Attempt<Account>, ex: TransferExchange, crypto: Crypto, stdin: seq<string>)
    ensures var r := Gated(opts, cfg, log, recipients, nft, p, resolve, ex, crypto, stdin);
      && r.log == log && r.apiKeyRequested
      && r.prompts <= 1
      && (opts.noprompt ==> r.prompts == 0)
      && (r.estimate.Some? ==> r.estimate.value == |recipients|)
      && (r.stop == Some(Exited(AbortedByUser)) ==> r.requests == [] && r.reports == [])
      && r.stop != Some(ExitedCleanly)
  {
    var g := FeeGate(opts.noprompt, p.quote, |recipients|, stdin);
    if g.halt.None? {
      var ctx := TransferContext(cfg, opts.amount, opts.test, recipients, nft, p, resolve, ex, crypto);
      var run := RunFrom(ctx, 0, Transfers([], [], p.storage.offchainId, None));
      RunStops(ctx, 0, Transfers([], [], p.storage.offchainId, None));
      assert run.stop != Some(ExitedCleanly) && run.stop != Some(Exited(AbortedByUser));
    }
  }

  /** Past the filter, the API key is always asked for, and the gate's facts hold. */
  lemma AfterFilterGate(opts: TransferOptions, cfg: TransferConfig, log: seq<FilterEntry>, recipients: seq<string>,
                        resolve: (nat, nat, Route) -> Attempt<Account>, ex: TransferExchange, crypto: Crypto, stdin: seq<string>)
    ensures var r := AfterFilter(opts, cfg, log, recipients, resolve, ex, crypto, stdin);
      && r.log == log && r.apiKeyRequested
      && r.prompts <= 1
      && (opts.noprompt ==> r.prompts == 0)
      && (r.estimate.Some? ==> r.estimate.value == |recipients|)
      && (r.stop == Some(Exited(AbortedByUser)) ==> r.requests == [] && r.reports == [])
      && r.stop != Some(ExitedCleanly)
  {
    var key := GetUserApiKey(ex, cfg);
    if key.Ok? {
      var nft := GetNftInfo(ex, cfg, opts.nft);
      if nft.Ok? && nft.value.Some? {
        var p := GetTransferParameters(ex, cfg, nft.value.value.tokenId);
        if p.Ok? {
          GatedGate(opts, cfg, log, recipients, nft.value.value, p.value, resolve, ex, crypto, stdin);
        }
      }
    }
  }

  /** `with open(args.tofile)`: `file` holds the file's lines, or `None` when it cannot be
      opened. Only a non-empty `--tofile` opens anything. */
  predicate OpenFails(source: ToSource, file: Option<seq<string>>) {
    source.ToFile? && source.path != "" && file.None?
  }

  /** The lines read, empty when nothing was opened. */
  function LinesOf(file: Option<seq<string>>): seq<string> {
    if file.Some? then file.value else []
  }

  /** `main`: bad options end the run with the initialisation message; a `--tofile` that
      cannot be opened raises before the configuration is read; a configuration error raises;
      and the API key is asked for only once the configuration loads and some recipient passes
      the filter. */
  function Main(a: TransferArgs, amountEnv: Option<string>, env: TransferEnv, file: Option<seq<string>>,
                resolve: (nat, nat, Route) -> Attempt<Account>, ex: TransferExchange, crypto: Crypto, stdin: seq<string>): (r: TransferOutcome)
    ensures a.nft.None? || a.nft == Some("") ==>
      r.stop == Some(Exited(InitFailure)) && r.log == [] && !r.apiKeyRequested && r.requests == []
    ensures ParseArgs(a, amountEnv).Ok? && OpenFails(ParseArgs(a, amountEnv).value.source, file) ==>
      r.stop == Some(Crashed(FileNotFoundError)) && r.log == [] && !r.apiKeyRequested && r.requests == []
    ensures ParseArgs(a, amountEnv).Ok? && !OpenFails(ParseArgs(a, amountEnv).value.source, file) && LoadConfig(env, resolve).Err? ==>
      r.stop == Some(Crashed(LoadConfig(env, resolve).error)) && r.log == [] && !r.apiKeyRequested && r.requests == []
    ensures r.apiKeyRequested ==>
      && ParseArgs(a, amountEnv).Ok? && LoadConfig(env, resolve).Ok?
      && !OpenFails(ParseArgs(a, amountEnv).value.source, file)
      && AllTos(ParseArgs(a, amountEnv).value.source, LinesOf(file)).Some?
      && |Recipients(AllTos(ParseArgs(a, amountEnv).value.source, LinesOf(file)).value)| > 0
  {
    match ParseArgs(a, amountEnv)
    case Err(_) => Halted([], false, Exited(InitFailure))
    case Ok(opts) =>
      if OpenFails(opts.source, file) then Halted([], false, Crashed(FileNotFoundError))
      else
        match LoadConfig(env, resolve)
        case Err(e) => Halted([], false, Crashed(e))
        case Ok(cfg) =>
          match AllTos(opts.source, LinesOf(file))
          case None => Halted([], false, Crashed(UnboundLocalError))
          case Some(tos) =>
            var log := FilterLog(tos, opts.amount);
            var recipients := Recipients(tos);
            if |recipients| == 0 then Halted(log, false, ExitedCleanly)
            else AfterFilter(opts, cfg, log, recipients, resolve, ex, crypto, stdin)
  }

  /** Once the `--tofile` is read and the configuration loads, the filter runs over every
      line; with no recipient the script exits with status 0 before asking for the API key,
      and otherwise the one fee prompt counts the recipients, is skipped with `--noprompt`,
      and an answer of no sends nothing. */
  lemma MainFilterAndGate(a: TransferArgs, amountEnv: Option<string>, env: TransferEnv, file: Option<seq<string>>,
                          resolve: (nat, nat, Route) -> Attempt<Account>, ex: TransferExchange, crypto: Crypto, stdin: seq<string>)
    requires ParseArgs(a, amountEnv).Ok? && LoadConfig(env, resolve).Ok?
    requires !OpenFails(ParseArgs(a, amountEnv).value.source, file)
    requires AllTos(ParseArgs(a, amountEnv).value.source, LinesOf(file)).Some?
    ensures var opts := ParseArgs(a, amountEnv).value;
      var tos := AllTos(opts.source, LinesOf(file)).value;
      var r := Main(a, amountEnv, env, file, resolve, ex, crypto, stdin);
      && r.log == FilterLog(tos, opts.amount)
      && ((forall i :: 0 <= i < |tos| ==> !IsRecipient(tos[i])) <==> r.stop == Some(ExitedCleanly))
      && ((forall i :: 0 <= i < |tos| ==> !IsRecipient(tos[i])) <==> !r.apiKeyRequested)
      && r.prompts <= 1
      && (opts.noprompt ==> r.prompts == 0)
      && (r.estimate.Some? ==> r.estimate.value == |Recipients(tos)|)
      && (r.stop == Some(Exited(AbortedByUser)) ==> r.requests == [] && r.reports == [])
  {
    var opts := ParseArgs(a, amountEnv).value;
    var cfg := LoadConfig(env, resolve).value;
    var tos := AllTos(opts.source, LinesOf(file)).value;
    RecipientsSelect(tos);
    AfterFilterGate(opts, cfg, FilterLog(tos, opts.amount), Recipients(tos), resolve, ex, crypto, stdin);
  }
}

=== FILE: wrappers.dfy ===
/** Option and Result values used in place of Python's `None` and raised exceptions. */
module Wrappers {

  /** `None` stands for Python's `None`; `Some(v)` for a present value. */
  datatype Option<+T> = None | Some(value: T) {

    predicate IsFailure() {
      None?
    }

    function PropagateFailure<U>(): Option<U>
      requires None?
    {
      None
    }

    function Extract(): T
      requires Some?
    {
      value
    }
  }

  /** `Ok(v)` for a normal return, `Err(e)` for an exception or an abort of the script. */
  datatype Result<+T, +E> = Ok(value: T) | Err(error: E) {

    predicate IsFailure() {
      Err?
    }

    function PropagateFailure<U>(): Result<U, E>
      requires Err?
    {
      Err(error)
    }

    function Extract(): T
      requires Ok?
    {
      value
    }
  }
}
